=== FILE: README.md ===
# tigoplanes — a Dafny model of the app's decision logic

tigoplanes is a mobile app for browsing and hiring mobile phone plans, built
with Expo on top of a hosted Supabase backend. Registered users browse the
catalogue and ask to hire a plan. Commercial advisors (`asesor_comercial`)
publish and edit plans, and approve or reject hiring requests
(`contrataciones`).

The app itself mostly calls the backend. This project models the decisions it
makes around those calls:

- **Deep links.** How the root layout (`app/_layout.tsx`) and its second copy
  (`app/auth/callback.tsx`) turn an incoming URL into route parameters and a
  navigation. Both files also hold the guard that sends a signed-in user out
  of the `/auth` screens.
- **The three use cases.** `AuthUseCase`, `ContratacionesUseCase` (in
  `ChatUseCase.ts`) and `PlanesUseCase`, each an operation on an explicit
  backend state:
  - the auth provider's principal and the `usuarios` profile table;
  - the `contrataciones` and `planes_moviles` tables, each a sequence of rows;
  - the `planes-imagenes` storage bucket, a set of object paths (uploads go
    to its `planes/` folder).
- **The hooks.** `useAuth`, `usePlanes` and `useContrataciones`: which query
  feeds a list, and reloading only after a success.
- **The screens.** Registration, sign-in, password reset and change, the
  profile, and plan creation, editing and detail. For each: its ordered
  validation chain, the request it sends, and the alert or navigation it ends
  in.

Whatever the app asks of the outside world is a parameter of the model:

- every backend error, as `Option<string>` (`None` means the call succeeded);
- clock readings, as integers;
- `parseFloat`, `toString` of a price, `getPublicUrl`, and the URL parsers
  (`URLSearchParams`, `Linking.parse`, `new URL`), as functions.

Each module follows one source file. `Base`, `Tables`, `Router`, `Validators`
and `PlanForm` hold what several files share.

## Model

| member | source | states |
|---|---|---|
| Models.ParseRol | src/domain/models/Usuario.ts:6 | a role text parses to the role with that text, and only the two role texts parse |
| Models.ParseEstado | src/domain/models/Mensaje.tsx:8 | an estado text parses to the estado with that text, and nothing else parses |
| Models.ColumnTextRoundTrip | src/domain/models/Mensaje.tsx:4-19 | the text written for a role or an estado reads back as the same value |
| RootLayout.AssignLastWins | app/_layout.tsx:26-28 | copying pairs into the mapping leaves each key with its last value in the pairs, or its earlier value when the pairs lack the key |
| RootLayout.QueryText | app/_layout.tsx:22-23 | a query component exists iff the URL has a `?`; it is the whole text after the first `?` up to the next `?` or `#` or the end, and holds neither |
| RootLayout.FragmentText | app/_layout.tsx:33-34 | a fragment component exists iff the URL has a `#`; it is the whole text after the first `#` up to the next `#` or the end, and holds no `#` |
| RootLayout.QueryOfJoin | app/_layout.tsx:22-23 | a URL built as path, `?`, query and a tail that is empty or starts with `?` or `#` yields exactly that query |
| RootLayout.ComponentsOfAssembledUrl | app/_layout.tsx:22-34 | a URL built as `path?query#fragment` from parts free of the separators yields exactly that query and that fragment |
| RootLayout.QueryOfUrlWithoutFragment | app/_layout.tsx:22-34 | a URL built as `path?query` yields exactly that query and no fragment |
| RootLayout.ExtractParams | app/_layout.tsx:19-41 | a URL with no non-empty query or fragment gives the empty mapping |
| RootLayout.MergedParams | app/_layout.tsx:19-41 | each key maps to its last fragment value, else to its last query value, else to nothing |
| RootLayout.IsAuthCallback | app/_layout.tsx:46-50 | a link is an auth callback iff the URL contains `auth-callback` or `/auth/v1/verify`, or the merged `type` is recovery or signup |
| RootLayout.HandleDeepLink | app/_layout.tsx:46-62 | it navigates iff the link is an auth callback (either marker in the URL, or a merged `type` of recovery or signup), and then replaces the route with `/auth/callback` carrying exactly the merged mapping |
| RootLayout.CallbackHostAlwaysForwarded | app/_layout.tsx:46-47 | any URL containing `auth-callback` is forwarded, whatever its parameters |
| RootLayout.FragmentTypeOverridesQuery | app/_layout.tsx:37-50 | a fragment `type` hides a query `type` of signup, so the link is not forwarded |
| RootLayout.RecoveryFragmentForwarded | app/_layout.tsx:37-59 | a fragment `type=recovery` forwards the link with the merged mapping |
| RootLayout.OnInitialUrl | app/_layout.tsx:72-77 | a missing or empty initial URL navigates nowhere |
| RootLayout.OnUrlEvent | app/_layout.tsx:69 | a `url` event navigates iff the link is an auth callback, and then replaces the route with `/auth/callback` carrying the extracted parameters |
| RootLayout.SameLinkSameNavigation | app/_layout.tsx:69-77 | a link delivered at start-up navigates exactly as the same link delivered as an event |
| RootLayout.AuthRedirect | app/_layout.tsx:85-97 | never while loading; a redirect always goes to `/(tabs)`; it happens iff a user is present, the first segment is `auth`, and the second is neither `callback` nor `nueva-password` |
| CallbackLayout.FirstValue | app/auth/callback.tsx:25-26 | `searchParams.get`: the value of the first pair with the key, or nothing when no pair has it |
| CallbackLayout.VerifyParams | app/auth/callback.tsx:34-38 | exactly the keys token, type and access_token; a missing token or type becomes ""; access_token equals token |
| CallbackLayout.HandleDeepLink | app/auth/callback.tsx:13-52 | a provider verify URL that `new URL` parses pushes exactly the verify parameters; otherwise the parsed query (or the empty mapping) is pushed iff the link is direct, and else nothing happens; every navigation is a push to `/auth/callback` |
| CallbackLayout.IsDirectLink | app/auth/callback.tsx:44 | a link is direct iff its hostname is `auth-callback` or its path is `auth-callback` or `/auth/callback`; one with neither hostname nor path is not |
| CallbackLayout.VerifyBranchFirst | app/auth/callback.tsx:22-40 | for a verify URL the direct-link parse has no influence: that branch returns first |
| CallbackLayout.VerifyLinkForwardedByBoth | app/auth/callback.tsx:22-40 | a provider verify URL that parses is forwarded by this layout and also by the root layout, whose marker it contains |
| CallbackLayout.AuthRedirect | app/auth/callback.tsx:71-81 | a redirect always replaces the route with `/(tabs)`; it happens iff not loading, a user is present, the first segment is `auth`, and the second is neither `callback` nor `nueva-password` |
| CallbackLayout.GuardsAgree | app/auth/callback.tsx:71-81 | the second copy's redirect guard decides exactly as the root layout's |
| AuthUseCase.SignUpRequestFor | src/domain/useCases/auth/AuthUseCase.ts:16-26 | the sign-up carries the email and password, and metadata with role `usuario_registrado`, the name and the phone |
| AuthUseCase.RegistroErrorMessage | src/domain/useCases/auth/AuthUseCase.ts:52-57 | "already registered" gives the already-registered text; otherwise "password" gives the length text; otherwise the message is kept |
| AuthUseCase.UnmatchedMessageKept | src/domain/useCases/auth/AuthUseCase.ts:52-57 | a provider message missing a letter of "already registered" and one of "password" matches neither test and is shown as it came |
| AuthUseCase.UpdateProfileRow | src/domain/useCases/auth/AuthUseCase.ts:35-41 | only the row with the id changes, and only in name and phone |
| AuthUseCase.Registrar | src/domain/useCases/auth/AuthUseCase.ts:8-61 | a rejected sign-up fails with the translated message; an accepted one without a user fails with the no-user message; with a user it succeeds even when the profile write fails, and that write touches only the new user's row |
| AuthUseCase.NoUserMessageUnchanged | src/domain/useCases/auth/AuthUseCase.ts:29 | the no-user error names neither an existing account nor the password, so it goes through the translation unchanged |
| AuthUseCase.LoginErrorMessage | src/domain/useCases/auth/AuthUseCase.ts:76-79 | "Invalid login credentials" becomes the Spanish text; anything else passes through |
| AuthUseCase.IniciarSesion | src/domain/useCases/auth/AuthUseCase.ts:66-82 | an accepted sign-in makes the user the principal; a rejected one changes nothing and fails with the translated message |
| AuthUseCase.CerrarSesion | src/domain/useCases/auth/AuthUseCase.ts:87-95 | a successful sign-out leaves no principal; a failed one changes nothing |
| AuthUseCase.ObtenerUsuarioActual | src/domain/useCases/auth/AuthUseCase.ts:100-126 | nothing when there is no principal or reading it throws; the principal's row when the row read succeeds and the row exists; the stand-in user when the row read fails or finds no row |
| AuthUseCase.FallbackUser | src/domain/useCases/auth/AuthUseCase.ts:114-118 | the stand-in user has the principal's id, its email or "" without one, the registered-user role, and no name, phone or creation time |
| AuthUseCase.CurrentUserIsPrincipal | src/domain/useCases/auth/AuthUseCase.ts:100-121 | in a well-keyed table a current user exists iff there is a principal and reading it does not throw, and it always has the principal's id |
| AuthUseCase.ReadFaultDemotesAdvisor | src/domain/useCases/auth/AuthUseCase.ts:112-119 | an advisor read cleanly is an advisor; the same advisor read with a failing row query is reported as a registered user |
| AuthUseCase.ProfilePatchFor | src/domain/useCases/auth/AuthUseCase.ts:136-139 | the name is always written; the phone only when it is a non-empty string |
| AuthUseCase.ActualizarPerfil | src/domain/useCases/auth/AuthUseCase.ts:131-152 | it fails without a principal or on a write error, changing nothing; it succeeds iff neither; it keeps the principal and a well-keyed table |
| AuthUseCase.ProfileUpdateThenRead | src/domain/useCases/auth/AuthUseCase.ts:131-152 | after a successful update, the current user is the old row with the new name, and the new phone if non-empty, else the old one |
| AuthUseCase.RestablecerContrasena | src/domain/useCases/auth/AuthUseCase.ts:157-169 | the reset request has the email as given and the app's reset redirect; the result reflects the provider's error |
| AuthUseCase.ActualizarContrasena | src/domain/useCases/auth/AuthUseCase.ts:174-186 | the session and profiles are unchanged; it succeeds iff the provider reports no error |
| AuthUseCase.PasswordChangeKeepsSession | src/domain/useCases/auth/AuthUseCase.ts:174-186 | the current user is the same before and after a password change |
| AuthUseCase.AuthStateValue | src/domain/useCases/auth/AuthUseCase.ts:191-200 | an event with a session delivers the current user; one without delivers nothing |
| AuthUseCase.SignInEventDeliversUser | src/domain/useCases/auth/AuthUseCase.ts:191-198 | after a successful sign-in, the event delivers a user with the signed-in id |
| ContratacionesUseCase.CrearContratacion | src/domain/useCases/chat/ChatUseCase.ts:8-27 | exactly one row is appended: pending, with the given user, plan and notes, no answer, and the request time; a write error changes nothing and fails |
| ContratacionesUseCase.ObtenerContratacionesPorUsuario | src/domain/useCases/chat/ChatUseCase.ts:32-49 | exactly that user's rows, each as often as stored, newest request first; [] on error |
| ContratacionesUseCase.ObtenerTodasLasContrataciones | src/domain/useCases/chat/ChatUseCase.ts:54-71 | every row, newest request first; [] on error |
| ContratacionesUseCase.ObtenerContratacionesPendientes | src/domain/useCases/chat/ChatUseCase.ts:76-94 | exactly the pending rows, oldest request first; [] on error |
| ContratacionesUseCase.DecisionEstado | src/domain/useCases/chat/ChatUseCase.ts:99-103 | an advisor's decision is never pending: approving gives approved and rejecting gives rejected, and only they do |
| ContratacionesUseCase.ActualizarEstadoContratacion | src/domain/useCases/chat/ChatUseCase.ts:99-122 | rows with the id are answered, whatever their estado; all other rows are unchanged; a write error changes nothing |
| ContratacionesUseCase.AnsweredLeavesPending | src/domain/useCases/chat/ChatUseCase.ts:76-122 | an answered request leaves the pending list, stays in its user's list, and is approved iff the decision was to approve |
| ContratacionesUseCase.CancelarContratacion | src/domain/useCases/chat/ChatUseCase.ts:127-141 | a row with the id that is pending becomes rejected; every other row, approved and rejected ones included, is unchanged |
| ContratacionesUseCase.CancelIdempotent | src/domain/useCases/chat/ChatUseCase.ts:129-133 | cancelling twice is cancelling once |
| ContratacionesUseCase.CancelledNotPending | src/domain/useCases/chat/ChatUseCase.ts:129-133 | after a successful cancel, no row with that id is pending |
| ContratacionesUseCase.CreatedRequestListed | src/domain/useCases/chat/ChatUseCase.ts:14-19 | a created request appears in its user's list and in the pending list |
| ContratacionesUseCase.CancelledLeavesPending | src/domain/useCases/chat/ChatUseCase.ts:129-133 | a cancelled request is gone from the pending list |
| ContratacionesUseCase.ApprovalAfterCancellation | src/domain/useCases/chat/ChatUseCase.ts:106-114 | an advisor can still approve a cancelled request, since the update has no estado guard |
| PlanesUseCase.ObtenerPlanes | src/domain/useCases/planes/PlanesUseCase.ts:11-25 | exactly the active plans, cheapest first; [] on error |
| PlanesUseCase.ObtenerPlanesPorAsesor | src/domain/useCases/planes/PlanesUseCase.ts:30-44 | exactly that advisor's plans, inactive ones included, newest first; [] on error |
| PlanesUseCase.ObtenerPlanPorId | src/domain/useCases/planes/PlanesUseCase.ts:49-63 | the plan iff exactly one row has the id and there is no error; no plan otherwise |
| PlanesUseCase.CrearPlan | src/domain/useCases/planes/PlanesUseCase.ts:68-82 | one row is appended holding the draft's fields, the new id and the creation time, and it is returned; an error changes nothing |
| PlanesUseCase.PatchFeatures | src/domain/useCases/planes/PlanesUseCase.ts:92-95 | each feature column takes its edit: kept, set or cleared |
| PlanesUseCase.ActualizarPlan | src/domain/useCases/planes/PlanesUseCase.ts:87-103 | only rows with the id change, and only in the columns the patch sends (the advisor column is set or cleared as the patch says); id and creation time never change; an unknown id is still a success |
| PlanesUseCase.EmptyPatchChangesNothing | src/domain/useCases/planes/PlanesUseCase.ts:92-95 | a patch that sends nothing leaves the table as it was |
| PlanesUseCase.SameFeatureValues | src/domain/models/PlanMovil.ts:5-15 | two feature maps that agree on every feature are equal |
| PlanesUseCase.PatchIdempotent | src/domain/useCases/planes/PlanesUseCase.ts:92-95 | sending the same patch twice is sending it once |
| PlanesUseCase.UploadExtension | src/domain/useCases/planes/PlanesUseCase.ts:141 | the lowercased text after the last `.` (the whole URI without one); "jpg" only when that text is empty; never empty; never a `.` |
| PlanesUseCase.UploadObjectName | src/domain/useCases/planes/PlanesUseCase.ts:141-142 | the object lies in the `planes/` folder, is named by the upload time in decimal, and ends in `.` and the extension, which is its last `.`-piece when it has no `.` |
| PlanesUseCase.UploadNamesIdentifyUpload | src/domain/useCases/planes/PlanesUseCase.ts:141-142 | two uploads get the same object name iff they have the same time and the same extension |
| PlanesUseCase.DeletionObjectName | src/domain/useCases/planes/PlanesUseCase.ts:176-181 | nothing is removed iff the URL's last `/`-segment is empty; otherwise `planes/` plus that segment |
| PlanesUseCase.UploadDeletionRoundTrip | src/domain/useCases/planes/PlanesUseCase.ts:142-181 | a public URL ending in an uploaded object's name removes that same object |
| PlanesUseCase.SubirImagen | src/domain/useCases/planes/PlanesUseCase.ts:139-169 | a successful upload adds the object and returns its public URL; a failed one adds nothing and returns nothing |
| PlanesUseCase.EliminarImagen | src/domain/useCases/planes/PlanesUseCase.ts:174-185 | the object named by the URL is removed unless the removal fails; no other object is touched |
| PlanesUseCase.EliminarPlan | src/domain/useCases/planes/PlanesUseCase.ts:108-134 | the image is removed first, whatever happens after; the rows are kept, marked inactive, and nothing else changes |
| PlanesUseCase.SoftDeleteHidesFromCatalogue | src/domain/useCases/planes/PlanesUseCase.ts:122-126 | a deleted plan stays in the table but no longer appears in the catalogue |
| UseAuth.VerificarSesion | src/presentation/hooks/useAuth.ts:24-28 | loading stops; no user is shown iff there is no principal or reading it throws; the principal's row when it is read cleanly, the stand-in user when the row read fails |
| UseAuth.OnAuthEvent | src/presentation/hooks/useAuth.ts:14-17 | every event stops loading; an event without a session shows no user; one with a session shows the current user |
| UseAuth.EsAsesor | src/presentation/hooks/useAuth.ts:73 | true iff a user is shown and its role text is `asesor_comercial` |
| UseAuth.ActualizarPerfil | src/presentation/hooks/useAuth.ts:42-48 | the facade's result is returned as it is; the view refreshes on success and is untouched otherwise |
| UseAuth.SavedProfileShown | src/presentation/hooks/useAuth.ts:42-46 | after a successful save the view shows the new name, and the new phone when one was given |
| UseAuth.SignInShowsUser | src/presentation/hooks/useAuth.ts:14-17 | signing in, then the event, shows the signed-in user and ends loading |
| UseAuth.SignOutClearsUser | src/presentation/hooks/useAuth.ts:14-17 | signing out, then the event, shows no user and grants no advisor rights |
| UsePlanes.CargarPlanes | src/presentation/hooks/usePlanes.ts:15-27 | with a non-empty advisor id, the advisor's plans; otherwise the catalogue; loading stops |
| UsePlanes.ListedPlansBelong | src/presentation/hooks/usePlanes.ts:19-23 | every listed plan is in the table, and is the advisor's, or active in the catalogue |
| UsePlanes.AfterChange | src/presentation/hooks/usePlanes.ts:30-33 | the list reloads after a success and is kept after a failure |
| UsePlanes.Crear | src/presentation/hooks/usePlanes.ts:29-35 | the use case's table and result, returned as they are; a reload only on success |
| UsePlanes.Actualizar | src/presentation/hooks/usePlanes.ts:37-43 | the use case's table and result, returned as they are; a reload only on success |
| UsePlanes.Eliminar | src/presentation/hooks/usePlanes.ts:45-51 | the use case's table, bucket and result, returned as they are; a reload only on success |
| UsePlanes.CreatedPlanListed | src/presentation/hooks/usePlanes.ts:29-35 | a plan an advisor creates for themself is in their reloaded list |
| UsePlanes.DeletedPlanLeavesCatalogue | src/presentation/hooks/usePlanes.ts:45-51 | a deleted plan is gone from the reloaded catalogue |
| UseContrataciones.CargarContrataciones | src/presentation/hooks/useContrataciones.ts:17-31 | an advisor gets every request, even with a user id; otherwise a non-empty user id gets that user's requests; otherwise the list is empty |
| UseContrataciones.Montar | src/presentation/hooks/useContrataciones.ts:11-15 | the first load runs iff there is a user id or the advisor flag; otherwise the view stays empty and loading |
| UseContrataciones.MountedListByRole | src/presentation/hooks/useContrataciones.ts:11-26 | after mounting, an advisor sees every request, and a user exactly their own |
| UseContrataciones.CargarPendientes | src/presentation/hooks/useContrataciones.ts:33-38 | the list becomes the pending query's result, so only pending requests are shown |
| UseContrataciones.AfterChange | src/presentation/hooks/useContrataciones.ts:42-44 | the list reloads after a success and is kept after a failure |
| UseContrataciones.Crear | src/presentation/hooks/useContrataciones.ts:40-46 | the use case's table and result, returned as they are; a reload with the hook's own id and flag only on success |
| UseContrataciones.ActualizarEstado | src/presentation/hooks/useContrataciones.ts:48-64 | the use case's table and result, returned as they are; a reload only on success |
| UseContrataciones.Cancelar | src/presentation/hooks/useContrataciones.ts:66-72 | the use case's table and result, returned as they are; a reload only on success |
| UseContrataciones.OwnRequestShown | src/presentation/hooks/useContrataciones.ts:40-46 | a request a user makes appears, pending, in their reloaded list |
| UseContrataciones.FailedCancelChangesNothing | src/presentation/hooks/useContrataciones.ts:66-72 | a failed cancel leaves the table and the view as they were |
| Validators.StripWhitespace | app/auth/registro.tsx:35 | the result has no whitespace, is no longer than the input, and is the input itself when it had none |
| Validators.StripKeepsOthers | app/auth/registro.tsx:35 | every non-whitespace character stays, as often as it occurred |
| Validators.StripConcat | app/auth/registro.tsx:35 | stripping works piece by piece |
| Validators.PhoneByLengthIff | app/auth/registro.tsx:34 | the length-based check accepts exactly the strings the phone expression matches |
| Validators.ValidarTelefono | app/auth/registro.tsx:32-36 | a phone is accepted iff, stripped of whitespace, it is an optional `+593` or `0`, a 9, and eight more digits |
| Validators.SpacedPhoneAccepted | app/auth/registro.tsx:32-36 | the number written as the hint shows it, with a space after `+593`, is accepted |
| Validators.ValidEmail | app/auth/registro.tsx:63-64 | an email is accepted iff it has no whitespace, exactly one `@` with text before it, and a `.` after it that is neither the domain's first nor its last character |
| Validators.EmailIff | app/auth/registro.tsx:63-64 | the one-pass email check and the expression's meaning agree on every string |
| Validators.FirstPieceAt | app/auth/registro.tsx:63-64 | the text before the first `@` ends where the first `@` is |
| Registro.PrimerError | app/auth/registro.tsx:38-77 | no error iff every check passes; each message is given exactly when its check fails and every earlier check passes, in the screen's order |
| Registro.ReportedMessageNamesCheck | app/auth/registro.tsx:38-77 | a reported message means its own check failed and all earlier checks passed |
| Registro.PhoneReportedFirst | app/auth/registro.tsx:40-61 | a bad phone is reported whatever the email and passwords are |
| Registro.SixCharactersEnough | app/auth/registro.tsx:69 | a six-character password passes the length check |
| Registro.HandleRegistro | app/auth/registro.tsx:38-94 | a failing check shows its error and sends nothing; otherwise the untrimmed values are sent; success ends in an alert that leads to sign-in; failure shows the error or the default text |
| Registro.ProfileWriteFailureStillRegisters | app/auth/registro.tsx:81-88 | an accepted sign-up is reported as a success even when the profile write fails |
| Login.HandleLogin | app/auth/login.tsx:25-40 | an empty field shows an error and signs in with nothing; otherwise it signs in with exactly what was typed; success replaces the route with `/(tabs)`; failure shows the error or the default text |
| Login.BlankFieldsReachProvider | app/auth/login.tsx:26 | whitespace-only fields pass the guard and are sent |
| Login.WrongCredentialsShown | app/auth/login.tsx:35-38 | rejected credentials end in the facade's Spanish text |
| RecuperarPassword.HandleEnviar | app/auth/recuperar-password.tsx:23-54 | a blank email, then one the expression rejects, shows its error and sends nothing; otherwise the typed email is sent with the reset redirect; success goes back; failure shows the error or the default text |
| RecuperarPassword.LeadingSpaceRejected | app/auth/recuperar-password.tsx:24-34 | a valid address typed after a space passes the blank check but fails the expression |
| NuevaPassword.PrimerError | app/auth/nueva-password.tsx:27-40 | an empty password gives the first message; a non-empty one under six UTF-16 units the second; a long enough one that differs from its confirmation the third; otherwise no error |
| NuevaPassword.LengthCheckedBeforeMatch | app/auth/nueva-password.tsx:32-40 | a password under six UTF-16 units is reported as short even when the confirmation differs |
| NuevaPassword.AstralCharactersCountTwice | app/auth/nueva-password.tsx:32 | three characters outside the Basic Multilingual Plane are six UTF-16 units, so they pass the length check |
| NuevaPassword.HandleCambiar | app/auth/nueva-password.tsx:25-60 | a failing check shows its error and sets nothing; otherwise the typed password is set; success leads to sign-in; failure shows the error or the default text |
| CambiarPassword.PrimerError | app/perfil/cambiar-password.tsx:30-48 | each message is given exactly when its check fails and every earlier one passes: a field empty, the new password under six UTF-16 units, the confirmation different, the new password equal to the current one; otherwise no error |
| CambiarPassword.HandleCambiar | app/perfil/cambiar-password.tsx:28-102 | the new password is set iff every check passes and verification returns success; the failure messages; the fields are cleared only after a successful update; the spinner always stops |
| CambiarPassword.FormAfterOk | app/perfil/cambiar-password.tsx:82-88 | the success alert's OK button empties all three fields; otherwise they stay |
| CambiarPassword.VerifierFailureBlocksChange | app/perfil/cambiar-password.tsx:97-101 | when verification throws, nothing is changed and the exception's message or the default text is shown |
| Perfil.InitialForm | app/perfil/index.tsx:23-24 | the fields hold the given user's name and phone, "" for a missing one, and are both "" without a user |
| Perfil.TelefonoAceptable | app/perfil/index.tsx:28-32 | a blank phone is accepted; otherwise as in registration |
| Perfil.HandleGuardarPerfil | app/perfil/index.tsx:34-58 | a blank name, then a bad phone, shows its error and saves nothing; otherwise the hook saves the name and the phone as typed; success leaves edit mode; failure shows the error or the default text |
| Perfil.EmptiedPhoneKept | app/perfil/index.tsx:49-54 | saving with an empty phone reports success, yet the stored phone stays what it was |
| Perfil.UntouchedSaveRejected | app/perfil/index.tsx:19-38 | as written, the fields start from the hook's not-yet-loaded user, so they are empty and saving them untouched is rejected for a blank name, whatever profile is stored |
| Perfil.LoadedFormSavesUnchanged | app/perfil/index.tsx:23-58 | with the fields filled from the loaded user, saving them untouched succeeds, shows the same user and leaves the backend unchanged |
| Perfil.SplitJoin | app/perfil/index.tsx:69 | joining the pieces of a split gives the string back, and no piece holds the separator |
| Perfil.HeadsStep | app/perfil/index.tsx:69-71 | one more character adds itself to the heads exactly when it starts a word |
| Perfil.FuenteIniciales | app/perfil/index.tsx:68 | the name when it is non-empty, else the email |
| Perfil.Iniciales | app/perfil/index.tsx:68-73 | the one-pass scan gives the first two word-starting characters, uppercased, as split, map and join define them; at most two characters |
| Perfil.HeadsEmptyIff | app/perfil/index.tsx:69-71 | no initial is found iff the text is only spaces |
| Perfil.SplitAppendSep | app/perfil/index.tsx:69 | splitting at a separator splits the two sides independently |
| Perfil.TwoWordNameInitials | app/perfil/index.tsx:68-73 | a first name and a surname give their uppercased first letters |
| PlanForm.TrimmedFeatures | app/plan/crear.tsx:96-106 | a feature is sent iff its field is not blank, and then trimmed and non-empty |
| PlanForm.PrecioError | app/plan/crear.tsx:73-82 | a blank name or price gives the first message; otherwise a price that does not parse, or parses to 0 or less, gives the price message; otherwise no error |
| PlanForm.FindPlan | app/plan/detalle.tsx:36-39 | nothing iff no listed plan has the id; otherwise the first listed plan with it |
| PlanCrear.MuestraFormulario | app/plan/crear.tsx:123-132 | the form is shown iff the user is an advisor |
| PlanCrear.DraftFor | app/plan/crear.tsx:93-110 | the trimmed name, the parsed price, the trimmed non-blank features, the image URL when non-empty, active, owned by the advisor |
| PlanCrear.Upload | app/plan/crear.tsx:86-90 | an image is uploaded only when one was chosen |
| PlanCrear.HandleCrear | app/plan/crear.tsx:71-121 | a failing check shows its error and changes nothing; otherwise the image is uploaded when chosen, the plan is created, and the outcome alert follows the result |
| PlanCrear.CreatedPlanInCatalogue | app/plan/crear.tsx:93-110 | a created plan is active, owned by the advisor, carries the trimmed fields, and is in the reloaded catalogue |
| PlanCrear.FailedUploadStillCreates | app/plan/crear.tsx:87-107 | a failed upload still creates the plan, without an image |
| PlanEditar.Prefill | app/plan/editar.tsx:49-67 | the fields hold the plan's values, "" for absent features, and the image URL when non-empty |
| PlanEditar.EditorFindsOnlyActive | app/plan/editar.tsx:49-51 | the screen finds only active plans, since its list is the catalogue |
| PlanEditar.PuedeEditar | app/plan/editar.tsx:155-164 | editing is allowed iff the user is an advisor and owns the plan |
| PlanEditar.ImagenParaGuardar | app/plan/editar.tsx:111-116 | an image is uploaded only when one is chosen and differs from the stored one; a failed upload keeps the chosen URI |
| PlanEditar.PatchAsWritten | app/plan/editar.tsx:119-134 | as written: name and price always sent, `activo` not sent, the advisor kept, the image sent as given; a filled feature field sends its trimmed text, a blank one sends nothing |
| PlanEditar.FeatureEditsAsWritten | app/plan/editar.tsx:122-132 | every feature is edited: set to the trimmed text when its field is filled, kept when it is blank |
| PlanEditar.EmptiedFieldSurvives | app/plan/editar.tsx:119-134 | as written: a feature the advisor empties keeps its old value after a successful save |
| PlanEditar.PatchFor | app/plan/editar.tsx:119-134 | the name and price are always sent; a blank field clears its column and any other sets it trimmed; activo and owner are untouched |
| PlanEditar.SavedPlanMatchesForm | app/plan/editar.tsx:119-134 | after the save, name, price and features are exactly the trimmed form, and activo and owner are unchanged |
| PlanEditar.HandleGuardar | app/plan/editar.tsx:94-145 | a failing check shows its error and changes nothing; otherwise a changed image is uploaded, the as-written update is sent, and the outcome alert follows the result |
| PlanEditar.SaveReportsSuccessButKeepsEmptiedFeature | app/plan/editar.tsx:94-145 | saving with a feature field emptied reports success, yet the stored plan keeps that feature's old value |
| PlanEditar.FailedUploadStoresLocalUri | app/plan/editar.tsx:112-133 | a new image whose upload fails is stored as the device's local URI |
| PlanEditar.UnchangedFormKeepsFeatures | app/plan/editar.tsx:119-134 | saving the prefilled form unchanged leaves tidy features as they were |
| PlanDetalle.MuestraContratar | app/plan/detalle.tsx:253 | the hire button is shown iff a registered, non-advisor user is signed in |
| PlanDetalle.MuestraInvitado | app/plan/detalle.tsx:275 | the guest prompt is shown iff no one is signed in |
| PlanDetalle.PuedeEditar | app/plan/detalle.tsx:95 | the edit button is shown iff the user is an advisor who owns the plan, exactly when the edit screen would allow editing |
| PlanDetalle.EditAndHireExclusive | app/plan/detalle.tsx:95-275 | the edit and hire buttons are never shown together, and a guest sees neither |
| PlanDetalle.ControlsByRole | app/plan/detalle.tsx:253-275 | the hire button and the guest prompt are never shown together, and an advisor sees neither |
| PlanDetalle.HandleContratar | app/plan/detalle.tsx:41-51 | a guest gets the error and is pushed to sign-in with nothing created; a user is asked to confirm |
| PlanDetalle.HireButtonHasUser | app/plan/detalle.tsx:41-51 | pressing the hire button, which only signed-in users see, always leads to the confirmation and never to the guest branch |
| PlanDetalle.Confirmar | app/plan/detalle.tsx:52-75 | the request is created for the user and the plan through the hook; success leads to the requests tab; failure shows the error or the default text |
| PlanDetalle.ConfirmedRequestShown | app/plan/detalle.tsx:57-69 | confirming files a pending request of this user for this plan, and the reloaded list shows it |

## Left out

- Network calls, storage uploads, `getPublicUrl`, the 200 ms wait in `registrar`, and all React effects, rendering and dialog plumbing. Each backend answer is a parameter; each handler's observable outcome is an `Effect`.
- The library parsers (`URLSearchParams` with its percent and `+` decoding, `Linking.parse`, `new URL`) are parameters. The model covers the app's own splitting and merging.
- `parseFloat`, `Infinity`/`NaN` and float arithmetic: parsing is a parameter giving a real, and `toString` of a price is one too.
- The image pickers `seleccionarImagen` and `tomarFoto` (device I/O and permissions).
- The joined `plan`, `usuario` and `asesor` records that the request queries select: a modelled request holds its own columns only.
- Time: timestamps are integers, and ISO texts order like the times they encode.
- The hook pass-throughs `registrar`, `iniciarSesion`, `cerrarSesion`, `restablecerContrasena` and `actualizarContrasena` return the facade's result unchanged. The screens here call the facade functions directly.
- `verificarContrasenaActual` is not defined in `src/domain/useCases/auth/AuthUseCase.ts`, so in the source the call throws. Its answer is a parameter (`CambiarPassword.Reply`), and `CambiarPassword.VerifierFailureBlocksChange` states what the screen does when it throws.
- Perfil.InitialForm: the form is not refilled when the user changes later; the screen reads it on its first render only (see "## Findings").
- Perfil.Iniciales: works on code points, whereas `substring(0, 2)` and `n[0]` count UTF-16 units. A name starting with a character outside the Basic Multilingual Plane gives half a surrogate pair in the source.
- Base.Lower and Base.Upper: cover ASCII and Latin-1 letters only. ÿ, ß, µ and letters of other scripts are left as they are.
- PlanesUseCase.UploadDeletionRoundTrip: needs an extension without `/`. A URI whose text after its last `.` contains a `/` yields an object name that the deletion rule does not map back.
- PlanesUseCase.ActualizarPlan: does not model a patch that sends `id` or `created_at`; the screens never send them.
- ContratacionesUseCase.ActualizarEstadoContratacion: the `fecha_respuesta` text is the integer time `now` given by the caller. `CrearContratacion` sends no `fecha_solicitud`; the backend fills it in, and the model stamps the new row with the caller's `now` instead.
- AuthUseCase.Registrar: an auto-confirmed sign-up that opens a session is not modelled; the principal stays as it was. The database trigger that creates the profile row is not part of this model. The follow-up write is an update, so when no row with the new id exists it changes nothing and the row stays missing.
- CallbackLayout.HandleDeepLink: `Linking.parse` gives a list of values for a repeated query key. The model's `queryParams` maps each key to one text, so that case is not represented.

## Findings

| source | as written | input that shows it | evidently intended | confidence | as-written member | corrected member |
|---|---|---|---|---|---|---|
| app/plan/editar.tsx:119-134 | each feature field is sent as `field.trim() \|\| undefined`; the client drops `undefined` keys from the update body, so an emptied field sends nothing and the column keeps its old value | a plan with `datos_gb = "10 GB"`; the advisor clears that field and saves; the alert says the plan was updated, yet `datos_gb` is still "10 GB" | an emptied field clears its column, so the stored plan matches the form | medium, not executed | PlanEditar.EmptiedFieldSurvives | PlanEditar.SavedPlanMatchesForm |
| app/perfil/index.tsx:23-24 | the fields are initialised from `usuario` of the screen's own `useAuth()`, which is `null` on the first render (src/presentation/hooks/useAuth.ts:8); `useState` never reads it again | a signed-in user with name "Ana" opens the profile: the fields read "No especificado"; pressing edit and then save shows "El nombre no puede estar vacío" | the fields show the signed-in user's name and phone, and saving them untouched keeps the profile | high, not executed | Perfil.UntouchedSaveRejected | Perfil.LoadedFormSavesUnchanged |

=== FILE: auth_use_case.dfy ===
/** The authentication facade (`AuthUseCase`) over an explicit backend value.

    The identity provider is reduced to what the facade observes: the current
    principal and the `usuarios` profile table. What the provider answers to
    a sign-up, a sign-in or a write is a parameter of each operation, so every
    answer the provider may give is covered. */
module AuthUseCase {
  import opened Base
  import opened Models

  /** The identity provider's user: an id and possibly an email. */
  datatype AuthUser = AuthUser(id: string, email: Option<string>)

  /** The backend as the facade sees it. The profile table is keyed by user id. */
  datatype Backend = Backend(principal: Option<AuthUser>, usuarios: map<string, Usuario>)

  /** Every profile row is stored under its own id. */
  predicate WellKeyed(b: Backend) {
    forall k :: k in b.usuarios ==> b.usuarios[k].id == k
  }

  // ---------------------------------------------------------------------------
  // registrar
  // ---------------------------------------------------------------------------

  /** The user metadata attached to a sign-up. */
  datatype SignUpMetadata = SignUpMetadata(rol: Rol, nombre: string, telefono: string)

  datatype SignUpRequest = SignUpRequest(email: string, password: string, data: SignUpMetadata)

  /** The provider's answer to a sign-up: an error message, or data whose user may be missing. */
  datatype SignUpReply = SignUpRejected(message: string) | SignUpAccepted(user: Option<AuthUser>)

  const AlreadyRegisteredMessage := "Este correo ya está registrado. Por favor inicia sesión."
  const ShortPasswordMessage := "La contraseña debe tener al menos 6 caracteres."
  const NoUserMessage := "No se pudo crear el usuario"

  /** The sign-up request `registrar` sends: every new account is a registered
      customer carrying the given name and phone. */
  function SignUpRequestFor(email: string, password: string, nombreCompleto: string, telefono: string): (req: SignUpRequest)
    ensures req.data.rol == UsuarioRegistrado
    ensures req.email == email && req.password == password
    ensures req.data.nombre == nombreCompleto && req.data.telefono == telefono
  {
    SignUpRequest(email, password, SignUpMetadata(UsuarioRegistrado, nombreCompleto, telefono))
  }

  /** `registrar`'s friendlier messages; the first matching rule wins. */
  function RegistroErrorMessage(raw: string): (msg: string)
    ensures Contains(raw, "already registered") ==> msg == AlreadyRegisteredMessage
    ensures !Contains(raw, "already registered") && Contains(raw, "password") ==> msg == ShortPasswordMessage
    ensures !Contains(raw, "already registered") && !Contains(raw, "password") ==> msg == raw
  {
    if Contains(raw, "already registered") then AlreadyRegisteredMessage
    else if Contains(raw, "password") then ShortPasswordMessage
    else raw
  }

  /** Writes the given columns to the profile row of `id`; a missing row is
      left missing (the update matches no row). */
  function UpdateProfileRow(usuarios: map<string, Usuario>, id: string, nombre: string, telefono: Option<string>): (t: map<string, Usuario>)
    ensures t.Keys == usuarios.Keys
    ensures forall k :: k in t && k != id ==> t[k] == usuarios[k]
    ensures id in t ==> (t[id].nombre == Some(nombre)
                         && t[id].telefono == (if telefono.Some? then telefono else usuarios[id].telefono)
                         && t[id].id == usuarios[id].id && t[id].email == usuarios[id].email
                         && t[id].rol == usuarios[id].rol && t[id].createdAt == usuarios[id].createdAt)
  {
    if id in usuarios then
      var row := usuarios[id];
      usuarios[id := row.(nombre := Some(nombre), telefono := if telefono.Some? then telefono else row.telefono)]
    else usuarios
  }

  /** `registrar`: `reply` is the provider's answer to the sign-up and
      `updateFault` the error, if any, of the follow-up profile write. */
  function Registrar(b: Backend, email: string, password: string, nombreCompleto: string, telefono: string,
                     reply: SignUpReply, updateFault: Option<string>): (out: (Backend, OpResult))
    ensures reply.SignUpRejected? ==> out == (b, Fail(RegistroErrorMessage(reply.message)))
    ensures reply == SignUpAccepted(None) ==> out == (b, Fail(NoUserMessage))
    ensures reply.SignUpAccepted? && reply.user.Some? ==> out.1 == Ok
    ensures out.0.principal == b.principal
    ensures reply.SignUpAccepted? && reply.user.Some? && updateFault.None? ==>
      out.0.usuarios == UpdateProfileRow(b.usuarios, reply.user.value.id, nombreCompleto, Some(telefono))
    ensures updateFault.Some? ==> out.0 == b
  {
    match reply
    case SignUpRejected(message) => (b, Fail(RegistroErrorMessage(message)))
    case SignUpAccepted(None) =>
      NoUserMessageUnchanged();
      (b, Fail(RegistroErrorMessage(NoUserMessage)))
    case SignUpAccepted(Some(user)) =>
      if updateFault.Some? then (b, Ok)
      else (b.(usuarios := UpdateProfileRow(b.usuarios, user.id, nombreCompleto, Some(telefono))), Ok)
  }

  /** A provider message that lacks a letter of each of the two phrases the
      mapping looks for is shown as it came. */
  lemma {:induction false} UnmatchedMessageKept(raw: string, c1: char, c2: char)
    requires c1 in "already registered" && c1 !in raw
    requires c2 in "password" && c2 !in raw
    ensures !Contains(raw, "already registered") && !Contains(raw, "password")
    ensures RegistroErrorMessage(raw) == raw
  {
    MissingCharNotContained(raw, "already registered", c1);
    MissingCharNotContained(raw, "password", c2);
  }

  /** The "no user" error goes through the message mapping unchanged: it
      names neither an existing account nor the password. */
  lemma NoUserMessageUnchanged()
    ensures !Contains(NoUserMessage, "already registered") && !Contains(NoUserMessage, "password")
    ensures RegistroErrorMessage(NoUserMessage) == NoUserMessage
  {
    UnmatchedMessageKept(NoUserMessage, 'y', 'w');
  }

  // ---------------------------------------------------------------------------
  // iniciarSesion / cerrarSesion
  // ---------------------------------------------------------------------------

  datatype SignInReply = SignInRejected(message: string) | SignInAccepted(user: AuthUser)

  const WrongCredentialsMessage := "Email o contraseña incorrectos."

  function LoginErrorMessage(raw: string): (msg: string)
    ensures Contains(raw, "Invalid login credentials") ==> msg == WrongCredentialsMessage
    ensures !Contains(raw, "Invalid login credentials") ==> msg == raw
  {
    if Contains(raw, "Invalid login credentials") then WrongCredentialsMessage else raw
  }

  /** `iniciarSesion`: a successful sign-in makes the user the principal. */
  function IniciarSesion(b: Backend, reply: SignInReply): (out: (Backend, OpResult))
    ensures reply.SignInAccepted? ==> out == (b.(principal := Some(reply.user)), Ok)
    ensures reply.SignInRejected? ==> out == (b, Fail(LoginErrorMessage(reply.message)))
  {
    match reply
    case SignInAccepted(user) => (b.(principal := Some(user)), Ok)
    case SignInRejected(message) => (b, Fail(LoginErrorMessage(message)))
  }

  /** `cerrarSesion`: `fault` is the provider's error, if any. */
  function CerrarSesion(b: Backend, fault: Option<string>): (out: (Backend, OpResult))
    ensures fault.None? ==> out == (b.(principal := None), Ok)
    ensures fault.Some? ==> out == (b, Fail(fault.value))
  {
    if fault.Some? then (b, Fail(fault.value)) else (b.(principal := None), Ok)
  }

  // ---------------------------------------------------------------------------
  // obtenerUsuarioActual
  // ---------------------------------------------------------------------------

  /** How the two reads of `obtenerUsuarioActual` went: whether asking the
      provider for the user threw, and the error, if any, of reading the
      profile row with `.single()` (a missing row is such an error too). */
  datatype UserRead = UserRead(getUserThrows: bool, rowFault: Option<string>)

  /** Both reads answered normally. */
  const CleanRead := UserRead(false, None)

  /** The minimal user built from the principal when its profile row cannot be
      read: the principal's id, its email or "", the customer role, and no
      name, phone or creation time. */
  function FallbackUser(u: AuthUser): (r: Usuario)
    ensures r.id == u.id && r.rol == UsuarioRegistrado
    ensures u.email.Some? ==> r.email == u.email.value
    ensures u.email.None? ==> r.email == ""
    ensures r.nombre.None? && r.telefono.None? && r.createdAt.None?
  {
    Usuario(u.id, u.email.GetOr(""), None, None, UsuarioRegistrado, None)
  }

  /** `obtenerUsuarioActual`: a throwing provider or no principal gives no
      user; a principal whose profile row cannot be read, for whatever reason,
      gives the fallback user; otherwise the row. */
  function ObtenerUsuarioActual(b: Backend, read: UserRead): (r: Option<Usuario>)
    ensures read.getUserThrows || b.principal.None? ==> r.None?
    ensures !read.getUserThrows && b.principal.Some?
            && (read.rowFault.Some? || b.principal.value.id !in b.usuarios) ==>
      r == Some(FallbackUser(b.principal.value))
    ensures !read.getUserThrows && b.principal.Some? && read.rowFault.None? && b.principal.value.id in b.usuarios ==>
      r == Some(b.usuarios[b.principal.value.id])
  {
    if read.getUserThrows then None
    else match b.principal
      case None => None
      case Some(u) =>
        if read.rowFault.None? && u.id in b.usuarios then Some(b.usuarios[u.id]) else Some(FallbackUser(u))
  }

  /** With a well-keyed table there is a current user exactly when there is a
      principal and the provider answers, and it carries the principal's id. */
  lemma CurrentUserIsPrincipal(b: Backend, read: UserRead)
    requires WellKeyed(b)
    ensures ObtenerUsuarioActual(b, read).Some? <==> b.principal.Some? && !read.getUserThrows
    ensures ObtenerUsuarioActual(b, read).Some? ==> ObtenerUsuarioActual(b, read).value.id == b.principal.value.id
  {
  }

  /** A failed profile read turns an advisor into a plain customer for as
      long as that reading is shown. */
  lemma ReadFaultDemotesAdvisor(b: Backend, error: string)
    requires b.principal.Some? && b.principal.value.id in b.usuarios
    requires b.usuarios[b.principal.value.id].rol == AsesorComercial
    ensures ObtenerUsuarioActual(b, CleanRead).value.rol == AsesorComercial
    ensures ObtenerUsuarioActual(b, UserRead(false, Some(error))).value.rol == UsuarioRegistrado
  {
  }

  // ---------------------------------------------------------------------------
  // actualizarPerfil
  // ---------------------------------------------------------------------------

  const NoPrincipalMessage := "No hay usuario autenticado"

  /** The columns `actualizarPerfil` writes: always the name, the phone only
      when it is a non-empty string. */
  datatype ProfilePatch = ProfilePatch(nombre: string, telefono: Option<string>)

  function ProfilePatchFor(nombre: string, telefono: Option<string>): (p: ProfilePatch)
    ensures p.nombre == nombre
    ensures p.telefono.Some? <==> Truthy(telefono)
    ensures p.telefono.Some? ==> p.telefono == telefono
  {
    ProfilePatch(nombre, if Truthy(telefono) then telefono else None)
  }

  /** `actualizarPerfil`: `fault` is the error, if any, of the table write. */
  function ActualizarPerfil(b: Backend, nombre: string, telefono: Option<string>, fault: Option<string>): (out: (Backend, OpResult))
    ensures b.principal.None? ==> out == (b, Fail(NoPrincipalMessage))
    ensures b.principal.Some? && fault.Some? ==> out == (b, Fail(fault.value))
    ensures out.0.principal == b.principal
    ensures out.1 == Ok <==> b.principal.Some? && fault.None?
    ensures WellKeyed(b) ==> WellKeyed(out.0)
  {
    match b.principal
    case None => (b, Fail(NoPrincipalMessage))
    case Some(u) =>
      if fault.Some? then (b, Fail(fault.value))
      else
        var patch := ProfilePatchFor(nombre, telefono);
        (b.(usuarios := UpdateProfileRow(b.usuarios, u.id, patch.nombre, patch.telefono)), Ok)
  }

  /** Writing the profile and reading the current user back: the row now has
      the new name, and the new phone when one was given, the old one otherwise. */
  lemma {:induction false} ProfileUpdateThenRead(b: Backend, nombre: string, telefono: Option<string>)
    requires b.principal.Some? && b.principal.value.id in b.usuarios
    ensures var after := ActualizarPerfil(b, nombre, telefono, None).0;
      var row := b.usuarios[b.principal.value.id];
      ObtenerUsuarioActual(after, CleanRead)
        == Some(row.(nombre := Some(nombre), telefono := if Truthy(telefono) then telefono else row.telefono))
  {
    var id := b.principal.value.id;
    var patch := ProfilePatchFor(nombre, telefono);
    var t := UpdateProfileRow(b.usuarios, id, patch.nombre, patch.telefono);
    assert ActualizarPerfil(b, nombre, telefono, None).0 == b.(usuarios := t);
    assert t[id] == b.usuarios[id].(nombre := Some(nombre), telefono := if Truthy(telefono) then telefono else b.usuarios[id].telefono);
  }

  // ---------------------------------------------------------------------------
  // restablecerContrasena / actualizarContrasena
  // ---------------------------------------------------------------------------

  const ResetRedirect := "tigoplanes://reset-password"

  datatype ResetRequest = ResetRequest(email: string, redirectTo: string)

  /** `restablecerContrasena`: the reset request always redirects to the app's
      reset route. */
  function RestablecerContrasena(email: string, fault: Option<string>): (out: (ResetRequest, OpResult))
    ensures out.0 == ResetRequest(email, ResetRedirect)
    ensures out.1 == Ok <==> fault.None?
    ensures fault.Some? ==> out.1 == Fail(fault.value)
  {
    (ResetRequest(email, ResetRedirect), if fault.Some? then Fail(fault.value) else Ok)
  }

  /** `actualizarContrasena`: the credential itself is the provider's; the
      facade's observable state does not change. */
  function ActualizarContrasena(b: Backend, nuevaContrasena: string, fault: Option<string>): (out: (Backend, OpResult))
    ensures out.0 == b
    ensures out.1 == Ok <==> fault.None?
    ensures fault.Some? ==> out.1 == Fail(fault.value)
  {
    (b, if fault.Some? then Fail(fault.value) else Ok)
  }

  /** Changing the password does not end the session: the current user read
      before and after is the same. */
  lemma PasswordChangeKeepsSession(b: Backend, nueva: string, fault: Option<string>, read: UserRead)
    ensures ObtenerUsuarioActual(ActualizarContrasena(b, nueva, fault).0, read) == ObtenerUsuarioActual(b, read)
  {
  }

  // ---------------------------------------------------------------------------
  // onAuthStateChange
  // ---------------------------------------------------------------------------

  /** The value handed to the subscriber for one auth event whose session
      holds `sessionUser`. */
  function AuthStateValue(b: Backend, sessionUser: Option<AuthUser>, read: UserRead): (r: Option<Usuario>)
    ensures sessionUser.None? ==> r.None?
    ensures sessionUser.Some? ==> r == ObtenerUsuarioActual(b, read)
  {
    if sessionUser.Some? then ObtenerUsuarioActual(b, read) else None
  }

  /** After a sign-in, the event for the new session delivers the signed-in
      user's profile (or the fallback user when it has no row). */
  lemma SignInEventDeliversUser(b: Backend, user: AuthUser, read: UserRead)
    requires WellKeyed(b) && !read.getUserThrows
    ensures var after := IniciarSesion(b, SignInAccepted(user)).0;
      var delivered := AuthStateValue(after, Some(user), read);
      delivered.Some? && delivered.value.id == user.id
  {
  }
}

=== FILE: base.dfy ===
/** Shared vocabulary: optional values, the use cases' `{ success, error? }`
    results, and the JavaScript string operations the application relies on
    (`trim`, `includes`, `split`, `toLowerCase`, the `\s` character class). */
module Base {

  datatype Option<T> = None | Some(value: T) {
    function GetOr(default: T): T {
      match this
      case Some(v) => v
      case None => default
    }
  }

  /** The `{ success, error? }` object returned by every mutating use case.
      An absent error message is the empty string. */
  datatype OpResult = Ok | Fail(error: string) {
    predicate Success() { Ok? }
  }

  /** A use case result that also carries a value on success (`crearPlan`). */
  datatype Result<T> = Success(value: T) | Failure(error: string) {
    predicate Succeeded() { Success? }
  }

  /** A column in a partial update: not sent, sent with a value, or sent as null. */
  datatype Edit<T> = Keep | Set(value: T) | Clear

  /** JavaScript truthiness of an optional string: `undefined`, `null` and `""` are falsy. */
  predicate Truthy(s: Option<string>) {
    s.Some? && s.value != ""
  }

  /** `message || fallback`, the way every screen shows an error. */
  function OrDefault(message: string, fallback: string): (r: string)
    ensures message != "" ==> r == message
    ensures message == "" ==> r == fallback
  {
    if message != "" then message else fallback
  }

  // ---------------------------------------------------------------------------
  // Characters
  // ---------------------------------------------------------------------------

  /** The characters matched by `\s` and removed by `String.prototype.trim`:
      ECMAScript WhiteSpace and LineTerminator. */
  predicate IsWhitespace(c: char) {
    c == ' ' || c == '\t' || c == '\n' || c == '\r' || c == '\U{000B}' || c == '\U{000C}'
    || c == '\U{00A0}' || c == '\U{1680}' || ('\U{2000}' <= c <= '\U{200A}')
    || c == '\U{2028}' || c == '\U{2029}' || c == '\U{202F}' || c == '\U{205F}'
    || c == '\U{3000}' || c == '\U{FEFF}'
  }

  predicate IsDigit(c: char) {
    '0' <= c <= '9'
  }

  predicate AllDigits(s: string) {
    forall i :: 0 <= i < |s| ==> IsDigit(s[i])
  }

  predicate NoWhitespace(s: string) {
    forall i :: 0 <= i < |s| ==> !IsWhitespace(s[i])
  }

  /** Single-character case mapping on the Basic Latin and Latin-1 letters
      (`À`..`Þ` and `à`..`þ` pair up 32 code points apart, except `×`/`÷`). */
  function LowerChar(c: char): char {
    if 'A' <= c <= 'Z' || ('\U{00C0}' <= c <= '\U{00DE}' && c != '\U{00D7}') then (c as int + 32) as char else c
  }

  function UpperChar(c: char): char {
    if 'a' <= c <= 'z' || ('\U{00E0}' <= c <= '\U{00FE}' && c != '\U{00F7}') then (c as int - 32) as char else c
  }

  /** `toLowerCase`, character by character. */
  function Lower(s: string): (r: string)
    ensures |r| == |s|
    ensures forall i :: 0 <= i < |s| ==> r[i] == LowerChar(s[i])
  {
    seq(|s|, i requires 0 <= i < |s| => LowerChar(s[i]))
  }

  /** `toUpperCase`, character by character. */
  function Upper(s: string): (r: string)
    ensures |r| == |s|
    ensures forall i :: 0 <= i < |s| ==> r[i] == UpperChar(s[i])
  {
    seq(|s|, i requires 0 <= i < |s| => UpperChar(s[i]))
  }

  /** `s.length`: the number of UTF-16 code units, so a character outside the
      Basic Multilingual Plane counts twice. */
  function Utf16Length(s: string): (n: nat)
    ensures |s| <= n <= 2 * |s|
    ensures (forall i :: 0 <= i < |s| ==> (s[i] as int) < 0x1_0000) ==> n == |s|
  {
    if s == [] then 0
    else Utf16Length(s[..|s| - 1]) + (if (s[|s| - 1] as int) < 0x1_0000 then 1 else 2)
  }

  // ---------------------------------------------------------------------------
  // trim
  // ---------------------------------------------------------------------------

  function TrimStart(s: string): (r: string)
    ensures |r| <= |s| && r == s[|s| - |r|..]
    ensures r == [] || !IsWhitespace(r[0])
    ensures forall i :: 0 <= i < |s| - |r| ==> IsWhitespace(s[i])
  {
    if |s| > 0 && IsWhitespace(s[0]) then TrimStart(s[1..]) else s
  }

  function TrimEnd(s: string): (r: string)
    ensures |r| <= |s| && r == s[..|r|]
    ensures r == [] || !IsWhitespace(r[|r| - 1])
    ensures forall i :: |r| <= i < |s| ==> IsWhitespace(s[i])
  {
    if |s| > 0 && IsWhitespace(s[|s| - 1]) then TrimEnd(s[..|s| - 1]) else s
  }

  /** `String.prototype.trim`: the slice of `s` left after removing whitespace
      from both ends. */
  function Trim(s: string): (r: string)
    ensures |r| <= |s|
    ensures r == [] || (!IsWhitespace(r[0]) && !IsWhitespace(r[|r| - 1]))
    ensures NoWhitespace(s) ==> r == s
  {
    TrimEnd(TrimStart(s))
  }

  /** `!s.trim()`: the string is empty or only whitespace. */
  predicate Blank(s: string) {
    Trim(s) == ""
  }

  lemma {:induction false} TrimStartEmptyIff(s: string)
    ensures TrimStart(s) == [] <==> forall i :: 0 <= i < |s| ==> IsWhitespace(s[i])
    decreases |s|
  {
    if |s| > 0 && IsWhitespace(s[0]) {
      TrimStartEmptyIff(s[1..]);
      if forall i :: 0 <= i < |s[1..]| ==> IsWhitespace(s[1..][i]) {
        forall i | 0 <= i < |s| ensures IsWhitespace(s[i]) {
          if i > 0 { assert s[i] == s[1..][i - 1]; }
        }
      }
    }
  }

  /** A string is blank exactly when every character is whitespace. */
  lemma BlankIff(s: string)
    ensures Blank(s) <==> forall i :: 0 <= i < |s| ==> IsWhitespace(s[i])
  {
    TrimStartEmptyIff(s);
    var t := TrimStart(s);
    if t != [] {
      assert !IsWhitespace(t[0]);
      assert TrimEnd(t) != [];
    }
  }

  // ---------------------------------------------------------------------------
  // includes / indexOf / split
  // ---------------------------------------------------------------------------

  predicate StartsWith(s: string, prefix: string) {
    |prefix| <= |s| && s[..|prefix|] == prefix
  }

  /** `s.includes(t)`. */
  predicate Contains(s: string, t: string)
    decreases |s|
  {
    StartsWith(s, t) || (|s| > 0 && Contains(s[1..], t))
  }

  /** A string that lacks one of `t`'s characters cannot contain `t`. */
  lemma {:induction false} MissingCharNotContained(s: string, t: string, c: char)
    requires c in t && c !in s
    ensures !Contains(s, t)
    decreases |s|
  {
    if |t| <= |s| {
      assert c !in s[..|t|] by { assert forall x :: x in s[..|t|] ==> x in s; }
      assert s[..|t|] != t;
    }
    if |s| > 0 {
      assert forall x :: x in s[1..] ==> x in s;
      MissingCharNotContained(s[1..], t, c);
    }
  }

  /** Any string with `t` as a slice contains `t`. */
  lemma {:induction false} ContainsSlice(a: string, t: string, b: string)
    ensures Contains(a + t + b, t)
    decreases |a|
  {
    if |a| == 0 {
      assert (a + t + b)[..|t|] == t;
    } else {
      assert (a + t + b)[1..] == a[1..] + t + b;
      ContainsSlice(a[1..], t, b);
    }
  }

  /** `t` found at position `k` of `s` is contained in `s`. */
  lemma {:induction false} ContainsFrom(s: string, t: string, k: nat)
    requires k <= |s| && StartsWith(s[k..], t)
    ensures Contains(s, t)
    decreases k
  {
    if k > 0 {
      assert s[1..][k - 1..] == s[k..];
      ContainsFrom(s[1..], t, k - 1);
    } else {
      assert s[0..] == s;
    }
  }

  /** A string that contains `a + b` contains `b`. */
  lemma {:induction false} ContainsTail(s: string, a: string, b: string)
    requires Contains(s, a + b)
    ensures Contains(s, b)
    decreases |s|
  {
    if StartsWith(s, a + b) {
      assert s[|a|..][..|b|] == (a + b)[|a|..] == b;
      ContainsFrom(s, b, |a|);
    } else {
      ContainsTail(s[1..], a, b);
    }
  }

  /** `s.split(c)[0]`: the text before the first `c`, or all of `s`. */
  function FirstPiece(s: string, c: char): (r: string)
    ensures c !in r
    ensures StartsWith(s, r)
    ensures |r| < |s| ==> s[|r|] == c
  {
    if |s| == 0 then s
    else if s[0] == c then []
    else [s[0]] + FirstPiece(s[1..], c)
  }

  /** Text built as `a`, a `c`, then anything, splits at that `c` when `a` has none. */
  lemma FirstPieceOfJoin(a: string, c: char, rest: string)
    requires c !in a
    ensures FirstPiece(a + [c] + rest, c) == a
  {
    var s := a + [c] + rest;
    assert s[|a|] == c;
    assert forall k :: 0 <= k < |a| ==> s[k] == a[k];
  }

  /** The piece after the first `c` of `a + [c] + b + rest` is `b`, when
      neither `a` nor `b` has a `c` and `rest` is empty or starts with one. */
  lemma SecondPieceOfJoin(a: string, c: char, b: string, rest: string)
    requires c !in a && c !in b
    requires rest == [] || rest[0] == c
    ensures SecondPiece(a + [c] + b + rest, c) == Some(b)
  {
    var s := a + [c] + b + rest;
    assert s == a + [c] + (b + rest);
    FirstPieceOfJoin(a, c, b + rest);
    var r := SecondPiece(s, c).value;
    assert s[|a| + 1..] == b + rest;
    assert forall k :: 0 <= k < |b| ==> s[|a| + 1 + k] == b[k];
    assert rest != [] ==> (b + rest)[|b|] == c;
    assert forall k :: 0 <= k < |r| ==> r[k] == (b + rest)[k];
    assert r == (b + rest)[..|r|];
  }

  /** `s.split(c)[1]`: the text between the first and the second `c`, absent
      when `c` does not occur. */
  function SecondPiece(s: string, c: char): (r: Option<string>)
    ensures r.None? <==> c !in s
    ensures r.Some? ==> c !in r.value
    ensures r.Some? ==> var i := |FirstPiece(s, c)|;
      i < |s| && s[i] == c && StartsWith(s[i + 1..], r.value)
    ensures r.Some? ==> var end := |FirstPiece(s, c)| + 1 + |r.value|;
      end == |s| || s[end] == c
  {
    var first := FirstPiece(s, c);
    if |first| == |s| then
      assert s == first;
      None
    else
      var rest := s[|first| + 1..];
      assert c !in s[..|first|];
      Some(FirstPiece(rest, c))
  }

  /** `s.split(c).pop()`: the text after the last `c`, or all of `s`. */
  function LastPiece(s: string, c: char): (r: string)
    ensures c !in r
    ensures |r| <= |s| && s[|s| - |r|..] == r
    ensures |r| < |s| ==> s[|s| - |r| - 1] == c
  {
    if |s| == 0 then s
    else if s[|s| - 1] == c then []
    else LastPiece(s[..|s| - 1], c) + [s[|s| - 1]]
  }

  /** The last piece of a string that ends with `c` followed by a `c`-free
      tail is that tail, whatever comes before. */
  lemma {:induction false} LastPieceOfTail(prefix: string, c: char, tail: string)
    requires c !in tail
    ensures LastPiece(prefix + [c] + tail, c) == tail
    decreases |tail|
  {
    var s := prefix + [c] + tail;
    if |tail| == 0 {
      assert s[|s| - 1] == c;
    } else {
      var init := tail[..|tail| - 1];
      assert s[..|s| - 1] == prefix + [c] + init;
      assert s[|s| - 1] == tail[|tail| - 1];
      assert c !in init by { assert forall x :: x in init ==> x in tail; }
      LastPieceOfTail(prefix, c, init);
      assert init + [tail[|tail| - 1]] == tail;
    }
  }

  // ---------------------------------------------------------------------------
  // Number rendering
  // ---------------------------------------------------------------------------

  function DigitChar(d: nat): char
    requires d < 10
  {
    ('0' as int + d) as char
  }

  /** The decimal text of a natural number, as template literals render it. */
  function Decimal(n: nat): (r: string)
    ensures |r| > 0 && AllDigits(r)
    ensures n >= 10 ==> |r| >= 2
    decreases n
  {
    if n < 10 then [DigitChar(n)] else Decimal(n / 10) + [DigitChar(n % 10)]
  }

  /** Different numbers have different decimal texts. */
  lemma {:induction false} DecimalInjective(a: nat, b: nat)
    requires Decimal(a) == Decimal(b)
    ensures a == b
    decreases a
  {
    if a >= 10 && b >= 10 {
      var da := Decimal(a);
      assert da[..|da| - 1] == Decimal(a / 10);
      assert Decimal(b)[..|da| - 1] == Decimal(b / 10);
      DecimalInjective(a / 10, b / 10);
      assert DigitChar(a % 10) == da[|da| - 1] == DigitChar(b % 10);
    } else if a < 10 && b < 10 {
      assert DigitChar(a) == Decimal(a)[0] == DigitChar(b);
    }
  }
}

=== FILE: callback_layout.dfy ===
/** The layout kept in `app/auth/callback.tsx`, a second copy of the root
    layout with its own link dispatch.

    A URL of the identity provider's verify endpoint is read with `new URL`
    and forwarded with its `token` and `type`, the token also standing in as
    `access_token`; this branch is tried first. Otherwise a link whose host or
    path names the callback is forwarded with the query parameters that
    `Linking.parse` found. Anything else is ignored. `Linking.parse` and
    `new URL` are parameters; `new URL` may reject the text, and since this
    handler has no `try`, a rejection ends the handler with nothing done. */
module CallbackLayout {
  import opened Base
  import opened Models
  import opened Router
  import RootLayout

  /** What `Linking.parse` returns: host, path and query parameters, each possibly absent. */
  datatype ParsedLink = ParsedLink(hostname: Option<string>, path: Option<string>, queryParams: Option<Params>)

  type LinkParser = string -> ParsedLink

  /** `new URL(url).searchParams` as ordered pairs, or `None` when `new URL` throws. */
  type UrlParser = string -> Option<seq<RootLayout.Pair>>

  /** The handler's outcome: nothing, a navigation, or an uncaught exception. */
  datatype LinkOutcome = Ignored | Navigated(nav: Nav) | Crashed

  /** `searchParams.get(k)`: the FIRST value recorded for `k`. */
  function FirstValue(pairs: seq<RootLayout.Pair>, k: string): (v: Option<string>)
    ensures v.Some? ==> exists i :: (0 <= i < |pairs| && pairs[i] == (k, v.value)
                                     && forall j :: 0 <= j < i ==> pairs[j].0 != k)
    ensures v.None? ==> forall j :: 0 <= j < |pairs| ==> pairs[j].0 != k
  {
    if pairs == [] then None
    else if pairs[0].0 == k then Some(pairs[0].1)
    else
      var v := FirstValue(pairs[1..], k);
      if v.Some? then
        var i :| 0 <= i < |pairs[1..]| && pairs[1..][i] == (k, v.value)
                 && forall j :: 0 <= j < i ==> pairs[1..][j].0 != k;
        assert pairs[i + 1] == (k, v.value);
        v
      else v
  }

  const VerifyMarker := "supabase.co/auth/v1/verify"

  /** The record forwarded for a verify URL; a missing `token` or `type` becomes "". */
  function VerifyParams(search: seq<RootLayout.Pair>): (params: Params)
    ensures params.Keys == {"token", "type", "access_token"}
    ensures params["access_token"] == params["token"]
    ensures params["token"] == FirstValue(search, "token").GetOr("")
    ensures params["type"] == FirstValue(search, "type").GetOr("")
  {
    var token := FirstValue(search, "token").GetOr("");
    var kind := FirstValue(search, "type").GetOr("");
    map["token" := token, "type" := kind, "access_token" := token]
  }

  /** `parsedUrl.hostname === "auth-callback" || parsedUrl.path === "auth-callback"
      || parsedUrl.path === "/auth/callback"`. */
  function IsDirectLink(p: ParsedLink): (direct: bool)
    ensures direct <==> p.hostname == Some("auth-callback") || p.path.GetOr("") in {"auth-callback", "/auth/callback"}
    ensures p.hostname.None? && p.path.None? ==> !direct
  {
    p.hostname == Some("auth-callback") || p.path == Some("auth-callback") || p.path == Some("/auth/callback")
  }

  /** `handleDeepLink` of this layout. */
  function HandleDeepLink(url: string, linkingParse: LinkParser, newUrl: UrlParser): (out: LinkOutcome)
    ensures out.Navigated? ==> out.nav.Push? && out.nav.path == CallbackPath
    ensures Contains(url, VerifyMarker) ==>
      (out == Crashed <==> newUrl(url).None?)
      && (newUrl(url).Some? ==> out == Navigated(Push(CallbackPath, VerifyParams(newUrl(url).value))))
    ensures !Contains(url, VerifyMarker) ==>
      (out.Navigated? <==> IsDirectLink(linkingParse(url)))
      && (out.Navigated? ==> out.nav.params == linkingParse(url).queryParams.GetOr(map[]))
      && (!IsDirectLink(linkingParse(url)) ==> out == Ignored)
  {
    var parsed := linkingParse(url);
    if Contains(url, VerifyMarker) then
      match newUrl(url)
      case None => Crashed
      case Some(search) => Navigated(Push(CallbackPath, VerifyParams(search)))
    else if IsDirectLink(parsed) then
      Navigated(Push(CallbackPath, parsed.queryParams.GetOr(map[])))
    else Ignored
  }

  /** The verify branch is decided before `Linking.parse`'s reading is looked
      at: for a verify URL the outcome is the same whatever host and path
      `Linking.parse` reports. */
  lemma VerifyBranchFirst(url: string, parseA: LinkParser, parseB: LinkParser, newUrl: UrlParser)
    requires Contains(url, VerifyMarker)
    ensures HandleDeepLink(url, parseA, newUrl) == HandleDeepLink(url, parseB, newUrl)
  {
  }

  /** A verify link is forwarded by both layouts: the root layout recognises
      the verify path inside the marker this layout looks for. */
  lemma VerifyLinkForwardedByBoth(url: string, linkingParse: LinkParser, newUrl: UrlParser,
                                  parsePairs: RootLayout.PairParser)
    requires Contains(url, VerifyMarker) && newUrl(url).Some?
    ensures HandleDeepLink(url, linkingParse, newUrl).Navigated?
    ensures RootLayout.HandleDeepLink(url, parsePairs).Some?
  {
    assert VerifyMarker == "supabase.co" + "/auth/v1/verify";
    ContainsTail(url, "supabase.co", "/auth/v1/verify");
  }

  /** The same redirect guard as the root layout's, written here with the
      segment tests inlined. */
  function AuthRedirect(cargando: bool, usuario: Option<Usuario>, segments: seq<string>): (nav: Option<Nav>)
    ensures nav.Some? ==> nav.value == Replace(TabsPath, map[])
    ensures nav.Some? <==> (!cargando && usuario.Some? && segments != [] && segments[0] == "auth"
                            && !(|segments| > 1 && segments[1] in {"callback", "nueva-password"}))
  {
    if cargando then None
    else if usuario.Some? && RootLayout.SegmentIs(segments, 0, "auth")
         && !RootLayout.SegmentIs(segments, 1, "callback")
         && !RootLayout.SegmentIs(segments, 1, "nueva-password")
    then Some(Replace(TabsPath, map[]))
    else None
  }

  /** Both copies of the layout redirect in exactly the same situations. */
  lemma GuardsAgree(cargando: bool, usuario: Option<Usuario>, segments: seq<string>)
    ensures AuthRedirect(cargando, usuario, segments) == RootLayout.AuthRedirect(cargando, usuario, segments)
  {
  }
}

=== FILE: cambiar_password.dfy ===
/** The signed-in password change screen (`app/perfil/cambiar-password.tsx`):
    `handleCambiar` checks the fields, verifies the current password, and
    only then sets the new one.

    The verification goes through `verificarContrasenaActual` of the hook,
    which forwards to a facade method that `AuthUseCase` does not define. Its
    answer is therefore a parameter here, and it may be an exception: the
    screen's `try` catches it. */
module CambiarPassword {
  import opened Base
  import opened Router
  import Auth = AuthUseCase

  datatype CambioForm = CambioForm(actual: string, nueva: string, confirmar: string)

  const CamposIncompletos := "Por favor completa todos los campos"
  const NuevaCorta := "La contraseña nueva debe tener al menos 6 caracteres"
  const NuevasDistintas := "Las contraseñas nuevas no coinciden"
  const NuevaIgualActual := "La nueva contraseña debe ser diferente a la actual"
  const ActualIncorrecta := "La contraseña actual es incorrecta"
  const CambioFallido := "No se pudo cambiar la contraseña"
  const ErrorInesperado := "Ocurrió un error al cambiar la contraseña"

  /** All three fields are filled in. */
  predicate Llenos(f: CambioForm) {
    f.actual != "" && f.nueva != "" && f.confirmar != ""
  }

  /** The checks of `handleCambiar`, in order; `None` when all pass. */
  function PrimerError(f: CambioForm): (e: Option<string>)
    ensures e.None? <==> f.actual != "" && f.nueva != "" && Utf16Length(f.nueva) >= 6
                         && f.nueva == f.confirmar && f.actual != f.nueva
    ensures f.actual == "" || f.nueva == "" || f.confirmar == "" ==> e == Some(CamposIncompletos)
    ensures Llenos(f) && Utf16Length(f.nueva) < 6 ==> e == Some(NuevaCorta)
    ensures Llenos(f) && Utf16Length(f.nueva) >= 6 && f.nueva != f.confirmar ==> e == Some(NuevasDistintas)
    ensures Llenos(f) && Utf16Length(f.nueva) >= 6 && f.nueva == f.confirmar && f.actual == f.nueva ==>
      e == Some(NuevaIgualActual)
  {
    if f.actual == "" || f.nueva == "" || f.confirmar == "" then Some(CamposIncompletos)
    else if Utf16Length(f.nueva) < 6 then Some(NuevaCorta)
    else if f.nueva != f.confirmar then Some(NuevasDistintas)
    else if f.actual == f.nueva then Some(NuevaIgualActual)
    else None
  }

  /** What the verification call gave back: a result, or an exception with its message. */
  datatype Reply = Returned(result: OpResult) | Threw(message: string)

  /** What `handleCambiar` did. `verified` is the password sent for
      verification, `nueva` the one set; `clearOnOk` says that the alert's OK
      button empties the three fields; `guardando` is the spinner afterwards. */
  datatype CambioOutcome = CambioOutcome(
    verified: Option<string>,
    nueva: Option<string>,
    effect: Effect,
    clearOnOk: bool,
    guardando: bool)

  function HandleCambiar(b: Auth.Backend, f: CambioForm, verification: Reply, fault: Option<string>): (out: (Auth.Backend, CambioOutcome))
    ensures out.0 == b
    ensures !out.1.guardando
    ensures out.1.nueva.Some? <==> PrimerError(f).None? && verification == Returned(Ok)
    ensures out.1.nueva.Some? ==> out.1.nueva == Some(f.nueva) && out.1.verified == Some(f.actual)
    ensures out.1.clearOnOk <==> out.1.nueva.Some? && fault.None?
    ensures PrimerError(f).Some? ==> out.1 == CambioOutcome(None, None, ErrorAlert(PrimerError(f).value), false, false)
    ensures PrimerError(f).None? && verification.Returned? && verification.result.Fail? ==>
      out.1.effect == ErrorAlert(ActualIncorrecta)
    ensures PrimerError(f).None? && verification.Threw? ==>
      out.1.effect == ErrorAlert(OrDefault(verification.message, ErrorInesperado))
    ensures out.1.nueva.Some? && fault.Some? ==> out.1.effect == ErrorAlert(OrDefault(fault.value, CambioFallido))
    ensures out.1.clearOnOk ==> out.1.effect.Alert? && out.1.effect.onOk == Some(Back)
  {
    match PrimerError(f)
    case Some(message) => (b, CambioOutcome(None, None, ErrorAlert(message), false, false))
    case None =>
      match verification
      case Threw(message) =>
        (b, CambioOutcome(Some(f.actual), None, ErrorAlert(OrDefault(message, ErrorInesperado)), false, false))
      case Returned(check) =>
        if !check.Success() then (b, CambioOutcome(Some(f.actual), None, ErrorAlert(ActualIncorrecta), false, false))
        else
          var (b', result) := Auth.ActualizarContrasena(b, f.nueva, fault);
          if result.Success() then
            (b', CambioOutcome(Some(f.actual), Some(f.nueva),
                               Alert("¡Contraseña Actualizada!", "Tu contraseña ha sido cambiada exitosamente.", Some(Back)),
                               true, false))
          else
            (b', CambioOutcome(Some(f.actual), Some(f.nueva), ErrorAlert(OrDefault(result.error, CambioFallido)), false, false))
  }

  /** The form after the success alert's OK button. */
  function FormAfterOk(f: CambioForm, out: CambioOutcome): (g: CambioForm)
    ensures out.clearOnOk ==> g == CambioForm("", "", "")
    ensures !out.clearOnOk ==> g == f
  {
    if out.clearOnOk then CambioForm("", "", "") else f
  }

  /** When the verification cannot run (it throws, as a call to a missing
      facade method does), the new password is never set and the user sees
      the exception's message or the generic one. */
  lemma VerifierFailureBlocksChange(b: Auth.Backend, f: CambioForm, message: string, fault: Option<string>)
    requires PrimerError(f).None?
    ensures var out := HandleCambiar(b, f, Threw(message), fault);
      out.1.nueva.None? && out.1.verified == Some(f.actual)
      && out.1.effect == ErrorAlert(OrDefault(message, ErrorInesperado))
  {
  }
}

=== FILE: contrataciones_use_case.dfy ===
/** The hiring-request facade (`ContratacionesUseCase`) over the
    `contrataciones` table, held as a sequence of rows.

    The backend assigns each new row its id and its request time; both are
    parameters of `CrearContratacion`, as is the clock reading that stamps an
    advisor's answer. Each operation also takes the error the backend may
    answer with (`fault`). */
module ContratacionesUseCase {
  import opened Base
  import opened Models
  import opened Tables

  type Table = seq<Contratacion>

  // ---------------------------------------------------------------------------
  // Orderings of the list queries
  // ---------------------------------------------------------------------------

  function SolicitudAscending(c: Contratacion): real {
    c.fechaSolicitud as real
  }

  function SolicitudDescending(c: Contratacion): real {
    -(c.fechaSolicitud as real)
  }

  /** Most recent request first. */
  predicate NewestFirst(s: seq<Contratacion>) {
    forall i, j :: 0 <= i < j < |s| ==> s[i].fechaSolicitud >= s[j].fechaSolicitud
  }

  /** Oldest request first. */
  predicate OldestFirst(s: seq<Contratacion>) {
    forall i, j :: 0 <= i < j < |s| ==> s[i].fechaSolicitud <= s[j].fechaSolicitud
  }

  // ---------------------------------------------------------------------------
  // crearContratacion
  // ---------------------------------------------------------------------------

  /** `crearContratacion`: a new pending request of `usuarioId` for `planId`,
      stored with the id `newId` and the request time `now` the backend chooses. */
  function CrearContratacion(t: Table, usuarioId: string, planId: string, notasUsuario: Option<string>,
                             newId: string, now: int, fault: Option<string>): (out: (Table, OpResult))
    ensures fault.Some? ==> out == (t, Fail(fault.value))
    ensures fault.None? ==> out.1 == Ok && |out.0| == |t| + 1 && out.0[..|t|] == t
    ensures fault.None? ==> var c := out.0[|t|];
      c.id == newId && c.usuarioId == usuarioId && c.planId == planId
      && c.estado == Pendiente && c.fechaSolicitud == now && c.notasUsuario == notasUsuario
      && c.fechaRespuesta.None? && c.asesorId.None? && c.notasAsesor.None?
  {
    if fault.Some? then (t, Fail(fault.value))
    else
      var row := Contratacion(newId, usuarioId, planId, Pendiente, now, None, None, notasUsuario, None);
      (t + [row], Ok)
  }

  // ---------------------------------------------------------------------------
  // List queries
  // ---------------------------------------------------------------------------

  /** `obtenerContratacionesPorUsuario`: the user's requests, newest first; a
      failed query gives the empty list. */
  function ObtenerContratacionesPorUsuario(t: Table, usuarioId: string, fault: Option<string>): (r: seq<Contratacion>)
    ensures fault.Some? ==> r == []
    ensures fault.None? ==> NewestFirst(r)
    ensures fault.None? ==> forall x :: multiset(r)[x] == if x.usuarioId == usuarioId then multiset(t)[x] else 0
  {
    if fault.Some? then []
    else
      var r := SortBy(Filter(t, (c: Contratacion) => c.usuarioId == usuarioId), SolicitudDescending);
      assert SortedBy(r, SolicitudDescending);
      r
  }

  /** `obtenerTodasLasContrataciones`: every request, newest first. */
  function ObtenerTodasLasContrataciones(t: Table, fault: Option<string>): (r: seq<Contratacion>)
    ensures fault.Some? ==> r == []
    ensures fault.None? ==> NewestFirst(r) && multiset(r) == multiset(t)
  {
    if fault.Some? then []
    else
      var r := SortBy(t, SolicitudDescending);
      assert SortedBy(r, SolicitudDescending);
      r
  }

  /** `obtenerContratacionesPendientes`: the pending requests, oldest first. */
  function ObtenerContratacionesPendientes(t: Table, fault: Option<string>): (r: seq<Contratacion>)
    ensures fault.Some? ==> r == []
    ensures fault.None? ==> OldestFirst(r)
    ensures fault.None? ==> forall x :: multiset(r)[x] == if x.estado == Pendiente then multiset(t)[x] else 0
  {
    if fault.Some? then []
    else
      var r := SortBy(Filter(t, (c: Contratacion) => c.estado == Pendiente), SolicitudAscending);
      assert SortedBy(r, SolicitudAscending);
      r
  }

  // ---------------------------------------------------------------------------
  // actualizarEstadoContratacion
  // ---------------------------------------------------------------------------

  /** The two answers an advisor may give. */
  datatype Decision = Aprobar | Rechazar

  /** Approving stores `aprobada` and rejecting `rechazada`; neither leaves
      the request pending. */
  function DecisionEstado(d: Decision): (e: Estado)
    ensures e != Pendiente
    ensures e == Aprobada <==> d == Aprobar
    ensures e == Rechazada <==> d == Rechazar
  {
    match d
    case Aprobar => Aprobada
    case Rechazar => Rechazada
  }

  /** The row after the advisor's answer. Omitted notes (`undefined`) are not
      sent, so the stored notes stay. */
  function Answered(c: Contratacion, d: Decision, asesorId: string, notasAsesor: Option<string>, now: int): Contratacion {
    c.(estado := DecisionEstado(d), asesorId := Some(asesorId), fechaRespuesta := Some(now),
       notasAsesor := if notasAsesor.Some? then notasAsesor else c.notasAsesor)
  }

  /** `actualizarEstadoContratacion`: every row with the id gets the decision,
      the advisor and the answer time, whatever its current state. */
  function ActualizarEstadoContratacion(t: Table, id: string, d: Decision, asesorId: string,
                                        notasAsesor: Option<string>, now: int, fault: Option<string>): (out: (Table, OpResult))
    ensures fault.Some? ==> out == (t, Fail(fault.value))
    ensures fault.None? ==> out.1 == Ok && |out.0| == |t|
    ensures fault.None? ==> forall i :: 0 <= i < |t| && t[i].id != id ==> out.0[i] == t[i]
    ensures fault.None? ==> forall i :: 0 <= i < |t| && t[i].id == id ==>
      var c := out.0[i];
      c.estado == DecisionEstado(d) && c.asesorId == Some(asesorId) && c.fechaRespuesta == Some(now)
      && c.notasAsesor == (if notasAsesor.Some? then notasAsesor else t[i].notasAsesor)
      && c.id == t[i].id && c.usuarioId == t[i].usuarioId && c.planId == t[i].planId
      && c.fechaSolicitud == t[i].fechaSolicitud && c.notasUsuario == t[i].notasUsuario
  {
    if fault.Some? then (t, Fail(fault.value))
    else (UpdateWhere(t, (c: Contratacion) => c.id == id, (c: Contratacion) => Answered(c, d, asesorId, notasAsesor, now)), Ok)
  }

  // ---------------------------------------------------------------------------
  // cancelarContratacion
  // ---------------------------------------------------------------------------

  /** `cancelarContratacion`: a pending row with the id becomes rejected and
      nothing else of it changes; a decided row is left alone. Matching no row
      is still a success. */
  function CancelarContratacion(t: Table, id: string, fault: Option<string>): (out: (Table, OpResult))
    ensures fault.Some? ==> out == (t, Fail(fault.value))
    ensures fault.None? ==> out.1 == Ok && |out.0| == |t|
    ensures fault.None? ==> forall i :: 0 <= i < |t| ==>
      out.0[i] == if t[i].id == id && t[i].estado == Pendiente then t[i].(estado := Rechazada) else t[i]
  {
    if fault.Some? then (t, Fail(fault.value))
    else (UpdateWhere(t, (c: Contratacion) => c.id == id && c.estado == Pendiente,
                      (c: Contratacion) => c.(estado := Rechazada)), Ok)
  }

  // ---------------------------------------------------------------------------
  // Properties across operations
  // ---------------------------------------------------------------------------

  /** Cancelling twice is cancelling once. */
  lemma CancelIdempotent(t: Table, id: string)
    ensures var once := CancelarContratacion(t, id, None).0;
      CancelarContratacion(once, id, None).0 == once
  {
    var once := CancelarContratacion(t, id, None).0;
    var twice := CancelarContratacion(once, id, None).0;
    assert forall i :: 0 <= i < |t| ==> twice[i] == once[i];
  }

  /** After a cancellation no request with that id is pending, and an
      answered request keeps the advisor's decision. */
  lemma CancelledNotPending(t: Table, id: string)
    ensures var after := CancelarContratacion(t, id, None).0;
      forall i :: 0 <= i < |after| && after[i].id == id ==>
        (after[i].estado != Pendiente && (t[i].estado != Pendiente ==> after[i] == t[i]))
  {
  }

  /** A request just created is listed for its user and among the pending
      requests. */
  lemma {:induction false} CreatedRequestListed(t: Table, usuarioId: string, planId: string, notas: Option<string>,
                                                newId: string, now: int)
    ensures var after := CrearContratacion(t, usuarioId, planId, notas, newId, now, None).0;
      var row := after[|t|];
      row in ObtenerContratacionesPorUsuario(after, usuarioId, None)
      && row in ObtenerContratacionesPendientes(after, None)
  {
    var after := CrearContratacion(t, usuarioId, planId, notas, newId, now, None).0;
    var row := after[|t|];
    assert row in multiset(after);
    var mine := ObtenerContratacionesPorUsuario(after, usuarioId, None);
    assert multiset(mine)[row] == multiset(after)[row];
    var pending := ObtenerContratacionesPendientes(after, None);
    assert multiset(pending)[row] == multiset(after)[row];
  }

  /** A request the user cancels leaves the advisors' pending list, while it
      stays in the user's own list. */
  lemma {:induction false} CancelledLeavesPending(t: Table, i: nat)
    requires i < |t| && t[i].estado == Pendiente
    ensures var after := CancelarContratacion(t, t[i].id, None).0;
      after[i] !in ObtenerContratacionesPendientes(after, None)
      && after[i] in ObtenerContratacionesPorUsuario(after, t[i].usuarioId, None)
  {
    var after := CancelarContratacion(t, t[i].id, None).0;
    assert after[i] in multiset(after);
    var pending := ObtenerContratacionesPendientes(after, None);
    assert multiset(pending)[after[i]] == 0;
    var mine := ObtenerContratacionesPorUsuario(after, t[i].usuarioId, None);
    assert multiset(mine)[after[i]] == multiset(after)[after[i]];
  }

  /** An answered request leaves the advisors' pending list and stays in
      its user's list, now showing the advisor's decision. */
  lemma {:induction false} AnsweredLeavesPending(t: Table, i: nat, d: Decision, asesorId: string,
                                                 notas: Option<string>, now: int)
    requires i < |t|
    ensures var after := ActualizarEstadoContratacion(t, t[i].id, d, asesorId, notas, now, None).0;
      after[i] !in ObtenerContratacionesPendientes(after, None)
      && after[i] in ObtenerContratacionesPorUsuario(after, t[i].usuarioId, None)
      && (after[i].estado == Aprobada <==> d == Aprobar)
  {
    var after := ActualizarEstadoContratacion(t, t[i].id, d, asesorId, notas, now, None).0;
    assert after[i] in multiset(after);
    var pending := ObtenerContratacionesPendientes(after, None);
    assert multiset(pending)[after[i]] == 0;
    var mine := ObtenerContratacionesPorUsuario(after, t[i].usuarioId, None);
    assert multiset(mine)[after[i]] == multiset(after)[after[i]];
  }

  /** The advisor's update does not look at the current state: a request the
      user has already cancelled can still be approved. */
  lemma ApprovalAfterCancellation(t: Table, i: nat, asesorId: string, now: int)
    requires i < |t| && t[i].estado == Pendiente
    ensures var cancelled := CancelarContratacion(t, t[i].id, None).0;
      var approved := ActualizarEstadoContratacion(cancelled, t[i].id, Aprobar, asesorId, None, now, None).0;
      cancelled[i].estado == Rechazada && approved[i].estado == Aprobada
  {
  }
}

=== FILE: login.dfy ===
/** The sign-in screen (`app/auth/login.tsx`): `handleLogin`. */
module Login {
  import opened Base
  import opened Router
  import Auth = AuthUseCase

  const CamposIncompletos := "Por favor completa todos los campos"
  const LoginFallido := "No se pudo iniciar sesión"

  /** What `handleLogin` did: the credentials it signed in with, if any, and
      what the user sees. */
  datatype LoginOutcome = LoginOutcome(credentials: Option<(string, string)>, effect: Effect)

  /** `handleLogin`: `reply` is the provider's answer to the entered
      credentials. Only empty fields stop the sign-in; nothing is trimmed. */
  function HandleLogin(b: Auth.Backend, email: string, password: string, reply: Auth.SignInReply): (out: (Auth.Backend, LoginOutcome))
    ensures email == "" || password == "" ==> out == (b, LoginOutcome(None, ErrorAlert(CamposIncompletos)))
    ensures email != "" && password != "" ==>
      var (b', result) := Auth.IniciarSesion(b, reply);
      out.0 == b' && out.1.credentials == Some((email, password))
      && (result.Ok? ==> out.1.effect == Navigate(Replace(TabsPath, map[])))
      && (result.Fail? ==> out.1.effect == ErrorAlert(OrDefault(result.error, LoginFallido)))
  {
    if email == "" || password == "" then (b, LoginOutcome(None, ErrorAlert(CamposIncompletos)))
    else
      var (b', result) := Auth.IniciarSesion(b, reply);
      var effect := if result.Success() then Navigate(Replace(TabsPath, map[]))
                    else ErrorAlert(OrDefault(result.error, LoginFallido));
      (b', LoginOutcome(Some((email, password)), effect))
  }

  /** Fields holding only spaces are not caught by the screen: the sign-in is
      attempted with them as typed. */
  lemma BlankFieldsReachProvider(b: Auth.Backend, reply: Auth.SignInReply)
    ensures HandleLogin(b, " ", " ", reply).1.credentials == Some((" ", " "))
  {
  }

  /** Wrong credentials end in the facade's friendlier message. */
  lemma WrongCredentialsShown(b: Auth.Backend, email: string, password: string)
    requires email != "" && password != ""
    ensures HandleLogin(b, email, password, Auth.SignInRejected("Invalid login credentials")).1.effect
         == ErrorAlert(Auth.WrongCredentialsMessage)
  {
    ContainsSlice("", "Invalid login credentials", "");
    assert "" + "Invalid login credentials" + "" == "Invalid login credentials";
  }
}

=== FILE: models.dfy ===
/** The three records the application reads from and writes to its backend
    tables: `usuarios`, `planes_moviles` and `contrataciones`. Timestamps are
    held as integers (the backend's ISO-8601 text orders the same way). */
module Models {
  import opened Base

  // ---------------------------------------------------------------------------
  // Usuario
  // ---------------------------------------------------------------------------

  datatype Rol = AsesorComercial | UsuarioRegistrado

  /** The text stored in the `rol` column. */
  function RolName(r: Rol): string {
    match r
    case AsesorComercial => "asesor_comercial"
    case UsuarioRegistrado => "usuario_registrado"
  }

  /** Reads the `rol` column; any text other than the two role names is rejected. */
  function ParseRol(s: string): (r: Option<Rol>)
    ensures r.Some? ==> RolName(r.value) == s
    ensures r.None? ==> s != RolName(AsesorComercial) && s != RolName(UsuarioRegistrado)
  {
    if s == "asesor_comercial" then Some(AsesorComercial)
    else if s == "usuario_registrado" then Some(UsuarioRegistrado)
    else None
  }

  datatype Usuario = Usuario(
    id: string,
    email: string,
    nombre: Option<string>,
    telefono: Option<string>,
    rol: Rol,
    createdAt: Option<int>)

  // ---------------------------------------------------------------------------
  // PlanMovil
  // ---------------------------------------------------------------------------

  /** The eleven optional descriptive columns of a plan. A plan holds them as a
      map: a feature missing from the map is an absent column. */
  datatype Feature =
    | DatosGb | MinutosVoz | Sms | Velocidad4g | Velocidad5g | RedesSociales
    | Whatsapp | LlamadasInternacionales | Roaming | Segmento | PublicoObjetivo

  /** The column that stores each feature. */
  function Column(f: Feature): string {
    match f
    case DatosGb => "datos_gb"
    case MinutosVoz => "minutos_voz"
    case Sms => "sms"
    case Velocidad4g => "velocidad_4g"
    case Velocidad5g => "velocidad_5g"
    case RedesSociales => "redes_sociales"
    case Whatsapp => "whatsapp"
    case LlamadasInternacionales => "llamadas_internacionales"
    case Roaming => "roaming"
    case Segmento => "segmento"
    case PublicoObjetivo => "publico_objetivo"
  }

  const AllFeatures: set<Feature> :=
    {DatosGb, MinutosVoz, Sms, Velocidad4g, Velocidad5g, RedesSociales,
     Whatsapp, LlamadasInternacionales, Roaming, Segmento, PublicoObjetivo}

  datatype PlanMovil = PlanMovil(
    id: string,
    nombre: string,
    precio: real,
    features: map<Feature, string>,
    imagenUrl: Option<string>,
    activo: bool,
    asesorId: Option<string>,
    createdAt: int)

  // ---------------------------------------------------------------------------
  // Contratacion
  // ---------------------------------------------------------------------------

  datatype Estado = Pendiente | Aprobada | Rechazada

  /** The text stored in the `estado` column. */
  function EstadoName(e: Estado): string {
    match e
    case Pendiente => "pendiente"
    case Aprobada => "aprobada"
    case Rechazada => "rechazada"
  }

  /** Reads the `estado` column; any other text is rejected. */
  function ParseEstado(s: string): (r: Option<Estado>)
    ensures r.Some? ==> EstadoName(r.value) == s
    ensures r.None? ==> forall e: Estado :: EstadoName(e) != s
  {
    if s == "pendiente" then Some(Pendiente)
    else if s == "aprobada" then Some(Aprobada)
    else if s == "rechazada" then Some(Rechazada)
    else None
  }

  /** A hiring request: its own columns only. The `plan`, `usuario` and
      `asesor` records the list queries join in are not part of this model. */
  datatype Contratacion = Contratacion(
    id: string,
    usuarioId: string,
    planId: string,
    estado: Estado,
    fechaSolicitud: int,
    fechaRespuesta: Option<int>,
    asesorId: Option<string>,
    notasUsuario: Option<string>,
    notasAsesor: Option<string>)

  /** Every role and every estado survives a write to its column and a read back. */
  lemma ColumnTextRoundTrip(r: Rol, e: Estado)
    ensures ParseRol(RolName(r)) == Some(r)
    ensures ParseEstado(EstadoName(e)) == Some(e)
  {
  }
}

=== FILE: nueva_password.dfy ===
/** The new-password screen reached from a recovery link
    (`app/auth/nueva-password.tsx`): `handleCambiar`. */
module NuevaPassword {
  import opened Base
  import opened Router
  import Auth = AuthUseCase

  const CamposIncompletos := "Por favor completa todos los campos"
  const PasswordCorta := "La contraseña debe tener al menos 6 caracteres"
  const PasswordsDistintas := "Las contraseñas no coinciden"
  const CambioFallido := "No se pudo cambiar la contraseña"

  /** The checks of `handleCambiar`, in order; `None` when all pass. */
  function PrimerError(password: string, confirmar: string): (e: Option<string>)
    ensures e.None? <==> password != "" && Utf16Length(password) >= 6 && password == confirmar
    ensures password == "" || confirmar == "" ==> e == Some(CamposIncompletos)
    ensures password != "" && confirmar != "" && Utf16Length(password) < 6 ==> e == Some(PasswordCorta)
    ensures password != "" && confirmar != "" && Utf16Length(password) >= 6 && password != confirmar ==>
      e == Some(PasswordsDistintas)
  {
    if password == "" || confirmar == "" then Some(CamposIncompletos)
    else if Utf16Length(password) < 6 then Some(PasswordCorta)
    else if password != confirmar then Some(PasswordsDistintas)
    else None
  }

  /** A password shorter than six UTF-16 units is reported as short even
      when the confirmation differs from it: the length is checked first. */
  lemma LengthCheckedBeforeMatch(password: string, confirmar: string)
    requires password != "" && confirmar != "" && Utf16Length(password) < 6 && password != confirmar
    ensures PrimerError(password, confirmar) == Some(PasswordCorta)
  {
  }

  /** One character outside the Basic Multilingual Plane counts as two
      units, so three such characters already make a long enough password. */
  lemma AstralCharactersCountTwice(password: string)
    requires |password| == 3 && forall i :: 0 <= i < 3 ==> (password[i] as int) >= 0x1_0000
    ensures PrimerError(password, password).None?
  {
    assert password[..2][..1] == password[..1];
    assert password[..1][..0] == [];
    assert password[..3] == password;
    assert Utf16Length(password[..1]) == 2;
    assert Utf16Length(password[..2]) == 4;
    assert Utf16Length(password) == 6;
  }

  /** What `handleCambiar` did: the password it set, if any, and what the user sees. */
  datatype CambioOutcome = CambioOutcome(nueva: Option<string>, effect: Effect)

  /** `handleCambiar`: `fault` is the provider's error for the update. */
  function HandleCambiar(b: Auth.Backend, password: string, confirmar: string, fault: Option<string>): (out: (Auth.Backend, CambioOutcome))
    ensures out.0 == b
    ensures PrimerError(password, confirmar).Some? ==>
      out.1 == CambioOutcome(None, ErrorAlert(PrimerError(password, confirmar).value))
    ensures PrimerError(password, confirmar).None? ==>
      out.1.nueva == Some(password)
      && (fault.None? ==> out.1.effect.Alert? && out.1.effect.onOk == Some(Replace(LoginPath, map[])))
      && (fault.Some? ==> out.1.effect == ErrorAlert(OrDefault(fault.value, CambioFallido)))
  {
    match PrimerError(password, confirmar)
    case Some(message) => (b, CambioOutcome(None, ErrorAlert(message)))
    case None =>
      var (b', result) := Auth.ActualizarContrasena(b, password, fault);
      var effect :=
        if result.Success() then
          Alert("¡Contraseña Actualizada!", "Tu contraseña ha sido cambiada exitosamente. Ahora puedes iniciar sesión.",
                Some(Replace(LoginPath, map[])))
        else ErrorAlert(OrDefault(result.error, CambioFallido));
      (b', CambioOutcome(Some(password), effect))
  }
}

=== FILE: perfil.dfy ===
/** The profile screen (`app/perfil/index.tsx`): the form's initial values,
    its phone check, `handleGuardarPerfil`, and the initials in the avatar. */
module Perfil {
  import opened Base
  import opened Models
  import opened Router
  import opened Validators
  import UseAuth
  import Auth = AuthUseCase

  // ---------------------------------------------------------------------------
  // The form
  // ---------------------------------------------------------------------------

  datatype PerfilForm = PerfilForm(nombre: string, telefono: string)

  /** The fields as `useState` initialises them from a user: its name and
      phone, or empty. The screen hands it the user of its own `useAuth` on
      the first render, before that hook has loaded anyone. */
  function InitialForm(usuario: Option<Usuario>): (f: PerfilForm)
    ensures usuario.Some? && Truthy(usuario.value.nombre) ==> f.nombre == usuario.value.nombre.value
    ensures usuario.Some? && Truthy(usuario.value.telefono) ==> f.telefono == usuario.value.telefono.value
    ensures usuario.None? ==> f == PerfilForm("", "")
    ensures usuario.Some? && !Truthy(usuario.value.nombre) ==> f.nombre == ""
    ensures usuario.Some? && !Truthy(usuario.value.telefono) ==> f.telefono == ""
  {
    match usuario
    case None => PerfilForm("", "")
    case Some(u) => PerfilForm(u.nombre.GetOr(""), u.telefono.GetOr(""))
  }

  const NombreVacio := "El nombre no puede estar vacío"
  const TelefonoInvalido := "Número de teléfono inválido. Formato: +593 99 123 4567 o 0991234567"
  const GuardadoFallido := "No se pudo actualizar el perfil"

  /** The screen's own `validarTelefono`: an empty phone is allowed here. */
  function TelefonoAceptable(tel: string): (ok: bool)
    ensures ok <==> Blank(tel) || MatchesPhonePattern(StripWhitespace(tel))
  {
    Blank(tel) || ValidarTelefono(tel)
  }

  /** What `handleGuardarPerfil` did: whether it wrote the profile, what the
      user sees, and whether the screen stays in edit mode. */
  datatype GuardarOutcome = GuardarOutcome(sent: bool, effect: Effect, modoEdicion: bool)

  /** `handleGuardarPerfil`: `fault` is the error of the table write and
      `read` how the refresh after it went. The phone is passed as typed, so
      an empty field is handed on as `""`. */
  function HandleGuardarPerfil(v: UseAuth.AuthView, b: Auth.Backend, f: PerfilForm, modoEdicion: bool,
                               fault: Option<string>, read: Auth.UserRead): (out: (UseAuth.AuthView, Auth.Backend, GuardarOutcome))
    ensures Blank(f.nombre) ==> out == (v, b, GuardarOutcome(false, ErrorAlert(NombreVacio), modoEdicion))
    ensures !Blank(f.nombre) && !TelefonoAceptable(f.telefono) ==>
      out == (v, b, GuardarOutcome(false, ErrorAlert(TelefonoInvalido), modoEdicion))
    ensures !Blank(f.nombre) && TelefonoAceptable(f.telefono) ==>
      var (v', b', result) := UseAuth.ActualizarPerfil(v, b, f.nombre, Some(f.telefono), fault, read);
      out.0 == v' && out.1 == b' && out.2.sent
      && (result.Ok? ==> out.2.effect == Alert("✅ Éxito", "Perfil actualizado correctamente", None) && !out.2.modoEdicion)
      && (result.Fail? ==> out.2.effect == ErrorAlert(OrDefault(result.error, GuardadoFallido)) && out.2.modoEdicion == modoEdicion)
  {
    if Blank(f.nombre) then (v, b, GuardarOutcome(false, ErrorAlert(NombreVacio), modoEdicion))
    else if !Blank(f.telefono) && !TelefonoAceptable(f.telefono) then
      (v, b, GuardarOutcome(false, ErrorAlert(TelefonoInvalido), modoEdicion))
    else
      var (v', b', result) := UseAuth.ActualizarPerfil(v, b, f.nombre, Some(f.telefono), fault, read);
      if result.Success() then (v', b', GuardarOutcome(true, Alert("✅ Éxito", "Perfil actualizado correctamente", None), false))
      else (v', b', GuardarOutcome(true, ErrorAlert(OrDefault(result.error, GuardadoFallido)), modoEdicion))
  }

  /** Emptying the phone field and saving reports success, yet the stored
      phone stays what it was: the facade skips an empty phone. */
  lemma EmptiedPhoneKept(v: UseAuth.AuthView, b: Auth.Backend, nombre: string, modoEdicion: bool)
    requires !Blank(nombre) && b.principal.Some? && b.principal.value.id in b.usuarios
    ensures var out := HandleGuardarPerfil(v, b, PerfilForm(nombre, ""), modoEdicion, None, Auth.CleanRead);
      out.2.effect.Alert? && out.2.effect.title == "✅ Éxito"
      && out.0.usuario.Some?
      && out.0.usuario.value.telefono == b.usuarios[b.principal.value.id].telefono
  {
    assert Blank("") && TelefonoAceptable("") && !Truthy(Some(""));
    var inner := UseAuth.ActualizarPerfil(v, b, nombre, Some(""), None, Auth.CleanRead);
    Auth.ProfileUpdateThenRead(b, nombre, Some(""));
    assert inner.2 == Ok;
    assert inner.0 == UseAuth.VerificarSesion(inner.1, Auth.CleanRead);
  }

  /** As written, the screen reads the user into its fields on its first
      render only, and its own `useAuth` has loaded nobody yet then. So the
      fields always start empty, and saving them untouched is rejected
      whatever profile the backend holds. */
  lemma UntouchedSaveRejected(v: UseAuth.AuthView, b: Auth.Backend, modoEdicion: bool,
                              fault: Option<string>, read: Auth.UserRead)
    ensures InitialForm(UseAuth.Initial.usuario) == PerfilForm("", "")
    ensures HandleGuardarPerfil(v, b, InitialForm(UseAuth.Initial.usuario), modoEdicion, fault, read)
            == (v, b, GuardarOutcome(false, ErrorAlert(NombreVacio), modoEdicion))
  {
    assert Blank("");
  }

  /** With the fields filled from the user once it is loaded, saving them
      untouched succeeds and leaves the profile as it was. */
  lemma LoadedFormSavesUnchanged(v: UseAuth.AuthView, b: Auth.Backend, modoEdicion: bool)
    requires b.principal.Some? && b.principal.value.id in b.usuarios
    requires b.usuarios[b.principal.value.id].nombre.Some?
    requires !Blank(b.usuarios[b.principal.value.id].nombre.value)
    requires TelefonoAceptable(b.usuarios[b.principal.value.id].telefono.GetOr(""))
    ensures var loaded := UseAuth.VerificarSesion(b, Auth.CleanRead);
      var out := HandleGuardarPerfil(v, b, InitialForm(loaded.usuario), modoEdicion, None, Auth.CleanRead);
      out.1 == b && out.0 == loaded
      && out.2.effect == Alert("✅ Éxito", "Perfil actualizado correctamente", None)
  {
    var id := b.principal.value.id;
    var row := b.usuarios[id];
    var loaded := UseAuth.VerificarSesion(b, Auth.CleanRead);
    assert loaded.usuario == Some(row);
    var f := InitialForm(loaded.usuario);
    assert f == PerfilForm(row.nombre.value, row.telefono.GetOr(""));
    var updated := Auth.UpdateProfileRow(b.usuarios, id, f.nombre, Auth.ProfilePatchFor(f.nombre, Some(f.telefono)).telefono);
    assert updated[id] == row;
    assert updated == b.usuarios;
    assert Auth.ActualizarPerfil(b, f.nombre, Some(f.telefono), None) == (b, Ok);
  }

  // ---------------------------------------------------------------------------
  // Initials
  // ---------------------------------------------------------------------------

  /** `s.split(sep)`: the pieces between separators, empty ones included, so
      there is always at least one. Defined from the end of the string. */
  function Split(s: string, sep: char): (parts: seq<string>)
    ensures |parts| >= 1
    decreases |s|
  {
    if s == [] then [""]
    else
      var init := Split(s[..|s| - 1], sep);
      var c := s[|s| - 1];
      if c == sep then init + [""]
      else init[..|init| - 1] + [init[|init| - 1] + [c]]
  }

  /** `parts.join(sep)`. */
  function Join(parts: seq<string>, sep: char): string
    requires |parts| >= 1
  {
    if |parts| == 1 then parts[0]
    else Join(parts[..|parts| - 1], sep) + [sep] + parts[|parts| - 1]
  }

  /** Splitting loses nothing: joining the pieces gives the string back, and
      no piece holds the separator. */
  lemma {:induction false} SplitJoin(s: string, sep: char)
    ensures Join(Split(s, sep), sep) == s
    ensures forall k :: 0 <= k < |Split(s, sep)| ==> sep !in Split(s, sep)[k]
    decreases |s|
  {
    if s != [] {
      var p := s[..|s| - 1];
      var c := s[|s| - 1];
      var init := Split(p, sep);
      SplitJoin(p, sep);
      assert s == p + [c];
      if c != sep {
        var parts := Split(s, sep);
        assert parts[..|parts| - 1] == init[..|init| - 1];
        if |init| > 1 {
          assert init[..|init| - 1][..|init| - 2] == init[..|init| - 2];
          assert Join(init, sep) == Join(init[..|init| - 1], sep) + [sep] + init[|init| - 1];
        }
      } else {
        assert Split(s, sep)[..|Split(s, sep)| - 1] == init;
      }
    }
  }

  /** The last piece is empty exactly when the string is empty or ends with
      the separator. */
  lemma LastPieceEmpty(s: string, sep: char)
    ensures var parts := Split(s, sep);
      parts[|parts| - 1] == [] <==> s == [] || s[|s| - 1] == sep
  {
  }

  /** `.map(n => n[0]).join('')`: the first character of every non-empty
      piece (an empty piece contributes `undefined`, which joins as nothing). */
  function Heads(parts: seq<string>): (r: string)
    ensures |r| <= |parts|
  {
    if parts == [] then []
    else
      var last := parts[|parts| - 1];
      Heads(parts[..|parts| - 1]) + (if last == [] then [] else [last[0]])
  }

  /** `s` holds a word starting at `i`: a non-space after a space or at the start. */
  predicate WordStart(s: string, i: int)
    requires 0 <= i < |s|
  {
    s[i] != ' ' && (i == 0 || s[i - 1] == ' ')
  }

  /** Reading one more character adds it to the heads exactly when it starts a word. */
  lemma {:induction false} HeadsStep(p: string, c: char)
    ensures Heads(Split(p + [c], ' '))
         == Heads(Split(p, ' ')) + (if c != ' ' && (p == [] || p[|p| - 1] == ' ') then [c] else [])
  {
    var s := p + [c];
    assert s[..|s| - 1] == p;
    var init := Split(p, ' ');
    LastPieceEmpty(p, ' ');
    if c != ' ' {
      var parts := Split(s, ' ');
      assert parts[..|parts| - 1] == init[..|init| - 1];
      assert init == init[..|init| - 1] + [init[|init| - 1]];
    } else {
      assert Split(s, ' ')[..|Split(s, ' ')| - 1] == init;
    }
  }

  /** One step of the scan: the heads of one more character. */
  lemma ScanStep(s: string, i: nat)
    requires i < |s|
    ensures Heads(Split(s[..i + 1], ' ')) == Heads(Split(s[..i], ' ')) + (if WordStart(s, i) then [s[i]] else [])
  {
    var p := s[..i];
    HeadsStep(p, s[i]);
    assert s[..i + 1] == p + [s[i]];
    assert i > 0 ==> p[|p| - 1] == s[i - 1];
  }

  /** The initials by their definition: the first two heads, upper-cased. */
  function InicialesDe(source: string): string {
    var heads := Heads(Split(source, ' '));
    Upper(heads[..if |heads| < 2 then |heads| else 2])
  }

  /** The text the initials come from: the name when there is one, else the email. */
  function FuenteIniciales(u: Usuario): (s: string)
    ensures Truthy(u.nombre) ==> s == u.nombre.value
    ensures !Truthy(u.nombre) ==> s == u.email
  {
    if u.nombre.Some? && u.nombre.value != "" then u.nombre.value else u.email
  }

  /** The avatar's initials, in one pass over the text: every character that
      starts a word is collected, and the first two are upper-cased. */
  method Iniciales(u: Usuario) returns (r: string)
    ensures r == InicialesDe(FuenteIniciales(u))
    ensures |r| <= 2
  {
    var source := FuenteIniciales(u);
    var heads := "";
    var i := 0;
    while i < |source|
      invariant 0 <= i <= |source|
      invariant heads == Heads(Split(source[..i], ' '))
    {
      ScanStep(source, i);
      if WordStart(source, i) {
        heads := heads + [source[i]];
      }
      i := i + 1;
    }
    assert source[..i] == source;
    r := Upper(heads[..if |heads| < 2 then |heads| else 2]);
  }

  /** The initials are empty exactly when the text holds nothing but spaces. */
  lemma {:induction false} HeadsEmptyIff(s: string)
    ensures Heads(Split(s, ' ')) == [] <==> forall i :: 0 <= i < |s| ==> s[i] == ' '
    decreases |s|
  {
    if s != [] {
      var p := s[..|s| - 1];
      var c := s[|s| - 1];
      assert s == p + [c];
      HeadsStep(p, c);
      HeadsEmptyIff(p);
      if c != ' ' && (forall i :: 0 <= i < |p| ==> p[i] == ' ') {
        assert p == [] || p[|p| - 1] == ' ';
      }
      assert forall i :: 0 <= i < |p| ==> p[i] == s[i];
    }
  }

  /** `Split` read forwards: one more character either opens a new piece
      or extends the last one. */
  lemma SplitSnoc(q: string, c: char, sep: char)
    ensures var init := Split(q, sep);
      Split(q + [c], sep) == if c == sep then init + [""] else init[..|init| - 1] + [init[|init| - 1] + [c]]
  {
    assert (q + [c])[..|q + [c]| - 1] == q;
  }

  /** Splitting at a separator splits the two sides independently. */
  lemma {:induction false} SplitAppendSep(s: string, t: string, sep: char)
    ensures Split(s + [sep] + t, sep) == Split(s, sep) + Split(t, sep)
    decreases |t|
  {
    if t == [] {
      SplitSnoc(s, sep, sep);
      assert s + [sep] + t == s + [sep];
    } else {
      var t' := t[..|t| - 1];
      var c := t[|t| - 1];
      assert t == t' + [c];
      assert s + [sep] + t == (s + [sep] + t') + [c];
      SplitAppendSep(s, t', sep);
      SplitSnoc(s + [sep] + t', c, sep);
      SplitSnoc(t', c, sep);
      SnocAfterConcat(Split(s, sep), Split(t', sep), c, sep);
    }
  }

  lemma SnocAfterConcat(left: seq<string>, init: seq<string>, c: char, sep: char)
    requires |init| >= 1
    ensures var x := left + init;
      (if c == sep then x + [""] else x[..|x| - 1] + [x[|x| - 1] + [c]])
      == left + (if c == sep then init + [""] else init[..|init| - 1] + [init[|init| - 1] + [c]])
  {
    var x := left + init;
    if c != sep {
      assert x[..|x| - 1] == left + init[..|init| - 1];
    }
  }

  /** A string without the separator is one piece. */
  lemma {:induction false} SplitNoSep(s: string, sep: char)
    requires sep !in s
    ensures Split(s, sep) == [s]
    decreases |s|
  {
    if s != [] {
      assert s == s[..|s| - 1] + [s[|s| - 1]];
      SplitNoSep(s[..|s| - 1], sep);
    }
  }

  /** A first name and a surname give their two first letters, upper-cased. */
  lemma TwoWordNameInitials(first: string, last: string)
    requires first != [] && last != [] && ' ' !in first && ' ' !in last
    ensures InicialesDe(first + " " + last) == [UpperChar(first[0]), UpperChar(last[0])]
  {
    SplitAppendSep(first, last, ' ');
    SplitNoSep(first, ' ');
    SplitNoSep(last, ' ');
    assert first + " " + last == first + [' '] + last;
    assert Heads([first, last]) == Heads([first]) + [last[0]];
    assert Heads([first]) == Heads([]) + [first[0]];
  }
}

=== FILE: plan_crear.dfy ===
/** The plan creation screen (`app/plan/crear.tsx`): only advisors see the
    form; `handleCrear` checks the price, uploads the chosen image, and
    creates an active plan owned by the advisor. */
module PlanCrear {
  import opened Base
  import opened Models
  import opened Router
  import opened PlanForm
  import UseAuth
  import UsePlanes
  import Planes = PlanesUseCase

  const SmsPorDefecto := "Ilimitados a nivel nacional"
  const CreacionFallida := "No se pudo crear el plan"

  /** The empty form: every field blank except SMS, which has a default. */
  const InitialFields := PlanFields("", "", map[Sms := SmsPorDefecto], None)

  /** Only advisors get the form; everyone else sees a lock. */
  function MuestraFormulario(view: UseAuth.AuthView): (shown: bool)
    ensures shown <==> view.usuario.Some? && view.usuario.value.rol == AsesorComercial
  {
    UseAuth.EsAsesor(view)
  }

  /** The plan `handleCrear` sends once the checks pass. */
  function DraftFor(fields: PlanFields, precio: real, imagenUrl: Option<string>, asesorId: string): (d: Planes.PlanDraft)
    ensures d.nombre == Trim(fields.nombre) && d.precio == precio
    ensures d.features == TrimmedFeatures(fields)
    ensures d.imagenUrl.Some? <==> Truthy(imagenUrl)
    ensures d.imagenUrl.Some? ==> d.imagenUrl == imagenUrl
    ensures d.activo && d.asesorId == Some(asesorId)
  {
    Planes.PlanDraft(Trim(fields.nombre), precio, TrimmedFeatures(fields),
                     if Truthy(imagenUrl) then imagenUrl else None, true, Some(asesorId))
  }

  /** What `handleCrear` did: the plan it sent, if any, and what the user sees. */
  datatype CrearOutcome = CrearOutcome(draft: Option<Planes.PlanDraft>, effect: Effect)

  /** The image upload that precedes the insert: only when an image was
      chosen. `uploadTime` is the clock reading that names the object. */
  function Upload(bucket: Planes.Bucket, imagenUri: Option<string>, uploadTime: nat, uploadFault: Option<string>,
                  publicUrl: string -> string): (out: (Planes.Bucket, Option<string>))
    ensures !Truthy(imagenUri) ==> out == (bucket, None)
    ensures Truthy(imagenUri) ==> out == Planes.SubirImagen(bucket, imagenUri.value, uploadTime, uploadFault, publicUrl)
  {
    if Truthy(imagenUri) then Planes.SubirImagen(bucket, imagenUri.value, uploadTime, uploadFault, publicUrl)
    else (bucket, None)
  }

  /** `handleCrear`. The list it reloads is the catalogue, since the screen's
      `usePlanes` is not given an advisor id. */
  function HandleCrear(v: UsePlanes.PlanesView, t: Planes.Table, bucket: Planes.Bucket, view: UseAuth.AuthView,
                       fields: PlanFields, parse: Parser, uploadTime: nat, uploadFault: Option<string>,
                       publicUrl: string -> string, newId: string, now: int, fault: Option<string>,
                       reloadFault: Option<string>): (out: (UsePlanes.PlanesView, Planes.Table, Planes.Bucket, CrearOutcome))
    requires MuestraFormulario(view)
    ensures PrecioError(fields, parse).Some? ==>
      out == (v, t, bucket, CrearOutcome(None, ErrorAlert(PrecioError(fields, parse).value)))
    ensures PrecioError(fields, parse).None? ==>
      var (bucket', url) := Upload(bucket, fields.imagenUri, uploadTime, uploadFault, publicUrl);
      var draft := DraftFor(fields, parse(fields.precio).value, url, view.usuario.value.id);
      var (v', t', result) := UsePlanes.Crear(v, t, None, draft, newId, now, fault, reloadFault);
      out == (v', t', bucket',
              CrearOutcome(Some(draft),
                           if result.Success? then Alert("¡Éxito!", "Plan creado correctamente", Some(Push(TabsPath, map[])))
                           else ErrorAlert(OrDefault(result.error, CreacionFallida))))
  {
    match PrecioError(fields, parse)
    case Some(message) => (v, t, bucket, CrearOutcome(None, ErrorAlert(message)))
    case None =>
      var (bucket', url) := Upload(bucket, fields.imagenUri, uploadTime, uploadFault, publicUrl);
      var draft := DraftFor(fields, parse(fields.precio).value, url, view.usuario.value.id);
      var (v', t', result) := UsePlanes.Crear(v, t, None, draft, newId, now, fault, reloadFault);
      var effect :=
        if result.Succeeded() then Alert("¡Éxito!", "Plan creado correctamente", Some(Push(TabsPath, map[])))
        else ErrorAlert(OrDefault(result.error, CreacionFallida));
      (v', t', bucket', CrearOutcome(Some(draft), effect))
  }

  /** With everything working, the new plan is active, belongs to the advisor,
      carries the trimmed fields, and is in the reloaded catalogue. */
  lemma {:induction false} CreatedPlanInCatalogue(v: UsePlanes.PlanesView, t: Planes.Table, bucket: Planes.Bucket,
                                                  view: UseAuth.AuthView, fields: PlanFields, parse: Parser,
                                                  uploadTime: nat, publicUrl: string -> string, newId: string, now: int)
    requires MuestraFormulario(view) && PrecioError(fields, parse).None?
    ensures var out := HandleCrear(v, t, bucket, view, fields, parse, uploadTime, None, publicUrl, newId, now, None, None);
      var p := out.1[|t|];
      |out.1| == |t| + 1 && p in out.0.planes
      && p.activo && p.asesorId == Some(view.usuario.value.id) && p.nombre == Trim(fields.nombre)
      && p.features == TrimmedFeatures(fields)
  {
    var out := HandleCrear(v, t, bucket, view, fields, parse, uploadTime, None, publicUrl, newId, now, None, None);
    var p := out.1[|t|];
    assert p in multiset(out.1);
    assert multiset(out.0.planes)[p] == multiset(out.1)[p];
  }

  /** A failed image upload does not stop the plan: it is created without an image. */
  lemma FailedUploadStillCreates(v: UsePlanes.PlanesView, t: Planes.Table, bucket: Planes.Bucket,
                                 view: UseAuth.AuthView, fields: PlanFields, parse: Parser, uploadTime: nat,
                                 error: string, publicUrl: string -> string, newId: string, now: int)
    requires MuestraFormulario(view) && PrecioError(fields, parse).None? && Truthy(fields.imagenUri)
    ensures var out := HandleCrear(v, t, bucket, view, fields, parse, uploadTime, Some(error), publicUrl, newId, now, None, None);
      out.2 == bucket && out.1 == t + [out.1[|t|]] && out.1[|t|].imagenUrl.None?
      && out.3.effect.Alert? && out.3.effect.title == "¡Éxito!"
  {
  }
}

=== FILE: plan_detalle.dfy ===
/** The plan detail screen (`app/plan/detalle.tsx`): which controls a visitor
    sees (the edit button, the hire button, the sign-in prompt), and `handleContratar`, which asks for confirmation and then files a
    hiring request for the signed-in user. */
module PlanDetalle {
  import opened Base
  import opened Models
  import opened Router
  import UseAuth
  import UseContrataciones
  import PlanEditar
  import C = ContratacionesUseCase

  const SesionRequerida := "Debes iniciar sesión para contratar un plan"
  const SolicitudFallida := "No se pudo crear la solicitud"

  /** The hire button: for a signed-in user who is not an advisor. */
  function MuestraContratar(view: UseAuth.AuthView): (shown: bool)
    ensures shown <==> view.usuario.Some? && view.usuario.value.rol == UsuarioRegistrado
  {
    !UseAuth.EsAsesor(view) && view.usuario.Some?
  }

  /** The sign-in prompt: for guests only. */
  function MuestraInvitado(view: UseAuth.AuthView): (shown: bool)
    ensures shown <==> view.usuario.None?
  {
    view.usuario.None?
  }

  /** The edit button: for the advisor who owns the plan. It is the same
      rule the edit screen applies before it shows its form. */
  function PuedeEditar(view: UseAuth.AuthView, plan: PlanMovil): (shown: bool)
    ensures shown <==> view.usuario.Some? && view.usuario.value.rol == AsesorComercial
                       && plan.asesorId == Some(view.usuario.value.id)
    ensures shown == PlanEditar.PuedeEditar(view, plan)
  {
    UseAuth.EsAsesor(view) && plan.asesorId == Some(view.usuario.value.id)
  }

  /** The edit and hire buttons are never shown together, and a guest sees
      neither. */
  lemma EditAndHireExclusive(view: UseAuth.AuthView, plan: PlanMovil)
    ensures !(PuedeEditar(view, plan) && MuestraContratar(view))
    ensures MuestraInvitado(view) ==> !PuedeEditar(view, plan) && !MuestraContratar(view)
  {
  }

  /** A visitor sees at most one of the two, and an advisor neither. */
  lemma ControlsByRole(view: UseAuth.AuthView)
    ensures !(MuestraContratar(view) && MuestraInvitado(view))
    ensures UseAuth.EsAsesor(view) ==> !MuestraContratar(view) && !MuestraInvitado(view)
  {
  }

  /** `handleContratar` up to the confirmation: a guest is told to sign in
      and taken to the sign-in screen at once; a user is asked to confirm. */
  function HandleContratar(view: UseAuth.AuthView, plan: PlanMovil): (effects: seq<Effect>)
    ensures view.usuario.None? ==> effects == [ErrorAlert(SesionRequerida), Navigate(Push(LoginPath, map[]))]
    ensures view.usuario.Some? ==> |effects| == 1 && effects[0].Alert? && effects[0].title == "Confirmar Contratación"
                                   && effects[0].onOk.None?
  {
    if view.usuario.None? then [ErrorAlert(SesionRequerida), Navigate(Push(LoginPath, map[]))]
    else [Alert("Confirmar Contratación", "¿Deseas solicitar la contratación del plan " + plan.nombre + "?", None)]
  }

  /** The guest branch cannot be reached from the hire button, which guests
      never see. */
  lemma HireButtonHasUser(view: UseAuth.AuthView, plan: PlanMovil)
    requires MuestraContratar(view)
    ensures HandleContratar(view, plan)[0].title == "Confirmar Contratación"
  {
  }

  /** What the confirmation did: the table write's result and what the user sees. */
  datatype ConfirmOutcome = ConfirmOutcome(result: OpResult, effect: Effect)

  /** The "Confirmar" button: the request is filed through the screen's
      `useContrataciones`, made with the user's id and no advisor flag. */
  function Confirmar(cv: UseContrataciones.ContratacionesView, t: C.Table, view: UseAuth.AuthView, plan: PlanMovil,
                     newId: string, now: int, fault: Option<string>,
                     reloadFault: Option<string>): (out: (UseContrataciones.ContratacionesView, C.Table, ConfirmOutcome))
    requires view.usuario.Some?
    ensures var u := view.usuario.value;
      var (cv', t', result) := UseContrataciones.Crear(cv, t, Some(u.id), false, u.id, plan.id, None, newId, now, fault, reloadFault);
      out.0 == cv' && out.1 == t' && out.2.result == result
    ensures out.2.result.Ok? ==> out.2.effect.Alert? && out.2.effect.onOk == Some(Push(ContratacionesTabPath, map[]))
    ensures out.2.result.Fail? ==> out.2.effect == ErrorAlert(OrDefault(out.2.result.error, SolicitudFallida))
  {
    var u := view.usuario.value;
    var (cv', t', result) := UseContrataciones.Crear(cv, t, Some(u.id), false, u.id, plan.id, None, newId, now, fault, reloadFault);
    var effect :=
      if result.Success() then
        Alert("¡Solicitud Enviada!", "Tu solicitud de contratación ha sido enviada. Un asesor la revisará pronto.",
              Some(Push(ContratacionesTabPath, map[])))
      else ErrorAlert(OrDefault(result.error, SolicitudFallida));
    (cv', t', ConfirmOutcome(result, effect))
  }

  /** Confirming files a pending request of this user for this plan, and the
      user's reloaded list shows it. */
  lemma ConfirmedRequestShown(cv: UseContrataciones.ContratacionesView, t: C.Table, view: UseAuth.AuthView,
                              plan: PlanMovil, newId: string, now: int)
    requires view.usuario.Some? && view.usuario.value.id != ""
    ensures var out := Confirmar(cv, t, view, plan, newId, now, None, None);
      var row := out.1[|t|];
      out.2.result == Ok && row.usuarioId == view.usuario.value.id && row.planId == plan.id
      && row.estado == Pendiente && row in out.0.contrataciones
  {
    var u := view.usuario.value;
    UseContrataciones.OwnRequestShown(cv, t, u.id, plan.id, None, newId, now);
  }
}

=== FILE: plan_editar.dfy ===
/** The plan edit screen (`app/plan/editar.tsx`): the form is filled from the
    plan found in the loaded list, only the owning advisor may save, and
    `handleGuardar` uploads a changed image and sends the update.

    As written, a feature field the advisor empties is sent as `undefined`,
    which the client drops from the update, so the old value stays stored.
    `PatchAsWritten` models that, `HandleGuardar` sends it, and
    `EmptiedFieldSurvives` exhibits the effect; `PatchFor` is the update that
    clears such columns instead, and `SavedPlanMatchesForm` shows that it
    leaves the stored plan equal to the form. */
module PlanEditar {
  import opened Base
  import opened Models
  import opened Router
  import opened PlanForm
  import UseAuth
  import UsePlanes
  import Planes = PlanesUseCase

  const ActualizacionFallida := "No se pudo actualizar el plan"

  /** The form filled from a plan: absent features become empty fields, and
      `show` is `precio.toString()`. */
  function Prefill(p: PlanMovil, show: real -> string): (fields: PlanFields)
    ensures fields.nombre == p.nombre && fields.precio == show(p.precio)
    ensures forall f :: FieldText(fields, f) == Planes.FeatureValue(p.features, f).GetOr("")
    ensures fields.imagenUri.Some? <==> Truthy(p.imagenUrl)
    ensures fields.imagenUri.Some? ==> fields.imagenUri == p.imagenUrl
  {
    PlanFields(p.nombre, show(p.precio), p.features, if Truthy(p.imagenUrl) then p.imagenUrl else None)
  }

  /** The screen finds the plan in the list its `usePlanes` loads, which is
      the catalogue: an inactive plan is never found, so it cannot be edited. */
  lemma EditorFindsOnlyActive(t: Planes.Table, id: string, fault: Option<string>)
    ensures var found := FindPlan(UsePlanes.CargarPlanes(t, None, fault).planes, id);
      found.Some? ==> found.value.activo && found.value in t
  {
    var planes := UsePlanes.CargarPlanes(t, None, fault).planes;
    UsePlanes.ListedPlansBelong(t, None, fault);
    var found := FindPlan(planes, id);
    if found.Some? {
      var i :| FirstWithId(planes, id, i) && planes[i] == found.value;
    }
  }

  /** Only the advisor who owns the plan gets the form. */
  function PuedeEditar(view: UseAuth.AuthView, p: PlanMovil): (ok: bool)
    ensures ok <==> view.usuario.Some? && view.usuario.value.rol == AsesorComercial
                    && p.asesorId == Some(view.usuario.value.id)
  {
    UseAuth.EsAsesor(view) && p.asesorId == Some(view.usuario.value.id)
  }

  /** The image URL `handleGuardar` sends: the chosen URI, replaced by the
      uploaded image's URL when it differs from the stored one and the upload
      gives a URL back. */
  function ImagenParaGuardar(bucket: Planes.Bucket, p: PlanMovil, imagenUri: Option<string>, uploadTime: nat,
                             uploadFault: Option<string>, publicUrl: string -> string): (out: (Planes.Bucket, Option<string>))
    ensures !Truthy(imagenUri) || imagenUri == p.imagenUrl ==> out == (bucket, imagenUri)
    ensures Truthy(imagenUri) && imagenUri != p.imagenUrl ==>
      var (bucket', nueva) := Planes.SubirImagen(bucket, imagenUri.value, uploadTime, uploadFault, publicUrl);
      out.0 == bucket' && out.1 == if Truthy(nueva) then nueva else imagenUri
  {
    if Truthy(imagenUri) && imagenUri != p.imagenUrl then
      var (bucket', nueva) := Planes.SubirImagen(bucket, imagenUri.value, uploadTime, uploadFault, publicUrl);
      (bucket', if Truthy(nueva) then nueva else imagenUri)
    else (bucket, imagenUri)
  }

  /** Every feature is one of the form's eleven fields. */
  lemma EveryFeatureListed(f: Feature)
    ensures f in AllFeatures
  {
  }

  /** The feature columns as the screen sends them: `field.trim() || undefined`,
      where `undefined` is not sent at all. */
  function FeatureEditsAsWritten(fields: PlanFields): (edits: map<Feature, Edit<string>>)
    ensures forall f :: Blank(FieldText(fields, f)) ==> Planes.FeatureEdit(edits, f).Keep?
    ensures forall f :: !Blank(FieldText(fields, f)) ==> Planes.FeatureEdit(edits, f) == Set(Trim(FieldText(fields, f)))
  {
    map f | f in TrimmedFeatures(fields) :: Set(TrimmedFeatures(fields)[f])
  }

  /** The update as the screen builds it: a blank feature field sends
      `undefined`, so that column is left as it was. */
  function PatchAsWritten(fields: PlanFields, precio: real, imagenUrl: Option<string>): (patch: Planes.PlanPatch)
    ensures patch.nombre == Some(Trim(fields.nombre)) && patch.precio == Some(precio)
    ensures patch.activo.None? && patch.asesorId.Keep?
    ensures Truthy(imagenUrl) ==> patch.imagenUrl == Set(imagenUrl.value)
    ensures !Truthy(imagenUrl) ==> patch.imagenUrl.Keep?
    ensures forall f :: Blank(FieldText(fields, f)) ==> Planes.FeatureEdit(patch.features, f).Keep?
    ensures forall f :: !Blank(FieldText(fields, f)) ==> Planes.FeatureEdit(patch.features, f) == Set(Trim(FieldText(fields, f)))
  {
    Planes.PlanPatch(Some(Trim(fields.nombre)), Some(precio), FeatureEditsAsWritten(fields),
                     if Truthy(imagenUrl) then Set(imagenUrl.value) else Keep, None, Keep)
  }

  /** The update the screen means to send: a blank feature field clears its column. */
  function PatchFor(fields: PlanFields, precio: real, imagenUrl: Option<string>): (patch: Planes.PlanPatch)
    ensures patch.nombre == Some(Trim(fields.nombre)) && patch.precio == Some(precio)
    ensures patch.activo.None? && patch.asesorId.Keep?
    ensures Truthy(imagenUrl) ==> patch.imagenUrl == Set(imagenUrl.value)
    ensures !Truthy(imagenUrl) ==> patch.imagenUrl.Keep?
    ensures forall f :: Blank(FieldText(fields, f)) ==> Planes.FeatureEdit(patch.features, f).Clear?
    ensures forall f :: !Blank(FieldText(fields, f)) ==> Planes.FeatureEdit(patch.features, f) == Set(Trim(FieldText(fields, f)))
  {
    var edits := map f | f in AllFeatures :: if Blank(FieldText(fields, f)) then Clear else Set(Trim(FieldText(fields, f)));
    assert forall f :: f in edits by {
      forall f ensures f in edits {
        EveryFeatureListed(f);
      }
    }
    Planes.PlanPatch(Some(Trim(fields.nombre)), Some(precio), edits,
                     if Truthy(imagenUrl) then Set(imagenUrl.value) else Keep, None, Keep)
  }

  /** As written: a feature the advisor empties keeps its old value after a
      successful save. */
  lemma EmptiedFieldSurvives(t: Planes.Table, i: nat, fields: PlanFields, precio: real, imagenUrl: Option<string>, f: Feature)
    requires i < |t| && f in t[i].features && Blank(FieldText(fields, f))
    ensures var after := Planes.ActualizarPlan(t, t[i].id, PatchAsWritten(fields, precio, imagenUrl), None).0;
      f in after[i].features && after[i].features[f] == t[i].features[f]
  {
    var after := Planes.ActualizarPlan(t, t[i].id, PatchAsWritten(fields, precio, imagenUrl), None).0;
    assert Planes.FeatureValue(after[i].features, f) == Planes.FeatureValue(t[i].features, f);
  }

  /** Corrected: after a successful save the plan's name, price and features
      are exactly what the form shows, trimmed. */
  lemma SavedPlanMatchesForm(t: Planes.Table, i: nat, fields: PlanFields, precio: real, imagenUrl: Option<string>)
    requires i < |t|
    ensures var after := Planes.ActualizarPlan(t, t[i].id, PatchFor(fields, precio, imagenUrl), None).0;
      after[i].nombre == Trim(fields.nombre) && after[i].precio == precio
      && after[i].features == TrimmedFeatures(fields)
      && after[i].activo == t[i].activo && after[i].asesorId == t[i].asesorId
  {
    var patch := PatchFor(fields, precio, imagenUrl);
    var after := Planes.ActualizarPlan(t, t[i].id, patch, None).0;
    var row := after[i];
    assert forall f :: Planes.FeatureEdit(patch.features, f).Set? ==>
      Planes.FeatureValue(row.features, f) == Some(Planes.FeatureEdit(patch.features, f).value);
    assert forall f :: Planes.FeatureEdit(patch.features, f).Clear? ==> f !in row.features;
    var want := TrimmedFeatures(fields);
    forall f ensures Planes.FeatureValue(row.features, f) == Planes.FeatureValue(want, f) {
      if Blank(FieldText(fields, f)) {
        assert Planes.FeatureEdit(patch.features, f).Clear?;
      } else {
        assert Planes.FeatureEdit(patch.features, f) == Set(Trim(FieldText(fields, f)));
      }
    }
    Planes.SameFeatureValues(row.features, want);
  }

  /** What `handleGuardar` did: the update it sent, if any, and what the user sees. */
  datatype GuardarOutcome = GuardarOutcome(patch: Option<Planes.PlanPatch>, effect: Effect)

  /** `handleGuardar`, sending the update as the screen builds it. The list
      it reloads is the catalogue. */
  function HandleGuardar(v: UsePlanes.PlanesView, t: Planes.Table, bucket: Planes.Bucket, view: UseAuth.AuthView,
                         p: PlanMovil, fields: PlanFields, parse: Parser, uploadTime: nat,
                         uploadFault: Option<string>, publicUrl: string -> string, fault: Option<string>,
                         reloadFault: Option<string>): (out: (UsePlanes.PlanesView, Planes.Table, Planes.Bucket, GuardarOutcome))
    requires PuedeEditar(view, p)
    ensures PrecioError(fields, parse).Some? ==>
      out == (v, t, bucket, GuardarOutcome(None, ErrorAlert(PrecioError(fields, parse).value)))
    ensures PrecioError(fields, parse).None? ==>
      var (bucket', url) := ImagenParaGuardar(bucket, p, fields.imagenUri, uploadTime, uploadFault, publicUrl);
      var patch := PatchAsWritten(fields, parse(fields.precio).value, url);
      var (v', t', result) := UsePlanes.Actualizar(v, t, None, p.id, patch, fault, reloadFault);
      out == (v', t', bucket',
              GuardarOutcome(Some(patch),
                             if result.Ok? then Alert("¡Éxito!", "Plan actualizado correctamente", Some(Back))
                             else ErrorAlert(OrDefault(result.error, ActualizacionFallida))))
  {
    match PrecioError(fields, parse)
    case Some(message) => (v, t, bucket, GuardarOutcome(None, ErrorAlert(message)))
    case None =>
      var (bucket', url) := ImagenParaGuardar(bucket, p, fields.imagenUri, uploadTime, uploadFault, publicUrl);
      var patch := PatchAsWritten(fields, parse(fields.precio).value, url);
      var (v', t', result) := UsePlanes.Actualizar(v, t, None, p.id, patch, fault, reloadFault);
      var effect :=
        if result.Success() then Alert("¡Éxito!", "Plan actualizado correctamente", Some(Back))
        else ErrorAlert(OrDefault(result.error, ActualizacionFallida));
      (v', t', bucket', GuardarOutcome(Some(patch), effect))
  }

  /** The screen reports success for a save in which the advisor emptied a
      feature, yet the stored plan still carries the old value. */
  lemma SaveReportsSuccessButKeepsEmptiedFeature(v: UsePlanes.PlanesView, t: Planes.Table, bucket: Planes.Bucket,
                                                  view: UseAuth.AuthView, i: nat, fields: PlanFields, parse: Parser,
                                                  uploadTime: nat, uploadFault: Option<string>,
                                                  publicUrl: string -> string, f: Feature)
    requires i < |t| && PuedeEditar(view, t[i]) && PrecioError(fields, parse).None?
    requires f in t[i].features && Blank(FieldText(fields, f))
    ensures var out := HandleGuardar(v, t, bucket, view, t[i], fields, parse, uploadTime, uploadFault, publicUrl, None, None);
      out.3.effect == Alert("¡Éxito!", "Plan actualizado correctamente", Some(Back))
      && f in out.1[i].features && out.1[i].features[f] == t[i].features[f]
  {
    var (bucket', url) := ImagenParaGuardar(bucket, t[i], fields.imagenUri, uploadTime, uploadFault, publicUrl);
    EmptiedFieldSurvives(t, i, fields, parse(fields.precio).value, url, f);
  }

  /** A new image whose upload fails is saved as the device's local URI. */
  lemma FailedUploadStoresLocalUri(v: UsePlanes.PlanesView, t: Planes.Table, bucket: Planes.Bucket,
                                   view: UseAuth.AuthView, i: nat, fields: PlanFields, parse: Parser,
                                   uploadTime: nat, error: string, publicUrl: string -> string)
    requires i < |t| && PuedeEditar(view, t[i]) && PrecioError(fields, parse).None?
    requires Truthy(fields.imagenUri) && fields.imagenUri != t[i].imagenUrl
    ensures var out := HandleGuardar(v, t, bucket, view, t[i], fields, parse, uploadTime, Some(error), publicUrl, None, None);
      out.2 == bucket && out.1[i].imagenUrl == fields.imagenUri
  {
  }

  /** Saving the form just as it was filled, after the corrected update,
      leaves the plan's features as they were, apart from whitespace around
      them and values that were blank. */
  lemma UnchangedFormKeepsFeatures(t: Planes.Table, i: nat, show: real -> string, precio: real)
    requires i < |t|
    requires forall f :: f in t[i].features ==> Trim(t[i].features[f]) == t[i].features[f] && t[i].features[f] != ""
    ensures var after := Planes.ActualizarPlan(t, t[i].id, PatchFor(Prefill(t[i], show), precio, t[i].imagenUrl), None).0;
      after[i].features == t[i].features
  {
    var fields := Prefill(t[i], show);
    SavedPlanMatchesForm(t, i, fields, precio, t[i].imagenUrl);
    forall f ensures Planes.FeatureValue(TrimmedFeatures(fields), f) == Planes.FeatureValue(t[i].features, f) {
      if f in t[i].features {
        assert FieldText(fields, f) == t[i].features[f];
        assert Blank(t[i].features[f]) <==> Trim(t[i].features[f]) == "";
      }
    }
    Planes.SameFeatureValues(TrimmedFeatures(fields), t[i].features);
  }
}

=== FILE: plan_form.dfy ===
/** What the plan creation and edit screens (`app/plan/crear.tsx`,
    `app/plan/editar.tsx`) share: the form's fields, the price checks, how a
    field becomes a column value, and how a plan is looked up by id in the
    loaded list. */
module PlanForm {
  import opened Base
  import opened Models

  /** The form. A feature missing from `features` is an empty text field. */
  datatype PlanFields = PlanFields(
    nombre: string,
    precio: string,
    features: map<Feature, string>,
    imagenUri: Option<string>)

  /** The text in a feature's field. */
  function FieldText(fields: PlanFields, f: Feature): string {
    if f in fields.features then fields.features[f] else ""
  }

  /** `field.trim() || undefined` for every feature: the trimmed text of each
      field that is not blank, and nothing for the blank ones. */
  function TrimmedFeatures(fields: PlanFields): (r: map<Feature, string>)
    ensures forall f :: f in r <==> !Blank(FieldText(fields, f))
    ensures forall f :: f in r ==> r[f] == Trim(FieldText(fields, f)) && r[f] != ""
  {
    map f | f in fields.features.Keys && !Blank(fields.features[f]) :: Trim(fields.features[f])
  }

  const NombrePrecioVacios := "El nombre y precio son obligatorios"
  const PrecioInvalido := "El precio debe ser un número válido mayor a 0"

  /** `parseFloat`, given: `None` stands for `NaN`. */
  type Parser = string -> Option<real>

  /** The two checks both screens run before saving, in order. */
  function PrecioError(fields: PlanFields, parse: Parser): (e: Option<string>)
    ensures e.None? <==> !Blank(fields.nombre) && !Blank(fields.precio)
                         && parse(fields.precio).Some? && parse(fields.precio).value > 0.0
    ensures Blank(fields.nombre) || Blank(fields.precio) ==> e == Some(NombrePrecioVacios)
    ensures !Blank(fields.nombre) && !Blank(fields.precio) && parse(fields.precio).None? ==> e == Some(PrecioInvalido)
    ensures !Blank(fields.nombre) && !Blank(fields.precio) && parse(fields.precio).Some? ==>
      (e == Some(PrecioInvalido) <==> parse(fields.precio).value <= 0.0)
  {
    if Blank(fields.nombre) || Blank(fields.precio) then Some(NombrePrecioVacios)
    else
      match parse(fields.precio)
      case None => Some(PrecioInvalido)
      case Some(x) => if x <= 0.0 then Some(PrecioInvalido) else None
  }

  /** The plan at `i` is the first in the list with that id. */
  predicate FirstWithId(planes: seq<PlanMovil>, id: string, i: int) {
    0 <= i < |planes| && planes[i].id == id && forall k :: 0 <= k < i ==> planes[k].id != id
  }

  /** `planes.find(p => p.id === id)`: the first plan in the list with that id. */
  function FindPlan(planes: seq<PlanMovil>, id: string): (r: Option<PlanMovil>)
    ensures r.None? <==> forall i :: 0 <= i < |planes| ==> planes[i].id != id
    ensures r.Some? ==> exists i :: FirstWithId(planes, id, i) && planes[i] == r.value
  {
    if planes == [] then None
    else if planes[0].id == id then
      assert FirstWithId(planes, id, 0);
      Some(planes[0])
    else
      var r := FindPlan(planes[1..], id);
      FirstWithIdShift(planes, id, r);
      r
  }

  lemma FirstWithIdShift(planes: seq<PlanMovil>, id: string, r: Option<PlanMovil>)
    requires planes != [] && planes[0].id != id
    requires r.Some? ==> exists i :: FirstWithId(planes[1..], id, i) && planes[1..][i] == r.value
    ensures r.Some? ==> exists i :: FirstWithId(planes, id, i) && planes[i] == r.value
  {
    if r.Some? {
      var i :| FirstWithId(planes[1..], id, i) && planes[1..][i] == r.value;
      assert FirstWithId(planes, id, i + 1);
    }
  }
}

=== FILE: planes_use_case.dfy ===
/** The plan catalogue facade (`PlanesUseCase`) over the `planes_moviles`
    table, held as a sequence of rows, and the `planes-imagenes` storage
    bucket, held as the set of its object paths.

    The backend assigns a new plan its id and creation time, and
    `Date.now()` names an uploaded image; these are parameters, as are the
    errors the backend may answer with (`fault`) and the bucket's public-URL
    builder. */
module PlanesUseCase {
  import opened Base
  import opened Models
  import opened Tables

  type Table = seq<PlanMovil>

  /** The object paths stored in the image bucket. */
  type Bucket = set<string>

  // ---------------------------------------------------------------------------
  // Queries
  // ---------------------------------------------------------------------------

  function PrecioKey(p: PlanMovil): real {
    p.precio
  }

  function NewestKey(p: PlanMovil): real {
    -(p.createdAt as real)
  }

  predicate CheapestFirst(s: seq<PlanMovil>) {
    forall i, j :: 0 <= i < j < |s| ==> s[i].precio <= s[j].precio
  }

  predicate NewestFirst(s: seq<PlanMovil>) {
    forall i, j :: 0 <= i < j < |s| ==> s[i].createdAt >= s[j].createdAt
  }

  /** `obtenerPlanes`: the active plans, cheapest first; a failed query gives
      the empty list. */
  function ObtenerPlanes(t: Table, fault: Option<string>): (r: seq<PlanMovil>)
    ensures fault.Some? ==> r == []
    ensures fault.None? ==> CheapestFirst(r)
    ensures fault.None? ==> forall p :: multiset(r)[p] == if p.activo then multiset(t)[p] else 0
  {
    if fault.Some? then []
    else
      var r := SortBy(Filter(t, (p: PlanMovil) => p.activo), PrecioKey);
      assert SortedBy(r, PrecioKey);
      r
  }

  /** `obtenerPlanesPorAsesor`: every plan of the advisor, active or not,
      newest first. */
  function ObtenerPlanesPorAsesor(t: Table, asesorId: string, fault: Option<string>): (r: seq<PlanMovil>)
    ensures fault.Some? ==> r == []
    ensures fault.None? ==> NewestFirst(r)
    ensures fault.None? ==> forall p :: multiset(r)[p] == if p.asesorId == Some(asesorId) then multiset(t)[p] else 0
  {
    if fault.Some? then []
    else
      var r := SortBy(Filter(t, (p: PlanMovil) => p.asesorId == Some(asesorId)), NewestKey);
      assert SortedBy(r, NewestKey);
      r
  }

  /** The rows with the given id. */
  function WithId(t: Table, id: string): (r: seq<PlanMovil>)
    ensures forall p :: multiset(r)[p] == if p.id == id then multiset(t)[p] else 0
  {
    Filter(t, (p: PlanMovil) => p.id == id)
  }

  /** `obtenerPlanPorId`: `.single()` answers only when exactly one row has
      the id; no row, several rows or a failed query give `null`. */
  function ObtenerPlanPorId(t: Table, id: string, fault: Option<string>): (r: Option<PlanMovil>)
    ensures r.Some? <==> fault.None? && |WithId(t, id)| == 1
    ensures r.Some? ==> r.value in t && r.value.id == id
  {
    var rows := WithId(t, id);
    if fault.None? && |rows| == 1 then
      assert rows[0] in multiset(rows);
      Some(rows[0])
    else None
  }

  // ---------------------------------------------------------------------------
  // crearPlan
  // ---------------------------------------------------------------------------

  /** A plan without the columns the backend fills in (`id`, `created_at`). */
  datatype PlanDraft = PlanDraft(
    nombre: string,
    precio: real,
    features: map<Feature, string>,
    imagenUrl: Option<string>,
    activo: bool,
    asesorId: Option<string>)

  /** `crearPlan`: the stored plan, as the insert returns it. */
  function CrearPlan(t: Table, draft: PlanDraft, newId: string, now: int, fault: Option<string>): (out: (Table, Result<PlanMovil>))
    ensures fault.Some? ==> out == (t, Failure(fault.value))
    ensures fault.None? ==> out.1.Success? && out.0 == t + [out.1.value]
    ensures fault.None? ==> var p := out.1.value;
      p.id == newId && p.createdAt == now && p.nombre == draft.nombre && p.precio == draft.precio
      && p.features == draft.features && p.imagenUrl == draft.imagenUrl
      && p.activo == draft.activo && p.asesorId == draft.asesorId
  {
    if fault.Some? then (t, Failure(fault.value))
    else
      var p := PlanMovil(newId, draft.nombre, draft.precio, draft.features, draft.imagenUrl, draft.activo, draft.asesorId, now);
      (t + [p], Success(p))
  }

  // ---------------------------------------------------------------------------
  // actualizarPlan
  // ---------------------------------------------------------------------------

  /** `Partial<PlanMovil>` as the update body sends it: a column is not sent
      (`Keep`), sent with a value, or sent as `null` (`Clear`). */
  datatype PlanPatch = PlanPatch(
    nombre: Option<string>,
    precio: Option<real>,
    features: map<Feature, Edit<string>>,
    imagenUrl: Edit<string>,
    activo: Option<bool>,
    asesorId: Edit<string>)

  /** The patch that sends no column. */
  const EmptyPatch := PlanPatch(None, None, map[], Keep, None, Keep)

  function ApplyEdit<T>(current: Option<T>, e: Edit<T>): Option<T> {
    match e
    case Keep => current
    case Set(v) => Some(v)
    case Clear => None
  }

  function FeatureEdit(edits: map<Feature, Edit<string>>, f: Feature): Edit<string> {
    if f in edits then edits[f] else Keep
  }

  function FeatureValue(features: map<Feature, string>, f: Feature): Option<string> {
    if f in features then Some(features[f]) else None
  }

  /** The optional columns after the patch. */
  function PatchFeatures(current: map<Feature, string>, edits: map<Feature, Edit<string>>): (r: map<Feature, string>)
    ensures forall f :: FeatureValue(r, f) == ApplyEdit(FeatureValue(current, f), FeatureEdit(edits, f))
  {
    map f | f in current.Keys + edits.Keys && ApplyEdit(FeatureValue(current, f), FeatureEdit(edits, f)).Some?
      :: ApplyEdit(FeatureValue(current, f), FeatureEdit(edits, f)).value
  }

  function ApplyPatch(p: PlanMovil, patch: PlanPatch): PlanMovil {
    p.(nombre := patch.nombre.GetOr(p.nombre),
       precio := patch.precio.GetOr(p.precio),
       features := PatchFeatures(p.features, patch.features),
       imagenUrl := ApplyEdit(p.imagenUrl, patch.imagenUrl),
       activo := patch.activo.GetOr(p.activo),
       asesorId := ApplyEdit(p.asesorId, patch.asesorId))
  }

  /** `actualizarPlan`: the rows with the id take the sent columns and keep
      the others; all other rows are unchanged. An id that matches no row is
      still a success. */
  function ActualizarPlan(t: Table, id: string, patch: PlanPatch, fault: Option<string>): (out: (Table, OpResult))
    ensures fault.Some? ==> out == (t, Fail(fault.value))
    ensures fault.None? ==> out.1 == Ok && |out.0| == |t|
    ensures fault.None? ==> forall i :: 0 <= i < |t| && t[i].id != id ==> out.0[i] == t[i]
    ensures fault.None? ==> forall i :: 0 <= i < |t| && t[i].id == id ==>
      var p := out.0[i];
      p.id == t[i].id && p.createdAt == t[i].createdAt
      && (patch.nombre.None? ==> p.nombre == t[i].nombre)
      && (patch.nombre.Some? ==> p.nombre == patch.nombre.value)
      && (patch.precio.None? ==> p.precio == t[i].precio)
      && (patch.precio.Some? ==> p.precio == patch.precio.value)
      && (patch.activo.None? ==> p.activo == t[i].activo)
      && (patch.activo.Some? ==> p.activo == patch.activo.value)
      && (patch.imagenUrl.Keep? ==> p.imagenUrl == t[i].imagenUrl)
      && (patch.imagenUrl.Set? ==> p.imagenUrl == Some(patch.imagenUrl.value))
      && (patch.imagenUrl.Clear? ==> p.imagenUrl.None?)
      && (patch.asesorId.Keep? ==> p.asesorId == t[i].asesorId)
      && (patch.asesorId.Set? ==> p.asesorId == Some(patch.asesorId.value))
      && (patch.asesorId.Clear? ==> p.asesorId.None?)
      && (forall f :: FeatureEdit(patch.features, f).Keep? ==> FeatureValue(p.features, f) == FeatureValue(t[i].features, f))
      && (forall f :: FeatureEdit(patch.features, f).Set? ==> FeatureValue(p.features, f) == Some(FeatureEdit(patch.features, f).value))
      && (forall f :: FeatureEdit(patch.features, f).Clear? ==> f !in p.features)
  {
    if fault.Some? then (t, Fail(fault.value))
    else (UpdateWhere(t, (p: PlanMovil) => p.id == id, (p: PlanMovil) => ApplyPatch(p, patch)), Ok)
  }

  /** A patch that sends nothing changes nothing. */
  lemma EmptyPatchChangesNothing(t: Table, id: string)
    ensures ActualizarPlan(t, id, EmptyPatch, None).0 == t
  {
    var r := ActualizarPlan(t, id, EmptyPatch, None).0;
    forall i | 0 <= i < |t| ensures r[i] == t[i] {
      if t[i].id == id {
        assert r[i].features == t[i].features by {
          forall f ensures FeatureValue(r[i].features, f) == FeatureValue(t[i].features, f) {
          }
          SameFeatureValues(r[i].features, t[i].features);
        }
      }
    }
  }

  /** Two feature maps with the same value for every feature are equal. */
  lemma SameFeatureValues(a: map<Feature, string>, b: map<Feature, string>)
    requires forall f :: FeatureValue(a, f) == FeatureValue(b, f)
    ensures a == b
  {
    assert forall f :: f in a <==> f in b by {
      forall f ensures f in a <==> f in b {
        assert FeatureValue(a, f).Some? <==> FeatureValue(b, f).Some?;
      }
    }
    forall f | f in a ensures a[f] == b[f] {
      assert FeatureValue(a, f) == FeatureValue(b, f);
    }
  }

  /** Sending the same patch twice is sending it once. */
  lemma PatchIdempotent(t: Table, id: string, patch: PlanPatch)
    ensures var once := ActualizarPlan(t, id, patch, None).0;
      ActualizarPlan(once, id, patch, None).0 == once
  {
    var once := ActualizarPlan(t, id, patch, None).0;
    var twice := ActualizarPlan(once, id, patch, None).0;
    forall i | 0 <= i < |t| ensures twice[i] == once[i] {
      if t[i].id == id {
        SameFeatureValues(twice[i].features, once[i].features);
      }
    }
  }

  // ---------------------------------------------------------------------------
  // Image object names
  // ---------------------------------------------------------------------------

  const BucketFolder := "planes/"

  /** The extension `subirImagen` gives an upload: the lowercased text after
      the last `.` of the URI (all of it when there is none), or "jpg" when
      that text is empty. */
  function UploadExtension(uri: string): (ext: string)
    ensures ext != ""
    ensures '.' !in ext
    ensures LastPiece(uri, '.') == "" ==> ext == "jpg"
    ensures LastPiece(uri, '.') != "" ==>
      (|ext| == |LastPiece(uri, '.')| && forall i :: 0 <= i < |ext| ==> ext[i] == LowerChar(LastPiece(uri, '.')[i]))
  {
    var last := LastPiece(uri, '.');
    var lowered := Lower(last);
    if lowered == "" then "jpg"
    else
      assert '.' !in lowered by {
        forall i | 0 <= i < |lowered| ensures lowered[i] != '.' {
          assert last[i] != '.';
        }
      }
      lowered
  }

  /** The object path of an upload made at time `now`: the folder, the time
      in decimal, a `.`, and the extension. */
  function UploadObjectName(now: nat, ext: string): (name: string)
    ensures StartsWith(name, BucketFolder)
    ensures '.' !in ext ==> LastPiece(name, '.') == ext
    ensures |name| == |BucketFolder| + |Decimal(now)| + 1 + |ext|
    ensures name[|BucketFolder|..|name| - |ext| - 1] == Decimal(now)
  {
    var stem := BucketFolder + Decimal(now);
    assert BucketFolder + Decimal(now) + "." + ext == stem + ['.'] + ext;
    LastPieceOfTailWhenFree(stem, ext);
    BucketFolder + Decimal(now) + "." + ext
  }

  lemma LastPieceOfTailWhenFree(stem: string, ext: string)
    ensures '.' !in ext ==> LastPiece(stem + ['.'] + ext, '.') == ext
  {
    if '.' !in ext {
      LastPieceOfTail(stem, '.', ext);
    }
  }

  /** Two uploads get the same object path exactly when they are made at the
      same time with the same extension. */
  lemma UploadNamesIdentifyUpload(n1: nat, e1: string, n2: nat, e2: string)
    requires '.' !in e1 && '.' !in e2
    ensures UploadObjectName(n1, e1) == UploadObjectName(n2, e2) <==> n1 == n2 && e1 == e2
  {
    if UploadObjectName(n1, e1) == UploadObjectName(n2, e2) {
      assert e1 == e2;
      DecimalInjective(n1, n2);
    }
  }

  /** The object path `eliminarImagen` removes for a stored URL: the folder
      and the URL's last `/`-segment, or nothing when that segment is empty. */
  function DeletionObjectName(url: string): (name: Option<string>)
    ensures name.None? <==> LastPiece(url, '/') == ""
    ensures name.Some? ==> name.value == BucketFolder + LastPiece(url, '/') && '/' !in name.value[|BucketFolder|..]
  {
    var segment := LastPiece(url, '/');
    if segment == "" then None else Some(BucketFolder + segment)
  }

  /** A URL that ends in an uploaded object's file name leads deletion back
      to that object, provided the extension holds no `/`. */
  lemma {:induction false} UploadDeletionRoundTrip(prefix: string, now: nat, ext: string)
    requires '/' !in ext
    ensures DeletionObjectName(prefix + "/" + Decimal(now) + "." + ext) == Some(UploadObjectName(now, ext))
  {
    var file := Decimal(now) + "." + ext;
    FileNameHasNoSlash(now, ext);
    assert prefix + "/" + Decimal(now) + "." + ext == prefix + ['/'] + file;
    LastPieceOfTail(prefix, '/', file);
    UploadObjectNameInFolder(now, ext);
  }

  lemma FileNameHasNoSlash(now: nat, ext: string)
    requires '/' !in ext
    ensures '/' !in Decimal(now) + "." + ext
  {
    var d := Decimal(now);
    forall i | 0 <= i < |d| ensures d[i] != '/' {
      assert IsDigit(d[i]);
    }
  }

  lemma UploadObjectNameInFolder(now: nat, ext: string)
    ensures UploadObjectName(now, ext) == BucketFolder + (Decimal(now) + "." + ext)
  {
  }

  /** `subirImagen`: uploads the picture under a fresh object path and answers
      its public URL, or `null` when the upload fails. */
  function SubirImagen(bucket: Bucket, uri: string, now: nat, fault: Option<string>,
                       publicUrl: string -> string): (out: (Bucket, Option<string>))
    ensures fault.Some? ==> out == (bucket, None)
    ensures fault.None? ==> var name := UploadObjectName(now, UploadExtension(uri));
      out == (bucket + {name}, Some(publicUrl(name)))
  {
    if fault.Some? then (bucket, None)
    else
      var name := UploadObjectName(now, UploadExtension(uri));
      (bucket + {name}, Some(publicUrl(name)))
  }

  /** `eliminarImagen`: removal errors are swallowed, so a failed removal
      (`removeFault`) leaves the bucket as it was. */
  function EliminarImagen(bucket: Bucket, url: string, removeFault: bool): (r: Bucket)
    ensures r <= bucket
    ensures DeletionObjectName(url).None? || removeFault ==> r == bucket
    ensures DeletionObjectName(url).Some? && !removeFault ==> r == bucket - {DeletionObjectName(url).value}
  {
    match DeletionObjectName(url)
    case None => bucket
    case Some(name) => if removeFault then bucket else bucket - {name}
  }

  // ---------------------------------------------------------------------------
  // eliminarPlan
  // ---------------------------------------------------------------------------

  /** `eliminarPlan`: reads the plan's image URL (`lookupFault` is that
      read's error), removes the image when the URL is non-empty, and then
      marks every row with the id inactive. The image removal happens before,
      and independently of, the update's outcome. */
  function EliminarPlan(t: Table, bucket: Bucket, id: string, lookupFault: Option<string>, removeFault: bool,
                        fault: Option<string>): (out: (Table, Bucket, OpResult))
    ensures var found := ObtenerPlanPorId(t, id, lookupFault);
      out.1 == if found.Some? && Truthy(found.value.imagenUrl)
               then EliminarImagen(bucket, found.value.imagenUrl.value, removeFault) else bucket
    ensures fault.Some? ==> out.0 == t && out.2 == Fail(fault.value)
    ensures fault.None? ==> out.2 == Ok && |out.0| == |t|
    ensures fault.None? ==> forall i :: 0 <= i < |t| ==>
      out.0[i] == if t[i].id == id then t[i].(activo := false) else t[i]
  {
    var found := ObtenerPlanPorId(t, id, lookupFault);
    var bucket' := if found.Some? && Truthy(found.value.imagenUrl)
                   then EliminarImagen(bucket, found.value.imagenUrl.value, removeFault) else bucket;
    if fault.Some? then (t, bucket', Fail(fault.value))
    else
      var patch := EmptyPatch.(activo := Some(false));
      var t' := ActualizarPlan(t, id, patch, None).0;
      assert forall i :: 0 <= i < |t| && t[i].id == id ==> t'[i].features == t[i].features by {
        forall i | 0 <= i < |t| && t[i].id == id ensures t'[i].features == t[i].features {
          SameFeatureValues(t'[i].features, t[i].features);
        }
      }
      (t', bucket', Ok)
  }

  /** A soft-deleted plan leaves the public catalogue but stays in its
      advisor's list. */
  lemma {:induction false} SoftDeleteHidesFromCatalogue(t: Table, bucket: Bucket, i: nat, asesorId: string,
                                                        lookupFault: Option<string>, removeFault: bool)
    requires i < |t| && t[i].asesorId == Some(asesorId)
    ensures var after := EliminarPlan(t, bucket, t[i].id, lookupFault, removeFault, None).0;
      after[i] !in ObtenerPlanes(after, None)
      && after[i] in ObtenerPlanesPorAsesor(after, asesorId, None)
      && after[i] == t[i].(activo := false)
  {
    var after := EliminarPlan(t, bucket, t[i].id, lookupFault, removeFault, None).0;
    assert after[i] in multiset(after);
    var catalogue := ObtenerPlanes(after, None);
    assert multiset(catalogue)[after[i]] == 0;
    var own := ObtenerPlanesPorAsesor(after, asesorId, None);
    assert multiset(own)[after[i]] == multiset(after)[after[i]];
  }
}

=== FILE: recuperar_password.dfy ===
/** The password-reset request screen (`app/auth/recuperar-password.tsx`):
    `handleEnviar`. */
module RecuperarPassword {
  import opened Base
  import opened Router
  import opened Validators
  import Auth = AuthUseCase

  const EmailVacio := "Por favor ingresa tu email"
  const EmailInvalido := "Por favor ingresa un email válido"
  const EnvioFallido := "No se pudo enviar el email"

  /** What `handleEnviar` did: the reset request it sent, if any, and what the user sees. */
  datatype EnvioOutcome = EnvioOutcome(request: Option<Auth.ResetRequest>, effect: Effect)

  /** `handleEnviar`: the blank check trims, the shape check does not, and
      the email is sent as typed. `fault` is the provider's error. */
  function HandleEnviar(email: string, fault: Option<string>): (out: EnvioOutcome)
    ensures Blank(email) ==> out == EnvioOutcome(None, ErrorAlert(EmailVacio))
    ensures !Blank(email) && !MatchesEmailPattern(email) ==> out == EnvioOutcome(None, ErrorAlert(EmailInvalido))
    ensures !Blank(email) && MatchesEmailPattern(email) ==>
      out.request == Some(Auth.ResetRequest(email, Auth.ResetRedirect))
      && (fault.None? ==> out.effect.Alert? && out.effect.onOk == Some(Back))
      && (fault.Some? ==> out.effect == ErrorAlert(OrDefault(fault.value, EnvioFallido)))
  {
    if Blank(email) then EnvioOutcome(None, ErrorAlert(EmailVacio))
    else if !ValidEmail(email) then EnvioOutcome(None, ErrorAlert(EmailInvalido))
    else
      var (request, result) := Auth.RestablecerContrasena(email, fault);
      var effect :=
        if result.Success() then
          Alert("Email Enviado",
                "Hemos enviado un enlace a tu correo electrónico para restablecer tu contraseña. Por favor revisa tu bandeja de entrada.",
                Some(Back))
        else ErrorAlert(OrDefault(result.error, EnvioFallido));
      EnvioOutcome(Some(request), effect)
  }

  /** A valid address typed with a leading space is not blank, yet fails the
      shape check, since that check does not trim. */
  lemma LeadingSpaceRejected(email: string, fault: Option<string>)
    requires MatchesEmailPattern(email)
    ensures HandleEnviar(" " + email, fault) == EnvioOutcome(None, ErrorAlert(EmailInvalido))
  {
    var padded := " " + email;
    assert !NoWhitespace(padded) by { assert IsWhitespace(padded[0]); }
    assert padded[1] == email[0];
    assert !IsWhitespace(email[0]);
    assert !Blank(padded) by { BlankIff(padded); }
  }
}

=== FILE: registro.dfy ===
/** The registration screen (`app/auth/registro.tsx`): its seven ordered
    checks and what `handleRegistro` does once they pass. */
module Registro {
  import opened Base
  import opened Router
  import opened Validators
  import Auth = AuthUseCase

  datatype RegistroForm = RegistroForm(
    nombre: string,
    telefono: string,
    email: string,
    password: string,
    confirmarPassword: string)

  const NombreVacio := "Por favor ingresa tu nombre completo"
  const TelefonoVacio := "Por favor ingresa tu número de teléfono"
  const TelefonoInvalido := "Número de teléfono inválido. Formato: +593 99 123 4567 o 0991234567"
  const EmailVacio := "Por favor ingresa tu email"
  const EmailInvalido := "El email no es válido"
  const PasswordCorta := "La contraseña debe tener al menos 6 caracteres"
  const PasswordsDistintas := "Las contraseñas no coinciden"
  const RegistroFallido := "No se pudo crear la cuenta"

  /** What a form must satisfy to be sent. */
  predicate FormularioValido(f: RegistroForm) {
    !Blank(f.nombre) && !Blank(f.telefono) && MatchesPhonePattern(StripWhitespace(f.telefono))
    && !Blank(f.email) && MatchesEmailPattern(f.email)
    && Utf16Length(f.password) >= 6 && f.password == f.confirmarPassword
  }

  /** The rungs of the check chain passed so far: name and phone filled in,
      then the phone well formed, then the email filled in and well formed. */
  predicate NombreTelefonoLlenos(f: RegistroForm) {
    !Blank(f.nombre) && !Blank(f.telefono)
  }

  predicate TelefonoCorrecto(f: RegistroForm) {
    NombreTelefonoLlenos(f) && MatchesPhonePattern(StripWhitespace(f.telefono))
  }

  predicate EmailCorrecto(f: RegistroForm) {
    TelefonoCorrecto(f) && !Blank(f.email) && MatchesEmailPattern(f.email)
  }

  /** `handleRegistro`'s checks, in the order the screen runs them: the
      message of the first that fails. */
  function PrimerError(f: RegistroForm): (e: Option<string>)
    ensures e.None? <==> FormularioValido(f)
    ensures Blank(f.nombre) ==> e == Some(NombreVacio)
    ensures !Blank(f.nombre) && Blank(f.telefono) ==> e == Some(TelefonoVacio)
    ensures NombreTelefonoLlenos(f) && !MatchesPhonePattern(StripWhitespace(f.telefono)) ==> e == Some(TelefonoInvalido)
    ensures TelefonoCorrecto(f) && Blank(f.email) ==> e == Some(EmailVacio)
    ensures TelefonoCorrecto(f) && !Blank(f.email) && !MatchesEmailPattern(f.email) ==> e == Some(EmailInvalido)
    ensures EmailCorrecto(f) && Utf16Length(f.password) < 6 ==> e == Some(PasswordCorta)
    ensures EmailCorrecto(f) && Utf16Length(f.password) >= 6 && f.password != f.confirmarPassword ==> e == Some(PasswordsDistintas)
  {
    if Blank(f.nombre) then Some(NombreVacio)
    else if Blank(f.telefono) then Some(TelefonoVacio)
    else if !ValidarTelefono(f.telefono) then Some(TelefonoInvalido)
    else if Blank(f.email) then Some(EmailVacio)
    else if !ValidEmail(f.email) then Some(EmailInvalido)
    else if Utf16Length(f.password) < 6 then Some(PasswordCorta)
    else if f.password != f.confirmarPassword then Some(PasswordsDistintas)
    else None
  }

  /** A bad phone number is reported before anything about the email or the
      password, whatever they are. */
  lemma PhoneReportedFirst(f: RegistroForm, email: string, password: string, confirmar: string)
    requires !Blank(f.nombre) && !Blank(f.telefono) && !MatchesPhonePattern(StripWhitespace(f.telefono))
    ensures PrimerError(f.(email := email, password := password, confirmarPassword := confirmar)) == Some(TelefonoInvalido)
  {
  }

  /** The converse of the chain: each message is reported only when every
      earlier check passed and its own check failed, so the message tells
      the user which rule the form breaks first. */
  lemma ReportedMessageNamesCheck(f: RegistroForm)
    ensures PrimerError(f) == Some(NombreVacio) ==> Blank(f.nombre)
    ensures PrimerError(f) == Some(TelefonoVacio) ==> !Blank(f.nombre) && Blank(f.telefono)
    ensures PrimerError(f) == Some(TelefonoInvalido) ==>
      NombreTelefonoLlenos(f) && !MatchesPhonePattern(StripWhitespace(f.telefono))
    ensures PrimerError(f) == Some(EmailVacio) ==> TelefonoCorrecto(f) && Blank(f.email)
    ensures PrimerError(f) == Some(EmailInvalido) ==>
      TelefonoCorrecto(f) && !Blank(f.email) && !MatchesEmailPattern(f.email)
    ensures PrimerError(f) == Some(PasswordCorta) ==> EmailCorrecto(f) && Utf16Length(f.password) < 6
    ensures PrimerError(f) == Some(PasswordsDistintas) ==>
      EmailCorrecto(f) && Utf16Length(f.password) >= 6 && f.password != f.confirmarPassword
  {
  }

  /** A six-character password passes the length check. */
  lemma SixCharactersEnough(f: RegistroForm)
    requires |f.password| == 6 && f.password == f.confirmarPassword
    requires !Blank(f.nombre) && !Blank(f.telefono) && ValidarTelefono(f.telefono)
    requires !Blank(f.email) && ValidEmail(f.email)
    ensures PrimerError(f).None?
  {
  }

  /** What `handleRegistro` did: the sign-up it sent, if any, and what the user sees. */
  datatype RegistroOutcome = RegistroOutcome(request: Option<Auth.SignUpRequest>, effect: Effect)

  /** `handleRegistro`: `reply` and `updateFault` are the provider's answers
      to the sign-up and to the profile write that follows it. The entered
      values are sent as typed, untrimmed. */
  function HandleRegistro(b: Auth.Backend, f: RegistroForm, reply: Auth.SignUpReply, updateFault: Option<string>): (out: (Auth.Backend, RegistroOutcome))
    ensures PrimerError(f).Some? ==> out == (b, RegistroOutcome(None, ErrorAlert(PrimerError(f).value)))
    ensures PrimerError(f).None? ==>
      var (b', result) := Auth.Registrar(b, f.email, f.password, f.nombre, f.telefono, reply, updateFault);
      out.0 == b'
      && out.1.request == Some(Auth.SignUpRequestFor(f.email, f.password, f.nombre, f.telefono))
      && (result.Ok? ==> out.1.effect.Alert? && out.1.effect.onOk == Some(Replace(LoginPath, map[])))
      && (result.Fail? ==> out.1.effect == ErrorAlert(OrDefault(result.error, RegistroFallido)))
  {
    match PrimerError(f)
    case Some(message) => (b, RegistroOutcome(None, ErrorAlert(message)))
    case None =>
      var request := Auth.SignUpRequestFor(f.email, f.password, f.nombre, f.telefono);
      var (b', result) := Auth.Registrar(b, f.email, f.password, f.nombre, f.telefono, reply, updateFault);
      var effect :=
        if result.Success() then
          Alert("¡Registro Exitoso!", "Tu cuenta ha sido creada correctamente. Ahora puedes iniciar sesión.",
                Some(Replace(LoginPath, map[])))
        else ErrorAlert(OrDefault(result.error, RegistroFallido));
      (b', RegistroOutcome(Some(request), effect))
  }

  /** An account the provider accepts is reported as created even when the
      profile write after it fails. */
  lemma ProfileWriteFailureStillRegisters(b: Auth.Backend, f: RegistroForm, user: Auth.AuthUser, error: string)
    requires FormularioValido(f)
    ensures var out := HandleRegistro(b, f, Auth.SignUpAccepted(Some(user)), Some(error));
      out.0 == b && out.1.effect.Alert? && out.1.effect.title == "¡Registro Exitoso!"
  {
  }
}

=== FILE: root_layout.dfy ===
/** The root layout's deep-link handler and its authentication redirect guard.

    The handler splits the URL into its query text (after the first `?`, up to
    the next `?` or `#`) and its fragment text (after the first `#`, up to the
    next `#`), reads key/value pairs out of each with the platform's
    `URLSearchParams` (a parameter here: `parsePairs`), and merges them, the
    fragment winning on a shared key. A link that looks like an
    authentication callback is forwarded to `/auth/callback` with the merged
    parameters; any other link is ignored. */
module RootLayout {
  import opened Base
  import opened Models
  import opened Router

  type Pair = (string, string)

  /** `URLSearchParams`: the key/value pairs of one URL component, in order. */
  type PairParser = string -> seq<Pair>

  // ---------------------------------------------------------------------------
  // Merging pairs into the parameter record
  // ---------------------------------------------------------------------------

  /** `pairs.forEach((value, key) => { params[key] = value })`. */
  function Assign(params: Params, pairs: seq<Pair>): Params
    decreases |pairs|
  {
    if pairs == [] then params
    else Assign(params[pairs[0].0 := pairs[0].1], pairs[1..])
  }

  /** Reference reading: the value of the last pair with key `k`. */
  function LastValue(pairs: seq<Pair>, k: string): Option<string>
    decreases |pairs|
  {
    if pairs == [] then None
    else if pairs[|pairs| - 1].0 == k then Some(pairs[|pairs| - 1].1)
    else LastValue(pairs[..|pairs| - 1], k)
  }

  function Lookup(params: Params, k: string): Option<string> {
    if k in params then Some(params[k]) else None
  }

  /** `b` where it has a value, `a` otherwise. */
  function Prefer(b: Option<string>, a: Option<string>): Option<string> {
    if b.Some? then b else a
  }

  lemma {:induction false} LastValueCons(p: Pair, rest: seq<Pair>, k: string)
    ensures LastValue([p] + rest, k)
         == Prefer(LastValue(rest, k), if p.0 == k then Some(p.1) else None)
    decreases |rest|
  {
    var s := [p] + rest;
    if rest != [] {
      assert s[|s| - 1] == rest[|rest| - 1];
      assert s[..|s| - 1] == [p] + rest[..|rest| - 1];
      LastValueCons(p, rest[..|rest| - 1], k);
    }
  }

  /** Every pair enters the record, and on a repeated key the later pair wins;
      keys absent from the pairs keep their earlier value. */
  lemma {:induction false} AssignLastWins(params: Params, pairs: seq<Pair>, k: string)
    ensures Lookup(Assign(params, pairs), k) == Prefer(LastValue(pairs, k), Lookup(params, k))
    decreases |pairs|
  {
    if pairs != [] {
      var p := pairs[0];
      AssignLastWins(params[p.0 := p.1], pairs[1..], k);
      assert pairs == [p] + pairs[1..];
      LastValueCons(p, pairs[1..], k);
    }
  }

  // ---------------------------------------------------------------------------
  // Components of the URL
  // ---------------------------------------------------------------------------

  /** `url.split('?')[1]?.split('#')[0]`, present only when the URL has a `?`. */
  function QueryText(url: string): (q: Option<string>)
    ensures q.Some? <==> '?' in url
    ensures q.Some? ==> '?' !in q.value && '#' !in q.value
    ensures q.Some? ==> var i := |FirstPiece(url, '?')|;
      i < |url| && url[i] == '?' && StartsWith(url[i + 1..], q.value)
    ensures q.Some? ==> var end := |FirstPiece(url, '?')| + 1 + |q.value|;
      end == |url| || url[end] == '?' || url[end] == '#'
  {
    match SecondPiece(url, '?')
    case None => None
    case Some(afterMark) =>
      var q := FirstPiece(afterMark, '#');
      assert forall x :: x in q ==> x in afterMark by {
        forall x | x in q ensures x in afterMark {
          var i :| 0 <= i < |q| && q[i] == x;
          assert afterMark[i] == x;
        }
      }
      var i := |FirstPiece(url, '?')|;
      assert url[i + 1..][..|q|] == afterMark[..|q|];
      assert |q| < |afterMark| ==> url[i + 1 + |q|] == afterMark[|q|];
      Some(q)
  }

  /** `url.split('#')[1]`, present only when the URL has a `#`. */
  function FragmentText(url: string): (h: Option<string>)
    ensures h.Some? <==> '#' in url
    ensures h.Some? ==> '#' !in h.value
    ensures h.Some? ==> var i := |FirstPiece(url, '#')|;
      i < |url| && url[i] == '#' && StartsWith(url[i + 1..], h.value)
    ensures h.Some? ==> var end := |FirstPiece(url, '#')| + 1 + |h.value|;
      end == |url| || url[end] == '#'
  {
    SecondPiece(url, '#')
  }

  /** The query of `path ? query rest` is `query`, when the path has no `?`,
      the query has neither marker and `rest` is empty or starts with `#`. */
  lemma QueryOfJoin(path: string, query: string, rest: string)
    requires '?' !in path && '?' !in query && '#' !in query
    requires rest == [] || rest[0] == '#'
    ensures QueryText(path + ['?'] + query + rest) == Some(query)
  {
    var url := path + ['?'] + query + rest;
    assert url == path + ['?'] + (query + rest);
    FirstPieceOfJoin(path, '?', query + rest);
    var q := QueryText(url).value;
    assert url[|path| + 1..] == query + rest;
    assert forall k :: 0 <= k < |query| ==> url[|path| + 1 + k] == query[k];
    assert rest != [] ==> (query + rest)[|query|] == '#';
    assert forall k :: 0 <= k < |q| ==> q[k] == (query + rest)[k];
    assert q == (query + rest)[..|q|];
  }

  /** A URL assembled from a path, a query and a fragment gives those parts
      back, as long as each part is free of the markers that end it. */
  lemma ComponentsOfAssembledUrl(path: string, query: string, fragment: string)
    requires '?' !in path && '#' !in path
    requires '?' !in query && '#' !in query && '#' !in fragment
    ensures QueryText(path + "?" + query + "#" + fragment) == Some(query)
    ensures FragmentText(path + "?" + query + "#" + fragment) == Some(fragment)
  {
    var url := path + "?" + query + "#" + fragment;
    assert url == path + ['?'] + query + (['#'] + fragment);
    QueryOfJoin(path, query, ['#'] + fragment);
    var before := path + ['?'] + query;
    assert '#' !in before;
    assert url == before + ['#'] + fragment + [];
    SecondPieceOfJoin(before, '#', fragment, []);
  }

  /** Without a `#`, the query runs to the end and there is no fragment. */
  lemma QueryOfUrlWithoutFragment(path: string, query: string)
    requires '?' !in path && '#' !in path
    requires '?' !in query && '#' !in query
    ensures QueryText(path + "?" + query) == Some(query)
    ensures FragmentText(path + "?" + query).None?
  {
    var url := path + "?" + query;
    assert url == path + ['?'] + query + [];
    QueryOfJoin(path, query, []);
    assert '#' !in url;
  }

  /** The pairs a component contributes: none when it is absent or empty. */
  function ComponentPairs(component: Option<string>, parsePairs: PairParser): seq<Pair> {
    if Truthy(component) then parsePairs(component.value) else []
  }

  /** `allParams`: query pairs first, then fragment pairs over them. */
  function ExtractParams(url: string, parsePairs: PairParser): (params: Params)
    ensures !Truthy(QueryText(url)) && !Truthy(FragmentText(url)) ==> params == map[]
  {
    var fromQuery := Assign(map[], ComponentPairs(QueryText(url), parsePairs));
    Assign(fromQuery, ComponentPairs(FragmentText(url), parsePairs))
  }

  /** The merged record maps each key to its last fragment value when the
      fragment carries it, and to its last query value otherwise. */
  lemma MergedParams(url: string, parsePairs: PairParser, k: string)
    ensures Lookup(ExtractParams(url, parsePairs), k)
         == Prefer(LastValue(ComponentPairs(FragmentText(url), parsePairs), k),
                   LastValue(ComponentPairs(QueryText(url), parsePairs), k))
  {
    var q := ComponentPairs(QueryText(url), parsePairs);
    var h := ComponentPairs(FragmentText(url), parsePairs);
    AssignLastWins(map[], q, k);
    AssignLastWins(Assign(map[], q), h, k);
  }

  // ---------------------------------------------------------------------------
  // Routing decision
  // ---------------------------------------------------------------------------

  /** `allParams.type === 'recovery' || allParams.type === 'signup'`. */
  predicate TypeMarksAuth(params: Params) {
    "type" in params && (params["type"] == "recovery" || params["type"] == "signup")
  }

  /** `isAuthCallback`. A key the record lacks reads as `undefined`, which
      equals neither type. */
  function IsAuthCallback(url: string, params: Params): (yes: bool)
    ensures yes <==> Contains(url, "auth-callback") || Contains(url, "/auth/v1/verify")
                     || Lookup(params, "type") in {Some("recovery"), Some("signup")}
  {
    Contains(url, "auth-callback") || Contains(url, "/auth/v1/verify") || TypeMarksAuth(params)
  }

  /** `handleDeepLink`: the navigation it performs, if any. */
  function HandleDeepLink(url: string, parsePairs: PairParser): (nav: Option<Nav>)
    ensures nav.Some? <==> IsAuthCallback(url, ExtractParams(url, parsePairs))
    ensures nav.Some? ==> nav.value == Replace(CallbackPath, ExtractParams(url, parsePairs))
  {
    var params := ExtractParams(url, parsePairs);
    if IsAuthCallback(url, params) then Some(Replace(CallbackPath, params)) else None
  }

  /** A link whose URL names the callback host is forwarded whatever its
      parameters are. */
  lemma CallbackHostAlwaysForwarded(before: string, after: string, parsePairs: PairParser)
    ensures HandleDeepLink(before + "auth-callback" + after, parsePairs).Some?
  {
    ContainsSlice(before, "auth-callback", after);
  }

  /** The fragment's `type` overrides the query's: a query `type=signup` does
      not make a link an authentication callback when the fragment carries
      another `type` and the URL has neither callback marker. */
  lemma FragmentTypeOverridesQuery(url: string, parsePairs: PairParser, t: string)
    requires !Contains(url, "auth-callback") && !Contains(url, "/auth/v1/verify")
    requires LastValue(ComponentPairs(QueryText(url), parsePairs), "type") == Some("signup")
    requires LastValue(ComponentPairs(FragmentText(url), parsePairs), "type") == Some(t)
    requires t != "recovery" && t != "signup"
    ensures HandleDeepLink(url, parsePairs).None?
  {
    MergedParams(url, parsePairs, "type");
  }

  /** A `type=recovery` pair in the fragment, not overridden later in the
      fragment, forwards the link. */
  lemma RecoveryFragmentForwarded(url: string, parsePairs: PairParser)
    requires LastValue(ComponentPairs(FragmentText(url), parsePairs), "type") == Some("recovery")
    ensures HandleDeepLink(url, parsePairs) == Some(Replace(CallbackPath, ExtractParams(url, parsePairs)))
  {
    MergedParams(url, parsePairs, "type");
  }

  /** The two delivery paths: a URL event, and the initial URL the app was
      opened with (`null` or empty when there is none). */
  function OnUrlEvent(url: string, parsePairs: PairParser): (nav: Option<Nav>)
    ensures nav.Some? <==> IsAuthCallback(url, ExtractParams(url, parsePairs))
    ensures nav.Some? ==> nav == Some(Replace(CallbackPath, ExtractParams(url, parsePairs)))
  {
    HandleDeepLink(url, parsePairs)
  }

  function OnInitialUrl(url: Option<string>, parsePairs: PairParser): (nav: Option<Nav>)
    ensures !Truthy(url) ==> nav.None?
  {
    if Truthy(url) then HandleDeepLink(url.value, parsePairs) else None
  }

  /** The same link delivered either way leads to the same navigation. */
  lemma SameLinkSameNavigation(url: string, parsePairs: PairParser)
    requires url != ""
    ensures OnInitialUrl(Some(url), parsePairs) == OnUrlEvent(url, parsePairs)
  {
  }

  // ---------------------------------------------------------------------------
  // Redirect guard
  // ---------------------------------------------------------------------------

  /** `segments[i] === name`; a missing segment is `undefined` and matches nothing. */
  predicate SegmentIs(segments: seq<string>, i: nat, name: string) {
    i < |segments| && segments[i] == name
  }

  /** The layout's effect that sends a signed-in user out of the auth screens. */
  function AuthRedirect(cargando: bool, usuario: Option<Usuario>, segments: seq<string>): (nav: Option<Nav>)
    ensures cargando ==> nav.None?
    ensures nav.Some? ==> nav.value == Replace(TabsPath, map[])
    ensures nav.Some? <==> (!cargando && usuario.Some? && SegmentIs(segments, 0, "auth")
                            && !SegmentIs(segments, 1, "callback")
                            && !SegmentIs(segments, 1, "nueva-password"))
  {
    if cargando then None
    else
      var enAuth := SegmentIs(segments, 0, "auth");
      var enCallback := SegmentIs(segments, 1, "callback");
      var enNuevaPassword := SegmentIs(segments, 1, "nueva-password");
      if usuario.Some? && enAuth && !enCallback && !enNuevaPassword then Some(Replace(TabsPath, map[]))
      else None
  }
}

=== FILE: router.dfy ===
/** The navigation actions the screens ask of the router, and the alerts they
    show. Rendering is not modelled: a screen handler's observable outcome is
    one `Effect`. */
module Router {
  import opened Base

  /** Route parameters, as the deep-link handlers pass them to `/auth/callback`. */
  type Params = map<string, string>

  datatype Nav =
    | Replace(path: string, params: Params)   // router.replace
    | Push(path: string, params: Params)      // router.push
    | Back                                    // router.back

  /** What a handler does once it has finished: show an alert whose OK button
      may navigate, navigate directly, or nothing. */
  datatype Effect =
    | Alert(title: string, message: string, onOk: Option<Nav>)
    | Navigate(nav: Nav)
    | NoEffect

  /** `Alert.alert("Error", message)`. */
  function ErrorAlert(message: string): Effect {
    Alert("Error", message, None)
  }

  const TabsPath := "/(tabs)"
  const LoginPath := "/auth/login"
  const CallbackPath := "/auth/callback"
  const ContratacionesTabPath := "/(tabs)/contrataciones"
}

=== FILE: tables.dfy ===
/** In-memory semantics of the backend's table queries: `.eq(...)` filters,
    `.order(...)` sorts, and `.update(...).eq(...)` rewrites the matching rows.
    The backend does not promise an order between rows with equal sort keys, so
    a query result is specified as a sorted permutation of the matching rows. */
module Tables {

  /** Rows ordered by a non-decreasing key. */
  predicate SortedBy<T>(s: seq<T>, key: T -> real) {
    forall i, j :: 0 <= i < j < |s| ==> key(s[i]) <= key(s[j])
  }

  /** The rows of `s` that satisfy `p`, in table order. */
  function Filter<T(==,!new)>(s: seq<T>, p: T -> bool): (r: seq<T>)
    ensures forall x :: multiset(r)[x] == if p(x) then multiset(s)[x] else 0
    ensures forall i :: 0 <= i < |r| ==> p(r[i])
    ensures |r| <= |s|
  {
    if s == [] then []
    else
      assert s == [s[0]] + s[1..];
      var rest := Filter(s[1..], p);
      if p(s[0]) then [s[0]] + rest else rest
  }

  /** Inserts `x` before the first element with a larger key. */
  function Insert<T(==,!new)>(x: T, s: seq<T>, key: T -> real): (r: seq<T>)
    requires SortedBy(s, key)
    ensures SortedBy(r, key)
    ensures multiset(r) == multiset(s) + multiset{x}
  {
    if s == [] then [x]
    else if key(x) <= key(s[0]) then [x] + s
    else
      assert s == [s[0]] + s[1..];
      var rest := Insert(x, s[1..], key);
      assert forall y :: y in rest ==> key(s[0]) <= key(y) by {
        forall y | y in rest ensures key(s[0]) <= key(y) {
          assert y in multiset(rest);
          if y != x {
            assert y in multiset(s[1..]);
            var k :| 0 <= k < |s[1..]| && s[1..][k] == y;
            assert s[k + 1] == y;
          }
        }
      }
      [s[0]] + rest
  }

  /** `.order(key)` as an insertion sort: the result is sorted and holds exactly
      the input rows. */
  function SortBy<T(==,!new)>(s: seq<T>, key: T -> real): (r: seq<T>)
    ensures SortedBy(r, key)
    ensures multiset(r) == multiset(s)
    ensures |r| == |s|
  {
    if s == [] then []
    else
      assert s == [s[0]] + s[1..];
      Insert(s[0], SortBy(s[1..], key), key)
  }

  /** `.update(...).eq(...)`: rewrites every row that `p` selects with `f`,
      keeping positions and every other row. */
  function UpdateWhere<T>(s: seq<T>, p: T -> bool, f: T -> T): (r: seq<T>)
    ensures |r| == |s|
    ensures forall i :: 0 <= i < |s| ==> r[i] == if p(s[i]) then f(s[i]) else s[i]
  {
    seq(|s|, i requires 0 <= i < |s| => if p(s[i]) then f(s[i]) else s[i])
  }
}

=== FILE: use_auth.dfy ===
/** The `useAuth` hook: the screen-side view of the session (`usuario`,
    `cargando`) and how each event changes it. React state updates are
    modelled as functions from the old view to the new one. */
module UseAuth {
  import opened Base
  import opened Models
  import Auth = AuthUseCase

  datatype AuthView = AuthView(usuario: Option<Usuario>, cargando: bool)

  /** The view before anything has been read. */
  const Initial := AuthView(None, true)

  /** `verificarSesion`: the view shows the facade's current user and stops
      loading; `read` is how the facade's reads went. */
  function VerificarSesion(b: Auth.Backend, read: Auth.UserRead): (v: AuthView)
    ensures !v.cargando
    ensures v.usuario.None? <==> b.principal.None? || read.getUserThrows
    ensures v.usuario.Some? && read.rowFault.None? && b.principal.value.id in b.usuarios ==>
      v.usuario.value == b.usuarios[b.principal.value.id]
    ensures v.usuario.Some? && (read.rowFault.Some? || b.principal.value.id !in b.usuarios) ==>
      v.usuario.value == Auth.FallbackUser(b.principal.value)
  {
    AuthView(Auth.ObtenerUsuarioActual(b, read), false)
  }

  /** The subscription handler: whatever user an auth event delivers is shown,
      and loading stops. */
  function OnAuthEvent(v: AuthView, b: Auth.Backend, sessionUser: Option<Auth.AuthUser>, read: Auth.UserRead): (w: AuthView)
    ensures !w.cargando
    ensures sessionUser.None? ==> w.usuario.None?
    ensures sessionUser.Some? ==> w == VerificarSesion(b, read)
  {
    AuthView(Auth.AuthStateValue(b, sessionUser, read), false)
  }

  /** `esAsesor`: `usuario?.rol === "asesor_comercial"`. */
  function EsAsesor(v: AuthView): (r: bool)
    ensures r <==> v.usuario.Some? && RolName(v.usuario.value.rol) == "asesor_comercial"
  {
    v.usuario.Some? && v.usuario.value.rol == AsesorComercial
  }

  /** `actualizarPerfil` of the hook: the facade's result is returned as it
      is, and the view is refreshed only when it reports success. */
  function ActualizarPerfil(v: AuthView, b: Auth.Backend, nombre: string, telefono: Option<string>,
                            fault: Option<string>, read: Auth.UserRead): (out: (AuthView, Auth.Backend, OpResult))
    ensures (out.1, out.2) == Auth.ActualizarPerfil(b, nombre, telefono, fault)
    ensures out.2.Ok? ==> out.0 == VerificarSesion(out.1, read)
    ensures !out.2.Ok? ==> out.0 == v
  {
    var (b', result) := Auth.ActualizarPerfil(b, nombre, telefono, fault);
    if result.Success() then (VerificarSesion(b', read), b', result) else (v, b', result)
  }

  /** After a successful profile save the view shows the new name, and the
      new phone when one was given. */
  lemma SavedProfileShown(v: AuthView, b: Auth.Backend, nombre: string, telefono: Option<string>)
    requires b.principal.Some? && b.principal.value.id in b.usuarios
    ensures var out := ActualizarPerfil(v, b, nombre, telefono, None, Auth.CleanRead);
      out.2 == Ok && out.0.usuario.Some? && out.0.usuario.value.nombre == Some(nombre)
      && (Truthy(telefono) ==> out.0.usuario.value.telefono == telefono)
  {
    Auth.ProfileUpdateThenRead(b, nombre, telefono);
  }

  /** Signing in and the auth event that follows leave the view showing the
      signed-in user, with loading over. */
  lemma SignInShowsUser(v: AuthView, b: Auth.Backend, user: Auth.AuthUser, read: Auth.UserRead)
    requires Auth.WellKeyed(b) && !read.getUserThrows
    ensures var after := Auth.IniciarSesion(b, Auth.SignInAccepted(user)).0;
      var w := OnAuthEvent(v, after, Some(user), read);
      !w.cargando && w.usuario.Some? && w.usuario.value.id == user.id
  {
    Auth.SignInEventDeliversUser(b, user, read);
  }

  /** Signing out and the event without a session leave no user in the view,
      and no advisor rights. */
  lemma SignOutClearsUser(v: AuthView, b: Auth.Backend, read: Auth.UserRead)
    ensures var after := Auth.CerrarSesion(b, None).0;
      var w := OnAuthEvent(v, after, None, read);
      w.usuario.None? && !EsAsesor(w) && VerificarSesion(after, read).usuario.None?
  {
  }
}

=== FILE: use_contrataciones.dfy ===
/** The `useContrataciones` hook: which query feeds the list of hiring
    requests, the initial load, and the reload that follows a successful
    change. The hook is created with an optional user id and an advisor flag. */
module UseContrataciones {
  import opened Base
  import opened Models
  import C = ContratacionesUseCase

  datatype ContratacionesView = ContratacionesView(contrataciones: seq<Contratacion>, cargando: bool)

  /** The view before anything has been read. */
  const Initial := ContratacionesView([], true)

  /** `cargarContrataciones`: an advisor sees every request, even when a user
      id was also given; a user sees their own; with neither the list is empty. */
  function CargarContrataciones(t: C.Table, usuarioId: Option<string>, esAsesor: bool, fault: Option<string>): (v: ContratacionesView)
    ensures !v.cargando
    ensures esAsesor ==> v.contrataciones == C.ObtenerTodasLasContrataciones(t, fault)
    ensures !esAsesor && Truthy(usuarioId) ==> v.contrataciones == C.ObtenerContratacionesPorUsuario(t, usuarioId.value, fault)
    ensures !esAsesor && !Truthy(usuarioId) ==> v.contrataciones == []
  {
    var data :=
      if esAsesor then C.ObtenerTodasLasContrataciones(t, fault)
      else if usuarioId.Some? && usuarioId.value != "" then C.ObtenerContratacionesPorUsuario(t, usuarioId.value, fault)
      else [];
    ContratacionesView(data, false)
  }

  /** The mount effect: it loads only when there is a user id or the advisor
      flag is set; otherwise the view keeps its initial, still-loading state. */
  function Montar(t: C.Table, usuarioId: Option<string>, esAsesor: bool, fault: Option<string>): (v: ContratacionesView)
    ensures Truthy(usuarioId) || esAsesor ==> v == CargarContrataciones(t, usuarioId, esAsesor, fault)
    ensures !Truthy(usuarioId) && !esAsesor ==> v.cargando && v.contrataciones == []
  {
    if Truthy(usuarioId) || esAsesor then CargarContrataciones(t, usuarioId, esAsesor, fault) else Initial
  }

  /** What each kind of caller sees after mounting with a working backend:
      an advisor every request, a user exactly their own requests. */
  lemma {:induction false} MountedListByRole(t: C.Table, usuarioId: Option<string>, esAsesor: bool)
    ensures var v := Montar(t, usuarioId, esAsesor, None);
      (esAsesor ==> multiset(v.contrataciones) == multiset(t))
      && (!esAsesor && Truthy(usuarioId) ==>
            forall c :: c in v.contrataciones <==> c in t && c.usuarioId == usuarioId.value)
  {
    var v := Montar(t, usuarioId, esAsesor, None);
    if !esAsesor && Truthy(usuarioId) {
      forall c ensures c in v.contrataciones <==> c in t && c.usuarioId == usuarioId.value {
        assert c in v.contrataciones <==> c in multiset(v.contrataciones);
        assert c in t <==> c in multiset(t);
      }
    }
  }

  /** `cargarPendientes`: the pending requests replace the list. */
  function CargarPendientes(t: C.Table, fault: Option<string>): (v: ContratacionesView)
    ensures !v.cargando
    ensures v.contrataciones == C.ObtenerContratacionesPendientes(t, fault)
    ensures forall c :: c in v.contrataciones ==> c.estado == Pendiente
  {
    var r := C.ObtenerContratacionesPendientes(t, fault);
    assert forall c :: c in r ==> c.estado == Pendiente by {
      forall c | c in r ensures c.estado == Pendiente {
        assert c in multiset(r);
      }
    }
    ContratacionesView(r, false)
  }

  /** The view after a change: reloaded on success, untouched otherwise. */
  function AfterChange(v: ContratacionesView, ok: bool, t: C.Table, usuarioId: Option<string>, esAsesor: bool,
                       reloadFault: Option<string>): (w: ContratacionesView)
    ensures ok ==> w == CargarContrataciones(t, usuarioId, esAsesor, reloadFault)
    ensures !ok ==> w == v
  {
    if ok then CargarContrataciones(t, usuarioId, esAsesor, reloadFault) else v
  }

  /** `crear`: the request is made for the given user; the reload uses the
      hook's own user id and flag. */
  function Crear(v: ContratacionesView, t: C.Table, hookUsuarioId: Option<string>, esAsesor: bool,
                 usuarioId: string, planId: string, notasUsuario: Option<string>, newId: string, now: int,
                 fault: Option<string>, reloadFault: Option<string>): (out: (ContratacionesView, C.Table, OpResult))
    ensures (out.1, out.2) == C.CrearContratacion(t, usuarioId, planId, notasUsuario, newId, now, fault)
    ensures out.2.Ok? ==> out.0 == CargarContrataciones(out.1, hookUsuarioId, esAsesor, reloadFault)
    ensures !out.2.Ok? ==> out.0 == v
  {
    var (t', result) := C.CrearContratacion(t, usuarioId, planId, notasUsuario, newId, now, fault);
    (AfterChange(v, result.Success(), t', hookUsuarioId, esAsesor, reloadFault), t', result)
  }

  /** `actualizarEstado`. */
  function ActualizarEstado(v: ContratacionesView, t: C.Table, hookUsuarioId: Option<string>, esAsesor: bool,
                            id: string, d: C.Decision, asesorId: string, notasAsesor: Option<string>, now: int,
                            fault: Option<string>, reloadFault: Option<string>): (out: (ContratacionesView, C.Table, OpResult))
    ensures (out.1, out.2) == C.ActualizarEstadoContratacion(t, id, d, asesorId, notasAsesor, now, fault)
    ensures out.2.Ok? ==> out.0 == CargarContrataciones(out.1, hookUsuarioId, esAsesor, reloadFault)
    ensures !out.2.Ok? ==> out.0 == v
  {
    var (t', result) := C.ActualizarEstadoContratacion(t, id, d, asesorId, notasAsesor, now, fault);
    (AfterChange(v, result.Success(), t', hookUsuarioId, esAsesor, reloadFault), t', result)
  }

  /** `cancelar`. */
  function Cancelar(v: ContratacionesView, t: C.Table, hookUsuarioId: Option<string>, esAsesor: bool, id: string,
                    fault: Option<string>, reloadFault: Option<string>): (out: (ContratacionesView, C.Table, OpResult))
    ensures (out.1, out.2) == C.CancelarContratacion(t, id, fault)
    ensures out.2.Ok? ==> out.0 == CargarContrataciones(out.1, hookUsuarioId, esAsesor, reloadFault)
    ensures !out.2.Ok? ==> out.0 == v
  {
    var (t', result) := C.CancelarContratacion(t, id, fault);
    (AfterChange(v, result.Success(), t', hookUsuarioId, esAsesor, reloadFault), t', result)
  }

  /** A request the user makes from their own hook appears in their reloaded
      list as pending. */
  lemma {:induction false} OwnRequestShown(v: ContratacionesView, t: C.Table, usuarioId: string, planId: string,
                                           notas: Option<string>, newId: string, now: int)
    requires usuarioId != ""
    ensures var out := Crear(v, t, Some(usuarioId), false, usuarioId, planId, notas, newId, now, None, None);
      out.2 == Ok && out.1[|t|] in out.0.contrataciones && out.1[|t|].estado == Pendiente
  {
    var out := Crear(v, t, Some(usuarioId), false, usuarioId, planId, notas, newId, now, None, None);
    var row := out.1[|t|];
    assert row in multiset(out.1);
    assert multiset(out.0.contrataciones)[row] == multiset(out.1)[row];
  }

  /** A failed change leaves both the table and the view as they were. */
  lemma FailedCancelChangesNothing(v: ContratacionesView, t: C.Table, hookUsuarioId: Option<string>, esAsesor: bool,
                                   id: string, error: string, reloadFault: Option<string>)
    ensures Cancelar(v, t, hookUsuarioId, esAsesor, id, Some(error), reloadFault) == (v, t, Fail(error))
  {
  }
}

=== FILE: use_planes.dfy ===
/** The `usePlanes` hook: which query feeds the list, and the reload that
    follows a successful change. */
module UsePlanes {
  import opened Base
  import opened Models
  import Planes = PlanesUseCase

  datatype PlanesView = PlanesView(planes: seq<PlanMovil>, cargando: bool)

  /** `cargarPlanes`: an advisor's own plans when the hook was given an
      advisor id, the public catalogue otherwise. */
  function CargarPlanes(t: Planes.Table, asesorId: Option<string>, fault: Option<string>): (v: PlanesView)
    ensures !v.cargando
    ensures Truthy(asesorId) ==> v.planes == Planes.ObtenerPlanesPorAsesor(t, asesorId.value, fault)
    ensures !Truthy(asesorId) ==> v.planes == Planes.ObtenerPlanes(t, fault)
  {
    if asesorId.Some? && asesorId.value != "" then PlanesView(Planes.ObtenerPlanesPorAsesor(t, asesorId.value, fault), false)
    else PlanesView(Planes.ObtenerPlanes(t, fault), false)
  }

  /** The catalogue view shows only active plans; an advisor's view shows only
      that advisor's plans. */
  lemma ListedPlansBelong(t: Planes.Table, asesorId: Option<string>, fault: Option<string>)
    ensures var v := CargarPlanes(t, asesorId, fault);
      forall p :: p in v.planes ==>
        (p in t && if Truthy(asesorId) then p.asesorId == Some(asesorId.value) else p.activo)
  {
    var v := CargarPlanes(t, asesorId, fault);
    forall p | p in v.planes
      ensures p in t && (if Truthy(asesorId) then p.asesorId == Some(asesorId.value) else p.activo)
    {
      assert p in multiset(v.planes);
    }
  }

  /** The view after a change: reloaded from the changed table on success,
      untouched otherwise. */
  function AfterChange(v: PlanesView, ok: bool, t: Planes.Table, asesorId: Option<string>, reloadFault: Option<string>): (w: PlanesView)
    ensures ok ==> w == CargarPlanes(t, asesorId, reloadFault)
    ensures !ok ==> w == v
  {
    if ok then CargarPlanes(t, asesorId, reloadFault) else v
  }

  /** `crear`: the use case's result, returned as it is. */
  function Crear(v: PlanesView, t: Planes.Table, asesorId: Option<string>, draft: Planes.PlanDraft, newId: string,
                 now: int, fault: Option<string>, reloadFault: Option<string>): (out: (PlanesView, Planes.Table, Result<PlanMovil>))
    ensures (out.1, out.2) == Planes.CrearPlan(t, draft, newId, now, fault)
    ensures out.2.Success? ==> out.0 == CargarPlanes(out.1, asesorId, reloadFault)
    ensures !out.2.Success? ==> out.0 == v
  {
    var (t', result) := Planes.CrearPlan(t, draft, newId, now, fault);
    (AfterChange(v, result.Succeeded(), t', asesorId, reloadFault), t', result)
  }

  /** `actualizar`. */
  function Actualizar(v: PlanesView, t: Planes.Table, asesorId: Option<string>, id: string, patch: Planes.PlanPatch,
                      fault: Option<string>, reloadFault: Option<string>): (out: (PlanesView, Planes.Table, OpResult))
    ensures (out.1, out.2) == Planes.ActualizarPlan(t, id, patch, fault)
    ensures out.2.Ok? ==> out.0 == CargarPlanes(out.1, asesorId, reloadFault)
    ensures !out.2.Ok? ==> out.0 == v
  {
    var (t', result) := Planes.ActualizarPlan(t, id, patch, fault);
    (AfterChange(v, result.Success(), t', asesorId, reloadFault), t', result)
  }

  /** `eliminar`. */
  function Eliminar(v: PlanesView, t: Planes.Table, bucket: Planes.Bucket, asesorId: Option<string>, id: string,
                    lookupFault: Option<string>, removeFault: bool, fault: Option<string>,
                    reloadFault: Option<string>): (out: (PlanesView, Planes.Table, Planes.Bucket, OpResult))
    ensures (out.1, out.2, out.3) == Planes.EliminarPlan(t, bucket, id, lookupFault, removeFault, fault)
    ensures out.3.Ok? ==> out.0 == CargarPlanes(out.1, asesorId, reloadFault)
    ensures !out.3.Ok? ==> out.0 == v
  {
    var (t', bucket', result) := Planes.EliminarPlan(t, bucket, id, lookupFault, removeFault, fault);
    (AfterChange(v, result.Success(), t', asesorId, reloadFault), t', bucket', result)
  }

  /** A plan an advisor creates for themself shows up in their reloaded list. */
  lemma {:induction false} CreatedPlanListed(v: PlanesView, t: Planes.Table, asesorId: string, draft: Planes.PlanDraft,
                                             newId: string, now: int)
    requires asesorId != "" && draft.asesorId == Some(asesorId)
    ensures var out := Crear(v, t, Some(asesorId), draft, newId, now, None, None);
      out.2.Success? && out.2.value in out.0.planes
  {
    var out := Crear(v, t, Some(asesorId), draft, newId, now, None, None);
    var p := out.2.value;
    assert out.1 == t + [p];
    assert p in multiset(out.1);
    assert multiset(out.0.planes)[p] == multiset(out.1)[p];
  }

  /** Deleting a plan from the catalogue view removes it from the reloaded list. */
  lemma {:induction false} DeletedPlanLeavesCatalogue(v: PlanesView, t: Planes.Table, bucket: Planes.Bucket, i: nat,
                                                      lookupFault: Option<string>, removeFault: bool)
    requires i < |t|
    ensures var out := Eliminar(v, t, bucket, None, t[i].id, lookupFault, removeFault, None, None);
      out.3 == Ok && out.1[i] !in out.0.planes
  {
    var out := Eliminar(v, t, bucket, None, t[i].id, lookupFault, removeFault, None, None);
    assert !out.1[i].activo;
    assert multiset(out.0.planes)[out.1[i]] == 0;
  }
}

=== FILE: validators.dfy ===
/** The two regular expressions the forms share: the Ecuadorian phone number
    `^(\+593|0)?[9][0-9]{8}$`, tried after removing all whitespace, and the
    email shape `^[^\s@]+@[^\s@]+\.[^\s@]+$`.

    Each is given twice: a direct check that a screen can run, and the
    pattern's own meaning (which strings the expression matches); a lemma
    shows the two agree on every string. */
module Validators {
  import opened Base

  // ---------------------------------------------------------------------------
  // Phone
  // ---------------------------------------------------------------------------

  /** `tel.replace(/\s/g, "")`. */
  function StripWhitespace(s: string): (r: string)
    ensures NoWhitespace(r)
    ensures |r| <= |s|
    ensures NoWhitespace(s) ==> r == s
    decreases |s|
  {
    if s == [] then []
    else
      assert s == [s[0]] + s[1..];
      var rest := StripWhitespace(s[1..]);
      if IsWhitespace(s[0]) then rest else [s[0]] + rest
  }

  /** `[9][0-9]{8}`: nine digits, the first a 9. */
  predicate PhoneBody(s: string) {
    |s| == 9 && s[0] == '9' && AllDigits(s)
  }

  /** The alternatives of the optional group `(\+593|0)?`. */
  const PhonePrefixes: seq<string> := ["", "+593", "0"]

  /** The strings the phone expression matches: one of the prefixes followed
      by a phone body, and nothing else. */
  predicate MatchesPhonePattern(s: string) {
    exists k :: 0 <= k < |PhonePrefixes| && StartsWith(s, PhonePrefixes[k]) && PhoneBody(s[|PhonePrefixes[k]|..])
  }

  /** The check decided by length: nine characters carry no prefix, ten the
      `0` and thirteen the `+593`. */
  predicate PhoneByLength(s: string) {
    if |s| == 9 then PhoneBody(s)
    else if |s| == 10 then s[0] == '0' && PhoneBody(s[1..])
    else if |s| == 13 then s[..4] == "+593" && PhoneBody(s[4..])
    else false
  }

  lemma PhoneByLengthIff(s: string)
    ensures PhoneByLength(s) <==> MatchesPhonePattern(s)
  {
    if PhoneByLength(s) {
      if |s| == 9 {
        assert StartsWith(s, PhonePrefixes[0]) && s[|PhonePrefixes[0]|..] == s;
      } else if |s| == 10 {
        assert StartsWith(s, PhonePrefixes[2]);
      } else {
        assert StartsWith(s, PhonePrefixes[1]);
      }
    }
  }

  /** `validarTelefono` of the registration form. */
  function ValidarTelefono(tel: string): (ok: bool)
    ensures ok <==> MatchesPhonePattern(StripWhitespace(tel))
  {
    PhoneByLengthIff(StripWhitespace(tel));
    PhoneByLength(StripWhitespace(tel))
  }

  /** Stripping whitespace works piece by piece. */
  lemma {:induction false} StripConcat(a: string, b: string)
    ensures StripWhitespace(a + b) == StripWhitespace(a) + StripWhitespace(b)
    decreases |a|
  {
    if a != [] {
      assert (a + b)[1..] == a[1..] + b;
      StripConcat(a[1..], b);
    } else {
      assert a + b == b;
    }
  }

  /** Stripping keeps every other character, as often as it occurs. */
  lemma {:induction false} StripKeepsOthers(s: string, c: char)
    requires !IsWhitespace(c)
    ensures multiset(StripWhitespace(s))[c] == multiset(s)[c]
    decreases |s|
  {
    if s != [] {
      assert s == [s[0]] + s[1..];
      StripKeepsOthers(s[1..], c);
    }
  }

  /** The number as the form's hint writes it, with a space after the
      country code, is accepted. */
  lemma SpacedPhoneAccepted(body: string)
    requires PhoneBody(body)
    ensures ValidarTelefono(CountryCode + " " + body)
  {
    SpaceStripped();
    CountryCodeKept();
    StripConcat(CountryCode, " " + body);
    StripConcat(" ", body);
    assert CountryCode + " " + body == CountryCode + (" " + body);
    assert NoWhitespace(body);
    CountryCodeThenBody(body);
  }

  const CountryCode := "+593"

  lemma SpaceStripped()
    ensures StripWhitespace(" ") == ""
  {
    assert IsWhitespace(' ');
    assert StripWhitespace(" "[1..]) == [];
  }

  lemma CountryCodeKept()
    ensures StripWhitespace(CountryCode) == CountryCode
  {
    forall i | 0 <= i < |CountryCode| ensures !IsWhitespace(CountryCode[i]) {
      assert CountryCode[i] in "+593";
    }
  }

  lemma CountryCodeThenBody(body: string)
    requires PhoneBody(body)
    ensures MatchesPhonePattern(CountryCode + body)
  {
    assert StartsWith(CountryCode + body, PhonePrefixes[1]);
    assert (CountryCode + body)[4..] == body;
  }

  // ---------------------------------------------------------------------------
  // Email
  // ---------------------------------------------------------------------------

  /** The strings the email expression matches: a non-empty local part, one
      `@`, a non-empty part, a `.`, and a non-empty part, with no whitespace
      anywhere and no other `@`. */
  predicate MatchesEmailPattern(s: string) {
    NoWhitespace(s)
    && exists i, j :: 0 < i && i + 1 < j && j + 1 < |s| && s[i] == '@' && s[j] == '.' && OnlyAt(s, '@', i)
  }

  /** `c` occurs in `s` at position `i` and nowhere else. */
  predicate OnlyAt(s: string, c: char, i: int) {
    forall k :: 0 <= k < |s| && k != i ==> s[k] != c
  }

  /** The direct check: no whitespace, a non-empty text before the first
      `@`, no second `@`, and a `.` in the domain that is neither its first
      nor its last character. */
  function ValidEmail(s: string): (ok: bool)
    ensures ok <==> MatchesEmailPattern(s)
  {
    var local := FirstPiece(s, '@');
    var ok := NoWhitespace(s) && |local| < |s| && |local| > 0
              && '@' !in s[|local| + 1..] && |s| - |local| - 1 >= 3
              && '.' in s[|local| + 2..|s| - 1];
    EmailIff(s);
    ok
  }

  lemma EmailIff(s: string)
    ensures var local := FirstPiece(s, '@');
      (NoWhitespace(s) && |local| < |s| && |local| > 0
       && '@' !in s[|local| + 1..] && |s| - |local| - 1 >= 3
       && '.' in s[|local| + 2..|s| - 1])
      <==> MatchesEmailPattern(s)
  {
    var local := FirstPiece(s, '@');
    var i := |local|;
    if NoWhitespace(s) && i < |s| && i > 0 && '@' !in s[i + 1..] && |s| - i - 1 >= 3 && '.' in s[i + 2..|s| - 1] {
      var m :| 0 <= m < |s[i + 2..|s| - 1]| && s[i + 2..|s| - 1][m] == '.';
      var j := i + 2 + m;
      assert s[j] == '.';
      forall k | 0 <= k < |s| && k != i ensures s[k] != '@' {
        if k < i {
          assert s[k] == local[k];
        } else {
          assert s[k] == s[i + 1..][k - i - 1];
        }
      }
    }
    if MatchesEmailPattern(s) {
      var a, b :| 0 < a && a + 1 < b && b + 1 < |s| && s[a] == '@' && s[b] == '.' && OnlyAt(s, '@', a);
      FirstPieceAt(s, '@', a);
      assert '@' !in s[a + 1..] by {
        var tail := s[a + 1..];
        forall k | 0 <= k < |tail| ensures tail[k] != '@' {
          assert tail[k] == s[a + 1 + k];
        }
      }
      assert s[a + 2..|s| - 1][b - a - 2] == '.';
    }
  }

  /** When `c` first occurs at `i`, the text before the first `c` is `s[..i]`. */
  lemma {:induction false} FirstPieceAt(s: string, c: char, i: nat)
    requires i < |s| && s[i] == c && forall k :: 0 <= k < i ==> s[k] != c
    ensures |FirstPiece(s, c)| == i
    decreases i
  {
    if i > 0 {
      FirstPieceAt(s[1..], c, i - 1);
    }
  }
}
